=== FILE: README.md ===
# Feathers DataLoader: a verified model of the loader core

This project models the batching and caching layer that the Feathers
DataLoader package puts in front of a Feathers service. It covers both
the TypeScript sources (`src/*.ts`) and the older JavaScript sources
(`src/*.js`). The two are modelled side by side: a `Dialect` value (`Ts` or
`Js`) selects whichever behaviour differs.

- **Cache keys.** `stableStringify` turns a request description into
  text with object keys sorted at every depth (the model writes them in
  sorted order; JavaScript writes integer-like names first, see
  `Objects.KeysOfPut` under "## Left out"). JSON text is modelled as a
  token stream, so number formatting and string escaping are not part of the
  model. A function anywhere in the value makes it throw. A token parser plays
  `JSON.parse`. The model proves the parser recovers the canonical value from
  the key, and that two keys are equal only when the canonical values are.
- **Helpers.** Property reads `x[k]` cover own properties of plain objects,
  array elements and string characters at decimal indices, and the
  `length` of arrays and strings. The helpers are `getByDotPath`, `defaultCacheParamsFn`,
  `defaultCacheKeyFn` and `uniqueKeys`. The `_` object helpers of
  `src/utils.js` (`assign`, `omit`, `pick`, `has`) are modelled too.
- **Demultiplexing.** `uniqueResults` and `uniqueResultsMulti` map one
  batched service answer back onto the requested keys:
  - the last matching record wins in the single-record form;
  - every matching record is kept, in answer order, in the multi form;
  - the default value fills a key with no match.

  A plain array, a paginated `{ data }` envelope and, in JavaScript, a string
  are all accepted as the answer.
- **ServiceLoader.** It is a class whose fields are updated by `exec`:
  - the cache map, a JS `Map` with entries plus insertion order;
  - the registry of DataLoaders;
  - the log of backend calls.

  `exec` is proved equal to a pure description of one call, `ExecOutcome`.
  That description says:
  - whether the cache is hit;
  - which backend call is made, and at most one is;
  - which DataLoader is registered;
  - which cache entry is written.

  Ids passed as an array are sorted with JavaScript's default sort: by
  string form, stable, `undefined` last. So permuted id lists whose ids have
  distinct string forms share one cache entry and one result.
- **Clearing a ServiceLoader.** `clear` removes exactly the entries
  whose key parses to this loader's `serviceName`. It rejects when a key does
  not parse.
- **ChainedLoader** (JavaScript only). `key`, `multi` and `select`
  build a chain whose results are post-processed by the loader's `selectFn`.
  `src/utils.js` does not define the `defaultSelectFn` that
  `src/serviceLoader.js` imports. So a JS loader created without `selectFn`
  has no projection. A chain with a selection then rejects on any result that
  needs one. The model keeps this as `selectFn: Option<...>`, and
  `ChainedLoaders.Process` states it.
- **AppLoader.** It is a registry of ServiceLoaders, one per service
  name. Each is built on first use from the global options merged with the
  per-service options. `clear` empties every cache (TS) or clears every loader
  (JS) and then empties the registry.

The backend service is a parameter of the model: its method names, its
`options` value and a function giving the answer to each call. `None`
stands for a rejected promise. DataLoader itself is abstract: `load(id)`
runs the batch function on `[id]`, and `loadMany(ids)` on `ids`. A `null`
or `undefined` id makes `load` throw before it queues anything. So `load()`
and `load(null)` reject without a backend call. `loadMany` has already
queued the ids sorted before the first nullish one: their batch still runs,
and the call rejects.

Where the JavaScript source does something its authors evidently did not
intend, the model logs it under "## Findings". It states the as-written
behaviour in one member and proves the intended behaviour about the member
the rest of the model uses.

## Model

| member | source | states |
|---|---|---|
| Json.NatToDecimal | src/utils.ts:112 | `String(n)` of a natural number is a non-empty string of decimal digits |
| Json.NatToDecimalInjective | src/utils.ts:45 | different numbers have different decimal forms, so an index name denotes one index |
| Json.ArrayIndex | src/utils.ts:45 | a property name is an index of an array of length `n` exactly when it is the decimal form of some `i < n`, and then it names that `i` |
| Json.GetIndex | src/utils.ts:45 | `items[String(i)]` is element `i` of the array for every `i` below its length |
| Json.StrLessTotal | src/utils.ts:63 | JavaScript's default string order on keys is total: of two distinct strings one precedes the other |
| Json.StrLessTransitive | src/utils.ts:63 | the key order is transitive |
| Json.StrLessIrreflexive | src/utils.ts:63 | no key precedes itself |
| Json.SortKeysSorted | src/utils.ts:63 | `Object.keys(value).sort()` yields the same keys, strictly ascending |
| Json.StrictlySortedUnique | src/utils.ts:63 | two strictly ascending key lists with the same elements are identical, so the sorted key order is unique |
| Objects.LookupPut | src/utils.ts:67 | after `result[key] = v`, reading `key` gives `v` and every other key is unchanged |
| Objects.KeysOfPut | src/utils.ts:67 | in this model's insertion order (see Left out): assigning a new key appends it to the key order; assigning an existing key keeps the order |
| Objects.IndexOfPut | src/utils.js:31 | after an assignment a key is present exactly when it was before or is the assigned one |
| Objects.LookupSpread | src/serviceLoader.ts:164-171 | in `{...t, ...s}` a key reads as its last occurrence in `s`, otherwise as in `t`; an explicit `undefined` in `s` overrides |
| Objects.Assign | src/utils.js:10-20 | `_.assign` returns the spread of the target with the source's defined fields |
| Objects.LookupAssign | src/utils.js:10-20 | after `_.assign` a key reads as its last defined value in the source, otherwise as in the target |
| Objects.AssignIsSpreadOfDefined | src/utils.js:10-20 | `_.assign(t, s)` equals `{...t, ...s}` with the undefined fields of `s` removed |
| Objects.Delete | src/serviceLoader.ts:119-121 | `delete obj[k]` leaves no field named `k` and adds no field |
| Objects.LookupDelete | src/serviceLoader.ts:119-121 | after `delete obj[k]`, `k` reads as undefined and every other key is unchanged |
| Objects.Without | src/utils.js:21-27 | the fields of an object whose names are not listed: a field is kept exactly when it is a source field with an unlisted name |
| Objects.WithoutNone | src/utils.js:21-27 | omitting no names keeps every field in order |
| Objects.DeleteWithout | src/utils.js:23-25 | deleting one more name after omitting some is omitting them all |
| Objects.Omit | src/utils.js:21-27 | `_.omit` returns exactly the source's fields whose names are not listed, in their order, undefined values included; it reads undefined at the omitted keys and as the source elsewhere |
| Objects.LookupPick | src/utils.js:28-35 | `_.pick` reads as the source at the picked keys and undefined elsewhere; its own properties are exactly the listed keys whose source value is not undefined |
| Objects.PickOf | src/utils.js:28-35 | the `reduce` of `_.pick`, one listed name at a time; `Objects.LookupPick` states what it holds |
| Objects.Has | src/utils.js:36-43 | `_.has` is true exactly when some listed key is an own field of the source |
| Utils.Split | src/utils.ts:39 | `split('.')` yields at least one part and no part contains the separator |
| Utils.SplitJoin | src/utils.ts:39 | joining the parts with the separator gives back the path |
| Utils.SplitNoSeparator | src/utils.ts:39 | a path without a dot splits into itself alone |
| Utils.DotPath | src/utils.ts:38-48 | the walk `getByDotPath` performs; stated by `Utils.DotPathConcat`, `DotPathNullish`, `DotPathStopsAtNullish`, `DotPathSingle` and `DotPathThroughArray` |
| Utils.GetByDotPath | src/utils.ts:38-48 | the loop computes the walk of the object along the dot-separated parts |
| Utils.DotPathConcat | src/utils.ts:41-46 | walking `a + b` is walking `a` and then `b` from where it ended |
| Utils.DotPathNullish | src/utils.ts:42-44 | from `null` or `undefined`, any non-empty walk gives undefined |
| Utils.DotPathStopsAtNullish | src/utils.ts:41-46 | once a prefix of the path reaches `null` or `undefined`, the whole lookup is undefined |
| Utils.DotPathSingle | src/utils.ts:45 | a one-part path reads the property directly |
| Utils.DotPathThroughArray | src/utils.ts:41-46 | a path goes through arrays: `'k.i'` reads element `i` of the array under `k`, and `'k.length'` its length |
| Utils.DotPathPlainKey | src/utils.ts:38-48 | a key without a dot reads the property directly, as the JS sources do |
| Utils.DefaultCacheParams | src/utils.ts:80-90 | falsy params are returned as they are; otherwise an object with exactly provider, authentication, user and query, copied from params |
| Utils.CacheParamsIgnoreOthers | src/utils.ts:80-90 | params agreeing on those four fields give the same cache params |
| Utils.DefaultCacheKey | src/utils.ts:95-101 | TS: undefined exactly for a falsy id, otherwise the id's string form |
| Utils.DefaultCacheKeyJs | src/utils.js:82-87 | JS: a falsy id is returned as is, otherwise its string form |
| Utils.CacheKeySameString | src/utils.ts:95-101 | two truthy ids share a DataLoader cache key exactly when their string forms are equal |
| Utils.UniqueKeys | src/utils.ts:106-119 | the corrected member of the `uniqueKeys` Finding (both dialects): the loop computes `Dedup` of the keys, first occurrences by string form, in order |
| Utils.Dedup | src/utils.ts:106-119 | the intended result of `uniqueKeys`; `Utils.DedupSameStrs`, `DedupDistinct`, `DedupSubseq` and `DedupFirstOccurrences` state that it keeps the first key of every string form, in input order |
| Utils.DedupSameStrs | src/utils.ts:106-119 | deduplication keeps every string form of the input |
| Utils.DedupDistinct | src/utils.ts:106-119 | no two kept keys have the same string form |
| Utils.DedupSubseq | src/utils.ts:106-119 | the kept keys are a subsequence of the input, so input order is kept |
| Utils.DedupFirstOccurrences | src/utils.ts:106-119 | every kept key is the first occurrence of its string form in the input |
| Utils.UniqueKeysAsWrittenDropsInheritedNames | src/utils.js:89-101 | as written, `uniqueKeys(['constructor'])` is empty, while the intended deduplication keeps the key; the TS `found[keyStr]` at src/utils.ts:113 does the same |
| Stringify.StableStringify | src/utils.ts:54-74 | `stableStringify`: fails exactly when a function is reachable (`StringifyFacts.SerFailsIffFn`), ignores key insertion order at every depth (`StringifyFacts.ReorderedSameText`), and is inverted by `Parse` up to the canonical value (`ParseFacts.ParseStableStringify`, `ParseFacts.StableStringifyInjective`) |
| Stringify.Parse | src/serviceLoader.ts:327 | `JSON.parse`: one value and nothing after it, else a SyntaxError; it gives back the canonical value of every stable text (`ParseFacts.ParseSer`) |
| Stringify.ParseValue | src/serviceLoader.ts:327 | the parser consumes at least one token on success, so parsing terminates |
| StringifyFacts.SerFailsIffFn | src/utils.ts:56-60 | stringifying fails exactly when a function occurs anywhere in the value |
| StringifyFacts.MembersFail | src/utils.ts:56-60 | an object's members fail to stringify exactly when one of its fields holds a function |
| StringifyFacts.ItemTextsFail | src/utils.ts:56-60 | an array fails to stringify exactly when one of its items holds a function |
| StringifyFacts.SameKeysSameOrder | src/utils.ts:63 | objects with the same key set emit their keys in the same order |
| StringifyFacts.ReorderedSameText | src/utils.ts:62-70 | values that differ only in the insertion order of object keys stringify to the same text |
| ParseFacts.ParseSer | src/utils.ts:54-74 | parsing the stable text of a value, followed by anything, yields the canonical value and leaves the rest |
| ParseFacts.ParseStableStringify | src/utils.ts:54-74 | `JSON.parse(stableStringify(v))` is the canonical form of `v` (undefined fields dropped, keys sorted) |
| ParseFacts.StableStringifyInjective | src/utils.ts:54-74 | equal stable texts come only from values with equal canonical forms |
| ParseFacts.ArraysKeepOrder | src/utils.ts:54-74 | arrays are not reordered: equal texts mean equal items position by position |
| StringifyExample.ConsistentKeyExample | src/utils.ts:54-74 | two objects whose nested keys were inserted in different orders get the same key |
| IdSort.InsertId | src/serviceLoader.ts:194 | one insertion step of the stable default sort adds exactly one element |
| IdSort.SortByPermutation | src/serviceLoader.ts:194 | `[...ids].sort()` is a permutation of the ids |
| IdSort.SortByOrdered | src/serviceLoader.ts:194 | the sorted ids are ascending by string form, with every `undefined` at the end |
| IdSort.SortDefinedProps | src/serviceLoader.ts:194 | the defined ids are sorted by string form, and together with the undefined ones they are the input |
| IdSort.UndefinedsCount | src/serviceLoader.ts:194 | the sort keeps every `undefined` |
| IdSort.SortTenBeforeNine | src/serviceLoader.ts:194 | the default sort compares string forms, so `[9, 10]` sorts to `[10, 9]` |
| IdSort.WithKeyInsert | src/serviceLoader.ts:194 | inserting into an ordered list places the id after every id with the same string form |
| IdSort.SortDefinedStable | src/serviceLoader.ts:194 | the sort of the defined ids keeps, for every string form, the input order of the ids with that form |
| IdSort.SortByStable | src/serviceLoader.ts:194 | the sort is stable: for every string form `w`, the defined ids with form `w` appear in the output in their input order |
| IdSort.SortIdsStable | src/serviceLoader.ts:194 | the same for `[...ids].sort()` itself |
| IdSort.SameStringFormsKeepInputOrder | src/serviceLoader.ts:194 | an instance of stability: `[1, '1']` and `['1', 1]` both stay as they are, so they give two cache keys |
| IdSort.OrderedUnique | src/serviceLoader.ts:194 | an ordering by string form of distinct-string ids is unique |
| IdSort.SortByPermutationsAgree | src/serviceLoader.ts:194 | permutations of ids with distinct string forms sort to the same list |
| Demux.ArrayLike | src/utils.js:108 | the loop runs over an array's items, or a string's characters, and over nothing otherwise |
| Demux.RecordsOf | src/utils.ts:139-143 | TS: `'data' in result ? result.data : result` and the record loop; a non-object answer rejects, and so does an envelope whose `data` is `null` or `undefined`; an object without `data` or a function gives no records; `Demux.EnvelopeSameRecords` relates an envelope to its array |
| Demux.RecordsOfJs | src/utils.js:104-108 | JS: the records of `result.data`, or of `result` itself when `data` is falsy; a `null` or `undefined` answer rejects, and any other answer gives its records, possibly none |
| Demux.EnvelopeSameRecords | src/utils.ts:139 | a `{ data }` envelope and its bare array yield the same records in both dialects |
| Demux.LastMatchIndex | src/utils.ts:143-147 | the record kept for an id is the last one carrying it, or none when no record does |
| Demux.Matches | src/utils.ts:170-178 | a group holds only records carrying its id |
| Demux.MatchesComplete | src/utils.ts:170-178 | every record lands in the group of its own id |
| Demux.LastMatchIsLastOfGroup | src/utils.ts:143-147 | the record `uniqueResults` keeps is the last member of the group `uniqueResultsMulti` builds |
| Demux.UniqueResultsPositions | src/utils.ts:133-154 | one result per key; a non-default result is the last record whose id matches the key; no match gives the default; when the last matching record is truthy it is the result, and when it is falsy the default is |
| Demux.SameStringSameResult | src/utils.ts:149-151 | keys with the same string form get the same result, single or multi |
| Demux.MultiEntryIsGroup | src/utils.ts:160-185 | one result per key: the array of all matching records in answer order, or the default when none |
| Demux.UniqueResults | src/utils.ts:133-154 | the loops compute the specification; an answer that is not an object rejects, and so does an object whose `data` field is `null` or `undefined`; an object without a `data` field, or a function, gives no records, so every key gets the default |
| Demux.PickEntries | src/utils.ts:149-151 | each key gets the record found under its string form, or the default |
| Demux.UniqueResultsMulti | src/utils.ts:160-185 | the loops compute the multi specification; an answer that is not an object, or an envelope whose `data` is `null` or `undefined`, rejects; an object without `data`, or a function, gives the default for every key (ids named like inherited members are not modelled, see Left out) |
| Demux.GroupByPath | src/utils.ts:170-178 | the grouping loop builds, for every id, exactly its matching records in order (own-property names only, see Left out) |
| Demux.AddToGroup | src/utils.ts:173-177 | appending one record keeps the grouping invariant |
| Demux.PickedGroups | src/utils.ts:180-182 | picking groups by key string gives the multi specification |
| Demux.PickGroups | src/utils.ts:180-182 | each key gets the array grouped under its string form, or the default |
| Demux.UniqueResultsJs | src/utils.js:103-119 | JS: `null` or `undefined` among the records throws; otherwise the single-record specification on the plain key |
| Demux.UniqueResultsMultiJs | src/utils.js:121-141 | JS: the same for the multi form (own-property names only, see Left out) |
| Demux.GroupByProperty | src/utils.js:126-134 | with ids whose string forms are not inherited member names: JS grouping fails exactly when a record is nullish, and otherwise groups by the plain property |
| Demux.PlainKeySameResults | src/utils.ts:145 | for a key without a dot, the dot-path lookup and the plain property lookup agree |
| CacheMaps.OrderAfterSet | src/serviceLoader.ts:189 | after `set` the key is in the iteration order along with every earlier key |
| CacheMaps.OrderAfterDelete | src/serviceLoader.ts:329 | after `delete` the iteration order holds every earlier key but that one |
| CacheMaps.RestrictMembers | src/serviceLoader.ts:326-331 | an order restricted to the surviving entries holds exactly the keys that are in both |
| CacheMaps.RestrictAll | src/serviceLoader.ts:326-331 | restricting an order to entries that hold all its keys changes nothing |
| CacheMaps.RestrictRestrict | src/serviceLoader.ts:326-331 | restricting twice is restricting once to the smaller set of entries |
| CacheMaps.DeleteRestricts | src/serviceLoader.ts:329 | `delete` leaves the order restricted to the entries without the deleted key |
| CacheMaps.CacheMap.constructor | src/serviceLoader.ts:143 | `new Map()` is empty |
| CacheMaps.CacheMap.Get | src/serviceLoader.ts:178 | `get` gives the stored value, or undefined for a missing key |
| CacheMaps.CacheMap.Set | src/serviceLoader.ts:189 | `set` stores the value under the key and updates the insertion order |
| CacheMaps.CacheMap.Delete | src/serviceLoader.ts:329 | `delete` removes exactly that key |
| CacheMaps.CacheMap.Clear | src/appLoader.ts:85 | `clear` empties the map |
| ServiceLoaders.Written | src/serviceLoader.ts:189 | a cache write stores its entry and leaves every other entry alone |
| ServiceLoaders.PrimaryKey | src/serviceLoader.ts:152 | TS: the service's truthy `options.id`, otherwise `'id'`; JS: `options.id`, failing when `options` is missing |
| ServiceLoaders.KeyText | src/serviceLoader.ts:314-320 | `stringifyKey`: the stable text of the options with `serviceName` added and the params replaced by the cache params; `ServiceLoaderFacts.KeyTextFailsIffFn` and `KeyTextOwned` state when it fails and that it parses back to its own service |
| ServiceLoaders.SortedId | src/serviceLoader.ts:194 | `[...id].sort()` for an array id, the id itself otherwise; `IdSort.SortByPermutation`, `SortByOrdered` and `SortIdsStable` state the sort |
| ServiceLoaders.BatchParams | src/serviceLoader.ts:110-121 | the params the batch sends; `ServiceLoaderFacts.BatchParamsShape` states them field by field |
| ServiceLoaders.BatchResults | src/serviceLoader.ts:123 | a demultiplexed batch has exactly one result per key |
| ServiceLoaders.BatchRun | src/serviceLoader.ts:110-124 | a batch makes at most one backend call and yields one result per key |
| ServiceLoaders.FirstNullish | src/serviceLoader.ts:234 | the position of the first `null` or `undefined` id: every id before it is defined, and it is the length exactly when there is none |
| ServiceLoaders.Dispatch | src/serviceLoader.ts:233-235 | `load` of a nullish id rejects with no call; `loadMany` of ids holding a nullish one rejects, with no call when the first id is nullish; `ServiceLoaderFacts.DispatchOneResultPerId` and `DispatchAtMostOneCall` state the rest |
| ServiceLoaders.PlainOutcome | src/serviceLoader.ts:175-192 | the get/find branch of `exec`; `ServiceLoaderFacts.PlainWrites`, `PlainBypassesLoaders` and `HitShortCircuits` state it |
| ServiceLoaders.LoadOutcome | src/serviceLoader.ts:194-239 | the load branch of `exec`; `ServiceLoaderFacts.LoadWrites`, `LoadRegistry`, `MissingFindRejects`, `LoadAtMostOneCall` and `LoadPermutedIdsAgree` state it |
| ServiceLoaders.ExecOutcome | src/serviceLoader.ts:161-240 | one whole `exec` call; `ServiceLoaderFacts.ExecMemoises`, `WriteOnlyOnSuccess`, `AtMostOneCall` and `ExecPermutedIdsAgree` state it, and `ServiceLoaders.ServiceLoader.Exec` is proved against it |
| ServiceLoaders.Cleared | src/serviceLoader.ts:326-331 | after visiting some keys, exactly the visited keys owned by the service are gone and the rest are untouched |
| ServiceLoaders.ClearedStep | src/serviceLoader.ts:328-330 | visiting one more key deletes it exactly when it belongs to the service |
| ServiceLoaders.ServiceLoader.constructor | src/serviceLoader.ts:142-159 | sets the primary key, the default cache-params function, the given or a fresh empty cache map, and an empty loader registry |
| ServiceLoaders.ServiceLoader.Exec | src/serviceLoader.ts:161-240 | the result, the backend calls, the registry and the cache after `exec` are those of `ExecOutcome`; `cacheParamsFn` is a separate argument, as the destructuring takes it out of the options |
| ServiceLoaders.ServiceLoader.ExecPlain | src/serviceLoader.ts:175-192 | get/find calls: cache lookup, one direct backend call, cache write, as `PlainOutcome` says |
| ServiceLoaders.ServiceLoader.ExecLoad | src/serviceLoader.ts:194-239 | load calls: sorted ids, cache lookup, DataLoader reuse or creation, batch, cache write, as `LoadOutcome` says |
| ServiceLoaders.ServiceLoader.RunLoader | src/serviceLoader.ts:233-235 | `load` or `loadMany` runs one batch over the id or ids, as `Dispatch` says: a nullish id rejects, after the batch of the ids queued before it |
| ServiceLoaders.ServiceLoader.Batch | src/serviceLoader.ts:110-124 | the batch function's answer and backend call are those of `BatchRun` |
| ServiceLoaders.ServiceLoader.Demultiplex | src/serviceLoader.ts:108 | picks `uniqueResultsMulti` for multi loaders and `uniqueResults` otherwise |
| ServiceLoaders.DemultiplexTs | src/serviceLoader.ts:108 | the TS demultiplexing computes `BatchResults` for TS |
| ServiceLoaders.DemultiplexJs | src/serviceLoader.js:22 | the JS demultiplexing computes `BatchResults` for JS |
| ServiceLoaders.ServiceLoader.Get | src/serviceLoader.ts:242-244 | `get(id, params)` is `exec` with method `get` |
| ServiceLoaders.ServiceLoader.InternalGet | src/serviceLoader.ts:246-248 | `_get` is `exec` with method `_get` |
| ServiceLoaders.ServiceLoader.Find | src/serviceLoader.ts:250-252 | `find(params)` is `exec` with method `find` and no id |
| ServiceLoaders.ServiceLoader.InternalFind | src/serviceLoader.ts:254-256 | `_find` is `exec` with method `_find` |
| ServiceLoaders.ServiceLoader.Load | src/serviceLoader.ts:258-260 | `load(id, params)` is `exec` with method `load` |
| ServiceLoaders.ServiceLoader.InternalLoad | src/serviceLoader.ts:262-264 | `_load` is `exec` with method `_load` |
| ServiceLoaders.ServiceLoader.KeyLoad | src/serviceLoader.ts:268-276 | TS `key(k).load` is `exec` with method `load` and key `k` |
| ServiceLoaders.ServiceLoader.KeyInternalLoad | src/serviceLoader.ts:277-285 | TS `key(k)._load` is `exec` with method `_load` and key `k` |
| ServiceLoaders.ServiceLoader.MultiLoad | src/serviceLoader.ts:291-300 | TS `multi(k).load` is `exec` with key `k` and `multi: true` |
| ServiceLoaders.ServiceLoader.MultiInternalLoad | src/serviceLoader.ts:301-310 | TS `multi(k)._load` is `exec` with key `k`, `multi: true` and `_load` |
| ServiceLoaders.ServiceLoader.Clear | src/serviceLoader.ts:322-334 | empties the registry; succeeds exactly when every key parses; on success removes exactly this service's keys; on failure stops at the first unparsable key, having removed exactly this service's keys before it; never touches other services' entries; the surviving keys keep their old iteration order |
| ServiceLoaders.ServiceLoader.ClearKeys | src/serviceLoader.ts:326-331 | the `for … of` walk over the keys: the same outcome as `Clear` for the cache, with the surviving keys in their old order |
| ServiceLoaders.ServiceLoader.ClearKey | src/serviceLoader.ts:327-330 | one iteration: an unparsable key stops the clear and is the first unparsable one; otherwise the key is deleted exactly when it belongs to the service; the order stays the old order restricted to the entries left |
| ServiceLoaderFacts.ExecOptionsLookup | src/serviceLoader.ts:164-171 | each option reads as the caller's last value, or as the default: id `null`, the primary key, params undefined (TS) or `null` (JS), `multi: false`, method `load` |
| ServiceLoaderFacts.ExecOptionsSnoc | src/serviceLoader.ts:164-171 | one more caller option is one more assignment onto the defaults |
| ServiceLoaderFacts.HitShortCircuits | src/serviceLoader.ts:176-208 | an unstringifiable key rejects; a truthy cached value is returned with no call, no registration and no write |
| ServiceLoaderFacts.WriteOnlyOnSuccess | src/serviceLoader.ts:161-240 | only a fulfilled result is cached, under the call's key, and every fulfilled miss is cached |
| ServiceLoaderFacts.PlainWrites | src/serviceLoader.ts:184-191 | the same for get/find calls |
| ServiceLoaderFacts.LoadWrites | src/serviceLoader.ts:233-239 | the same for load calls, whose key holds the sorted ids |
| ServiceLoaderFacts.ExecMemoises | src/serviceLoader.ts:178-182 | repeating a call whose result was truthy returns it from the cache with no backend call and no change |
| ServiceLoaderFacts.PlainBypassesLoaders | src/serviceLoader.ts:184-187 | get/find register no DataLoader; a missing method rejects; otherwise one call with `(id, params)` or `(params)` |
| ServiceLoaderFacts.LoadRegistry | src/serviceLoader.ts:210-231 | the DataLoader is registered under the stable text of key, multi, method and params; an existing one is reused |
| ServiceLoaderFacts.MissingFindRejects | src/serviceLoader.ts:97-106 | creating a DataLoader for a service without `find` (`_find` for `_load`) rejects |
| ServiceLoaderFacts.AtMostOneCall | src/serviceLoader.ts:161-240 | one `exec` makes at most one backend call |
| ServiceLoaderFacts.LoadAtMostOneCall | src/serviceLoader.ts:194-239 | one load makes at most one backend call |
| ServiceLoaderFacts.SortedLoadAtMostOneCall | src/serviceLoader.ts:220-239 | the batching part makes at most one backend call |
| ServiceLoaderFacts.DispatchAtMostOneCall | src/serviceLoader.ts:233-235 | `load` or `loadMany` makes at most one backend call |
| ServiceLoaderFacts.LoaderKeyIgnoresId | src/serviceLoader.ts:210-218 | calls that differ only in their ids share one DataLoader |
| ServiceLoaderFacts.LoaderFieldsIgnoreId | src/serviceLoader.ts:212-215 | the loader key's fields do not depend on the id |
| ServiceLoaderFacts.LoadPermutedIdsAgree | src/serviceLoader.ts:194-202 | permuted id lists, distinct by string form, give the same load outcome: same cache key, same call, same result |
| ServiceLoaderFacts.ExecPermutedIdsAgree | src/serviceLoader.js:93-105 | the same holds for whole `exec` calls, as the sorting comment intends |
| ServiceLoaderFacts.BatchParamsShape | src/serviceLoader.ts:111-121 | the batch query is the caller's params with `paginate: false` and `key: { $in: uniqueKeys(ids) }`; TS drops `$limit`; `null` params reject |
| ServiceLoaderFacts.DispatchOneResultPerId | src/serviceLoader.ts:233-235 | `loadMany([])` calls nothing and gives `[]`; `loadMany` gives one result per id; the call sent is `find` or `_find` with the batch params; with a nullish id the call rejects and the only call sent is the batch of the ids before the first nullish one |
| ServiceLoaderFacts.KeyTextFailsIffFn | src/serviceLoader.ts:314-320 | a cache key cannot be made exactly when the options or the cache params hold a function |
| ServiceLoaderFacts.CanonLookup | src/serviceLoader.ts:327 | the parsed cache key holds the canonical form of each emitted field |
| ServiceLoaderFacts.KeyTextOwned | src/serviceLoader.ts:327-328 | a key made by a loader parses to that loader's `serviceName` and no other |
| ServiceLoaderFacts.ClearScopedToService | src/serviceLoader.ts:322-334 | a visited key made by service `owner` survives a clear of service `name` exactly when the names differ |
| ChainedLoaders.SelectPath | src/serviceLoader.js:240-242 | `[key, ...selection]`: the primary key followed by the selection's elements, or a string's characters; other selections cannot be spread |
| ChainedLoaders.Settle | src/serviceLoader.js:247-289 | a rejected call stays rejected, a fulfilled one is passed through `_process`; the `Forwarded` ensures of every terminal method use it |
| ChainedLoaders.Process | src/serviceLoader.js:236-245 | no selection leaves the result unchanged; arrays are mapped item by item with `selectFn([key, ...selection], item)`; without `selectFn` only an empty array survives |
| ChainedLoaders.ProcessEachRecord | src/serviceLoader.js:240-242 | each item of a processed array is that item processed alone |
| ChainedLoaders.ChainedLoadOptionsKeepDefaults | src/serviceLoader.js:267-289 | a chain without a key falls back to the loader's primary key; `multi` is the chain's own, an unset one staying `undefined` as in the source; method, id and params pass through |
| ChainedLoaders.SelectOnlyChainOptions | src/serviceLoader.js:267-275 | as written, a select-only chain passes `key: undefined` to `exec`, overriding the primary key |
| ChainedLoaders.UndefinedKeyBatchParams | src/serviceLoader.js:24-33 | with key undefined the batch query filters on the field named `"undefined"` |
| ChainedLoaders.SelectOnlyChainQueriesUndefined | src/serviceLoader.js:177-179 | as written, `select(s).load(1)` asks the service for `{ undefined: { $in: [1] } }` |
| ChainedLoaders.ChainedLoader.constructor | src/serviceLoader.js:205-208 | records the loader, key, selection and multi given |
| ChainedLoaders.ChainedLoader.Key | src/serviceLoader.js:210-217 | sets the key, resets `multi` to false, keeps the selection, returns the same chain |
| ChainedLoaders.ChainedLoader.Multi | src/serviceLoader.js:219-226 | sets the key and `multi: true`, keeps the selection |
| ChainedLoaders.ChainedLoader.Select | src/serviceLoader.js:228-234 | sets the selection, keeps key and multi |
| ChainedLoaders.ChainedLoader.Get | src/serviceLoader.js:247-250 | the loader's `get` followed by processing |
| ChainedLoaders.ChainedLoader.InternalGet | src/serviceLoader.js:252-255 | the loader's `_get` followed by processing |
| ChainedLoaders.ChainedLoader.Find | src/serviceLoader.js:257-260 | the loader's `find` followed by processing |
| ChainedLoaders.ChainedLoader.InternalFind | src/serviceLoader.js:262-265 | the loader's `_find` followed by processing |
| ChainedLoaders.ChainedLoader.Load | src/serviceLoader.js:267-277 | `exec` with method `load` and the corrected `ChainedLoadOptions` of the second Finding (an unset key is left to the loader's primary key; `multi` is passed as the chain holds it, `undefined` included), then processing |
| ChainedLoaders.ChainedLoader.InternalLoad | src/serviceLoader.js:279-289 | the same with `_load`, also with the corrected options |
| ChainedLoaders.KeyChain | src/serviceLoader.js:169-171 | `loader.key(k)` is a fresh chain with key `k` and nothing else |
| ChainedLoaders.MultiChain | src/serviceLoader.js:173-175 | `loader.multi(k)` is a fresh chain with key `k` and `multi: true` |
| ChainedLoaders.SelectChain | src/serviceLoader.js:177-179 | `loader.select(s)` is a fresh chain with selection `s` and no key |
| AppLoaders.Override | src/appLoader.ts:57-61 | one option of a spread: the later object's setting when it has one, the earlier's otherwise; `AppLoaders.Merged` states the merge |
| AppLoaders.AppLoader.BuildThrows | src/appLoader.ts:68-72 | building the loader throws when the class option is given as `undefined`, or, in JS, when the service has no `options` (`service.options.id` at src/serviceLoader.js:53); `AppLoaders.AppLoader.Service` states that nothing is then registered |
| AppLoaders.Merged | src/appLoader.ts:57-61 | per-service options override the global ones, and the loader class defaults to the base ServiceLoader |
| AppLoaders.MergedFunctionOptions | src/appLoader.ts:57-61 | the same precedence for `cacheParamsFn` and `selectFn`, falsy values included |
| AppLoaders.JsLoaderArgsLoseName | src/appLoader.js:26-30 | as written, the constructor arguments carry the name under `path` and no `serviceName` |
| AppLoaders.JsLoaderArgsCarryName | src/appLoader.js:26-30 | the corrected arguments carry the service name where the ServiceLoader reads it |
| AppLoaders.AppLoader.constructor | src/appLoader.ts:45-48 | keeps app and options, `services` defaults to `{}`, and the registry starts empty |
| AppLoaders.AppLoader.Service | src/appLoader.ts:55-77 | a registered loader is returned unchanged; otherwise one is built from the merged options, registered and returned, or the call throws and nothing is registered; a loader built without a configured cache map gets a fresh empty one; in JS the loader is built from the corrected arguments of the third Finding, so it carries the service name |
| AppLoaders.AppLoader.Clear | src/appLoader.ts:82-90 | TS: every cache emptied, then the registry, the loaders' own DataLoader registries untouched; JS: every loader cleared and its DataLoader registry emptied, the app registry emptied only when all succeed, no entry gained or changed, and every entry owned by no loader sharing its map kept |
| AppLoaders.AppLoader.ClearMaps | src/appLoader.ts:84-88 | every registered loader's cache map ends empty and the registry is emptied |
| AppLoaders.AppLoader.ClearEach | src/appLoader.js:37-46 | succeeds exactly when every key of every cache parses; then no cache keeps a key of its own service and the registry is empty; in every case each loader's DataLoader registry is empty, no entry is gained or changed, and an entry owned by no loader sharing its map is kept |
| AppLoaders.ClearOne | src/appLoader.js:41 | one loader's `clear()`: its DataLoader registry is empty, it succeeds exactly when every key parses, and its entries only disappear, never the unparsable ones nor those it does not own |
| AppLoaders.ClearAll | src/appLoader.js:40-43 | clearing every loader in turn succeeds exactly when all keys parse, leaving each cache without its own service's keys; in every case each loader's DataLoader registry is empty, entries only disappear, and an entry owned by no loader sharing its map is kept |

## Left out

- DataLoader internals are not modelled: its own cache, scheduling of batches across ticks and `maxBatchSize`. Each `load`/`loadMany` runs one batch over its own ids. Its TypeError for a `null` or `undefined` id is modelled, in `ServiceLoaders.Dispatch`.
- A batch error is modelled as a rejection of the whole call. `loadMany` actually turns it into `Error` elements.
- Promises, `await` and concurrency are not modelled. Asynchronous cache stores are taken as synchronous maps, and `clear` runs its deletions one after another.
- Floating-point numbers are not modelled, and neither are number formatting and string escaping in `stableStringify`: numbers are integers and JSON text is a token stream.
- `isObject` is not modelled: every object is a plain object, and there are no prototypes, class instances, dates or buffers.
- Names inherited from `Object.prototype` are not modelled in the demux dictionaries. In `uniqueResults`, a lookup `found['constructor']` with no record under that id gives the inherited function instead of the default value; the model gives the default. In the multi form, the first record whose id is such a name makes `found[id].push` throw; the model groups it normally. `_.pick` reads such names from the source as well; the model reads own properties only. The `uniqueKeys` instance of this problem is a Finding.
- Demux.UniqueResultsMulti: succeeds on records with inherited-name ids, where the source throws, as the line above says.
- Demux.GroupByPath: groups records with inherited-name ids, where the source throws at the push.
- Demux.UniqueResultsMultiJs: the same as Demux.UniqueResultsMulti, for JS.
- Demux.GroupByProperty: fails only on nullish records. The source also throws on a record whose id is an inherited name.
- Objects.KeysOfPut: JavaScript lists integer-like property names first, in ascending order, and then the other names in insertion order. The model keeps every name in insertion order. The key order of spread and `_.omit` results depends on this. So does the cache-key text: `JSON.stringify` writes the fresh sorted object with integer-like names first in numeric order (`{10: a, 9: b}` gives `{"9":…,"10":…}`), while the model writes every name in sorted string order. For such names the model's text differs from the source's. Two keys are still equal in the model exactly when they are equal in the source, and both parse back to the same canonical value, because in both the text is a function of the canonical value.
- Json.StrLess: compares strings by Unicode code point, while JavaScript compares UTF-16 code units. The two orders differ only when one string has a character above U+FFFF where the other has one from U+E000 to U+FFFF. The same holds for Json.SortKeys, IdSort.SortBy and IdSort.SortIds and the lemmas about them.
- Json.Get: inherited members of arrays, strings and functions (`push`, `map`, `name`) read as undefined. Own properties of functions are not modelled. A string's `length` and indices count Unicode code points, while JavaScript counts UTF-16 code units: `"\u{1F600}".length` is 2 in JavaScript and 1 here. Objects are read only through their own fields, so an array-like object is not indexed as an array.
- Demux.ArrayLike: a string is split into Unicode code points, while the source's loop visits UTF-16 code units, so a character above U+FFFF is one record here and two there. An object with its own `length` field (an array-like object) and a function with parameters give no records here; the source's loop visits `length` indices of them.
- AppLoaders.ClearAll: when one loader's clear fails, the keys the other loaders' clears removed are not listed. The contract states only that entries disappear without changing value, and that an entry owned by no loader sharing its map stays. AppLoaders.AppLoader.ClearEach and the JS AppLoaders.AppLoader.Clear inherit this.
- `defaultCacheKeyFn`'s `toString` call is modelled as the value's string form. Objects with a custom `toString` are not modelled.
- ServiceLoaders.ServiceLoader.constructor: the JS constructor's TypeError when the service has no `options` is a precondition here. `AppLoaders.AppLoader.Service` models that throw as `BuildThrows`.
- Other DataLoader options passed through the constructor (`...loaderOptions`) are kept out: they configure DataLoader, which is abstract here.
- AppLoaders.AppLoader.Service: for a custom ServiceLoader class, only the class name and service name are recorded. Its constructor is code outside this model.
- AppLoaders.AppLoader.Clear: custom loaders are left alone by `clear` and count as cleared.
- ChainedLoaders.ChainedLoader.constructor: the JS chain's copy of `loader` inside its `options` is not kept, since nothing reads it.
- The text of `GeneralError` messages is not modelled: every error is a rejection.

## Findings

| source | as written | input that shows it | evidently intended | confidence | as-written member | corrected member |
|---|---|---|---|---|---|---|
| src/utils.ts:106-119 | `found` is a plain object, so `found[keyStr]` sees inherited `Object.prototype` members and skips keys such as `constructor` | `uniqueKeys(['constructor'])` gives `[]` | every key kept once, first occurrence first | not executed | Utils.UniqueKeysAsWrittenDropsInheritedNames | Utils.UniqueKeys |
| src/utils.js:89-101 | `found` is a plain object, so `found[key]` sees inherited `Object.prototype` members and skips keys such as `constructor` | `uniqueKeys(['constructor'])` gives `[]` | every key kept once, first occurrence first | not executed | Utils.UniqueKeysAsWrittenDropsInheritedNames | Utils.UniqueKeys |
| src/serviceLoader.js:267-289 | the chain passes `key: this.options.key` even when no key was set, and the explicit `undefined` overrides the primary key in `exec` | `loader.select(['name']).load(1)` queries `{ undefined: { $in: [1] } }` | fall back to the service's primary key (only `key` is corrected; `multi` is passed as written) | not executed | ChainedLoaders.SelectOnlyChainQueriesUndefined | ChainedLoaders.ChainedLoadOptionsKeepDefaults |
| src/appLoader.js:26-30 | the new loader receives the name as `path`, while the JS ServiceLoader reads `serviceName` | `appLoader.service('users')` builds a loader with no `serviceName` | pass the name as `serviceName` | not executed | AppLoaders.JsLoaderArgsLoseName | AppLoaders.JsLoaderArgsCarryName |

=== FILE: app_loader.dfy ===
/** The `AppLoader` of src/appLoader.ts and src/appLoader.js: a registry of
    service loaders keyed by service name. `service(name)` builds a loader
    on first use, from the default class, the global options and the
    service's own options, and hands back the stored one afterwards;
    `clear()` empties every registered loader's cache and then the
    registry. */
module AppLoaders {
  import opened Json
  import Stringify
  import opened Objects
  import opened CacheMaps
  import opened Utils
  import opened Demux
  import opened ServiceLoaders

  // ---------------------------------------------------------------------
  // Options

  /** One loader option as a spread sees it: not given at all, given as
      `undefined` (or another falsy value), or given. */
  datatype Setting<T> = Absent | Falsy | Given(value: T)

  /** The class a loader is built with: the package's own `ServiceLoader`,
      or a class the application supplies, known here by its name. */
  datatype LoaderClass = BaseLoader | CustomLoader(className: string)

  /** The options `AppLoader` passes on to a loader. */
  datatype LoaderConfig = LoaderConfig(
    loaderClass: Setting<LoaderClass>,
    cacheParamsFn: Setting<Value -> Value>,
    selectFn: Setting<(Value, Value) -> Value>,
    cacheMap: Setting<CacheMap>)

  /** No options: `services[name] || {}` for a service without its own. */
  const NoOptions: LoaderConfig := LoaderConfig(Absent, Absent, Absent, Absent)

  /** `{...base, ...over}` for one option. */
  function Override<T>(base: Setting<T>, over: Setting<T>): Setting<T>
  {
    if over.Absent? then base else over
  }

  /** `{ServiceLoader, ...global, ...perService}`: each option comes from the
      service's own options when they name it, else from the global ones,
      and the class falls back to the package's own. */
  function Merged(global: LoaderConfig, perService: LoaderConfig): (c: LoaderConfig)
    ensures !perService.loaderClass.Absent? ==> c.loaderClass == perService.loaderClass
    ensures perService.loaderClass.Absent? && !global.loaderClass.Absent? ==> c.loaderClass == global.loaderClass
    ensures perService.loaderClass.Absent? && global.loaderClass.Absent? ==> c.loaderClass == Given(BaseLoader)
    ensures !perService.cacheMap.Absent? ==> c.cacheMap == perService.cacheMap
    ensures perService.cacheMap.Absent? ==> c.cacheMap == global.cacheMap
  {
    LoaderConfig(Override(Override(Given(BaseLoader), global.loaderClass), perService.loaderClass),
                 Override(global.cacheParamsFn, perService.cacheParamsFn),
                 Override(global.selectFn, perService.selectFn),
                 Override(global.cacheMap, perService.cacheMap))
  }

  /** A function-valued option decides like the other options: the
      service's own setting wins, then the global one. */
  lemma MergedFunctionOptions(global: LoaderConfig, perService: LoaderConfig)
    ensures var c := Merged(global, perService);
      (perService.cacheParamsFn.Given? ==> c.cacheParamsFn.Given? && c.cacheParamsFn.value == perService.cacheParamsFn.value) &&
      (perService.cacheParamsFn.Falsy? ==> c.cacheParamsFn.Falsy?) &&
      (perService.cacheParamsFn.Absent? && global.cacheParamsFn.Given? ==>
        c.cacheParamsFn.Given? && c.cacheParamsFn.value == global.cacheParamsFn.value) &&
      (perService.cacheParamsFn.Absent? && !global.cacheParamsFn.Given? ==> !c.cacheParamsFn.Given?) &&
      (perService.selectFn.Given? ==> c.selectFn.Given? && c.selectFn.value == perService.selectFn.value) &&
      (perService.selectFn.Falsy? ==> c.selectFn.Falsy?) &&
      (perService.selectFn.Absent? && global.selectFn.Given? ==>
        c.selectFn.Given? && c.selectFn.value == global.selectFn.value) &&
      (perService.selectFn.Absent? && !global.selectFn.Given? ==> !c.selectFn.Given?)
  {
  }

  /** `option || fallback`: only a given option counts. */
  function OrNone<T>(s: Setting<T>): (r: Option<T>)
    ensures r.Some? <==> s.Given?
    ensures r.Some? ==> r.value == s.value
  {
    if s.Given? then Some(s.value) else None
  }

  // ---------------------------------------------------------------------
  // The arguments a JS loader is built with

  /** The option names the JS registry passes to the loader constructor
      besides the configured ones, as written: the name goes in as `path`. */
  function JsLoaderArgsAsWritten(name: string): Fields
  {
    [("path", Str(name))]
  }

  /** The same arguments with the name under `serviceName`, the option the
      JS loader's constructor reads (src/serviceLoader.js:37-61). */
  function JsLoaderArgs(name: string): Fields
  {
    [("serviceName", Str(name))]
  }

  /** The service name the JS loader's constructor reads from its
      arguments; `None` for `undefined`. */
  function ServiceNameArg(args: Fields): Option<string>
  {
    var v := Lookup(args, "serviceName");
    if v.Str? then Some(v.s) else None
  }

  /** As written, `service('posts')` builds a loader that receives no
      service name: it asks the application for `app.service(undefined)`
      and stamps its cache keys with no name. */
  lemma JsLoaderArgsLoseName(name: string)
    ensures ServiceNameArg(JsLoaderArgsAsWritten(name)).None?
    ensures Lookup(JsLoaderArgsAsWritten(name), "path") == Str(name)
  {
    assert IndexOf(JsLoaderArgsAsWritten(name)[1..], "serviceName") < 0;
  }

  /** With the name passed as `serviceName`, the loader is built for the
      service the registry files it under. */
  lemma JsLoaderArgsCarryName(name: string)
    ensures ServiceNameArg(JsLoaderArgs(name)) == Some(name)
  {
  }

  // ---------------------------------------------------------------------
  // The registry

  /** A registered loader: one of the package's own, or an instance of a
      custom class, known by its class and service name. */
  datatype Entry = Own(loader: ServiceLoader) | Custom(className: string, serviceName: string)

  class AppLoader {
    const dialect: Dialect
    const app: string -> Service
    const services: map<string, LoaderConfig>
    const global: LoaderConfig
    var loaders: map<string, Entry>

    /** The package's own loaders in the registry. */
    function Loaders(): set<ServiceLoader>
      reads this
    {
      set n | n in loaders && loaders[n].Own? :: loaders[n].loader
    }

    /** Their cache maps, some of which may be shared. */
    ghost function Maps(): set<CacheMap>
      reads this
    {
      set n | n in loaders && loaders[n].Own? :: loaders[n].loader.cacheMap
    }

    /** Every registered loader of the package's own is well formed and
        serves the service it is filed under. */
    ghost predicate Valid()
      reads this, Loaders(), Maps()
    {
      forall n :: n in loaders && loaders[n].Own? ==>
        loaders[n].loader.Valid() && loaders[n].loader.serviceName == n &&
        loaders[n].loader.dialect == dialect
    }

    /** `new AppLoader({app, services, ...loaderOptions})`: `services`
        defaults to `{}` and the registry starts empty. */
    constructor (d: Dialect, app: string -> Service, services: Option<map<string, LoaderConfig>>, global: LoaderConfig)
      ensures Valid()
      ensures dialect == d && this.app == app && this.global == global
      ensures this.services == if services.Some? then services.value else map[]
      ensures loaders == map[]
    {
      dialect := d;
      this.app := app;
      this.services := if services.Some? then services.value else map[];
      this.global := global;
      loaders := map[];
    }

    /** The options a loader for `name` is built with. */
    function ConfigFor(name: string): LoaderConfig
    {
      Merged(global, if name in services then services[name] else NoOptions)
    }

    /** Building a loader for `name` throws: the class option is given as
        `undefined`, or the JS loader finds no `options` on the service. */
    predicate BuildThrows(name: string)
    {
      ConfigFor(name).loaderClass.Falsy? ||
      (ConfigFor(name).loaderClass == Given(BaseLoader) && dialect == Js && Nullish(app(name).options))
    }

    /** The loader just built for `name` is the one its options ask for. */
    ghost predicate Built(name: string, e: Entry)
      reads if e.Own? then {e.loader} else {}
    {
      var c := ConfigFor(name);
      match e
      case Own(l) =>
        c.loaderClass == Given(BaseLoader) &&
        l.dialect == dialect && l.serviceName == name && l.service == app(name) &&
        Some(l.key) == PrimaryKey(dialect, app(name).options) &&
        l.cacheParamsFn == (if c.cacheParamsFn.Given? then c.cacheParamsFn.value else DefaultCacheParams) &&
        l.selectFn == OrNone(c.selectFn) &&
        (c.cacheMap.Given? ==> l.cacheMap == c.cacheMap.value) &&
        l.loaders == map[] && l.requests == []
      case Custom(cls, n) => c.loaderClass == Given(CustomLoader(cls)) && n == name
    }

    /** `service(name)`: the stored loader when there is one, whatever the
        options say; otherwise a new loader, stored under `name`. `None`
        when building it throws. */
    method Service(name: string) returns (r: Option<Entry>)
      requires Valid()
      requires ConfigFor(name).cacheMap.Given? ==> ConfigFor(name).cacheMap.value.Valid()
      modifies this
      ensures Valid()
      ensures name in old(loaders) ==> r == Some(old(loaders)[name]) && loaders == old(loaders)
      ensures name !in old(loaders) && BuildThrows(name) ==> r.None? && loaders == old(loaders)
      ensures name !in old(loaders) && !BuildThrows(name) ==>
        r.Some? && Built(name, r.value) && (r.value.Own? ==> fresh(r.value.loader)) &&
        loaders == old(loaders)[name := r.value]
      ensures name !in old(loaders) && r.Some? && r.value.Own? && !ConfigFor(name).cacheMap.Given? ==>
        fresh(r.value.loader.cacheMap) && r.value.loader.cacheMap.entries == map[]
    {
      var c := ConfigFor(name);
      if name in loaders {
        return Some(loaders[name]);
      }
      if BuildThrows(name) {
        return None;
      }
      var e: Entry;
      match c.loaderClass.value {
        case BaseLoader =>
          var cacheMap := if c.cacheMap.Given? then Some(c.cacheMap.value) else None;
          var cacheParamsFn := if c.cacheParamsFn.Given? then Some(c.cacheParamsFn.value) else None;
          var l := new ServiceLoader(dialect, app, name, cacheParamsFn, OrNone(c.selectFn), cacheMap);
          e := Own(l);
        case CustomLoader(cls) =>
          e := Custom(cls, name);
      }
      loaders := loaders[name := e];
      r := Some(e);
    }

    /** `clear()`. TS clears every registered loader's whole cache map
        (src/appLoader.ts:82-90); JS has every loader clear its own entries
        (src/appLoader.js:37-46). */
    method Clear() returns (ok: bool)
      requires Valid()
      modifies this, Loaders(), Maps()
      ensures Valid()
      ensures dialect == Ts ==> ok && loaders == map[]
      ensures dialect == Ts ==> forall l :: l in old(Loaders()) ==> l.Valid() && l.cacheMap.entries == map[]
      ensures dialect == Js ==> (ok ==> loaders == map[]) && (!ok ==> loaders == old(loaders))
      ensures dialect == Js ==>
        (ok <==> forall l, k :: l in old(Loaders()) && k in old(l.cacheMap.entries) ==> !Unreadable(k))
      ensures dialect == Js && ok ==>
        forall l, k :: l in old(Loaders()) && k in l.cacheMap.entries ==> !Owned(l.serviceName, k)
      ensures dialect == Ts ==> forall l :: l in old(Loaders()) ==> l.loaders == old(l.loaders)
      ensures dialect == Js ==> forall l :: l in old(Loaders()) ==> l.loaders == map[]
      ensures dialect == Js ==> forall l, k :: l in old(Loaders()) && k in l.cacheMap.entries ==>
        k in old(l.cacheMap.entries) && l.cacheMap.entries[k] == old(l.cacheMap.entries)[k]
      ensures dialect == Js ==> forall l, k ::
        l in old(Loaders()) && k in old(l.cacheMap.entries) && OwnedByNone(old(Loaders()), l.cacheMap, k) ==>
        k in l.cacheMap.entries
    {
      if dialect == Ts {
        ClearMaps();
        ok := true;
      } else {
        ok := ClearEach();
      }
    }

    /** The TS `clear`: `loader.cacheMap.clear()` for each loader, then the
        registry is emptied. */
    method ClearMaps()
      requires Valid()
      modifies this`loaders, Maps()
      ensures Valid()
      ensures loaders == map[]
      ensures forall l :: l in old(Loaders()) ==> l.Valid() && l.cacheMap.entries == map[]
    {
      var todo := Loaders();
      ghost var all := todo;
      while todo != {}
        invariant todo <= all && all == Loaders() && loaders == old(loaders)
        invariant forall l :: l in all ==> l.cacheMap in Maps() && l.Valid()
        invariant forall l :: l in all - todo ==> l.cacheMap.entries == map[]
        decreases todo
      {
        var l :| l in todo;
        l.cacheMap.Clear();
        todo := todo - {l};
      }
      loaders := map[];
    }

    /** The JS `clear`: `loader.clear()` for each loader; the registry is
        emptied only when none of them throws. */
    method ClearEach() returns (ok: bool)
      requires Valid()
      modifies this`loaders, Loaders(), Maps()
      ensures Valid()
      ensures ok ==> loaders == map[]
      ensures !ok ==> loaders == old(loaders)
      ensures ok <==> forall l, k :: l in old(Loaders()) && k in old(l.cacheMap.entries) ==> !Unreadable(k)
      ensures ok ==> forall l, k :: l in old(Loaders()) && k in l.cacheMap.entries ==> !Owned(l.serviceName, k)
      ensures forall l :: l in old(Loaders()) ==> l.loaders == map[]
      ensures forall l, k :: l in old(Loaders()) && k in l.cacheMap.entries ==>
        k in old(l.cacheMap.entries) && l.cacheMap.entries[k] == old(l.cacheMap.entries)[k]
      ensures forall l, k ::
        l in old(Loaders()) && k in old(l.cacheMap.entries) && OwnedByNone(old(Loaders()), l.cacheMap, k) ==>
        k in l.cacheMap.entries
    {
      ok := ClearAll(Loaders());
      if ok {
        loaders := map[];
      }
    }
  }

  // ---------------------------------------------------------------------
  // The loop of the JS `clear`

  /** `loader.clear()` on every loader of `all`, in any order. */
  method ClearAll(all: set<ServiceLoader>) returns (ok: bool)
    requires forall l :: l in all ==> l.Valid()
    modifies all, set l | l in all :: l.cacheMap
    ensures forall l :: l in all ==> l.Valid()
    ensures forall l :: l in all ==> l.loaders == map[]
    ensures ok <==> forall l, k :: l in all && k in old(l.cacheMap.entries) ==> !Unreadable(k)
    ensures ok ==> forall l, k :: l in all && k in l.cacheMap.entries ==> !Owned(l.serviceName, k)
    ensures forall l, k :: l in all && k in l.cacheMap.entries ==>
      k in old(l.cacheMap.entries) && l.cacheMap.entries[k] == old(l.cacheMap.entries)[k]
    ensures forall l, k :: l in all && k in old(l.cacheMap.entries) && OwnedByNone(all, l.cacheMap, k) ==>
      k in l.cacheMap.entries
  {
    var todo := all;
    ghost var done: set<ServiceLoader> := {};
    ghost var before := map l | l in all :: l.cacheMap.entries;
    ok := true;
    while todo != {}
      invariant todo + done == all && done <= all
      invariant forall l :: l in all ==> before[l] == old(l.cacheMap.entries)
      invariant Shrunk(all, before)
      invariant ok <==> NoneUnreadable(done, before)
      invariant ok ==> OwnCleared(done)
      invariant LoadersEmptied(done)
      decreases todo
    {
      var l :| l in todo;
      ok := ClearLoader(l, all, done, before, ok);
      todo := todo - {l};
      done := done + {l};
    }
  }

  // ---------------------------------------------------------------------
  // One step of the JS `clear`

  /** Every loader's cache holds only entries it held in `before`, with
      the same values, and still every unreadable key it held. */
  ghost predicate Shrunk(all: set<ServiceLoader>, before: map<ServiceLoader, map<Stringify.JsonText, Value>>)
    reads all, set l | l in all :: l.cacheMap
  {
    forall l :: l in all ==> ShrunkOne(all, before, l)
  }

  /** `Shrunk` for the one loader `l`. */
  ghost predicate ShrunkOne(all: set<ServiceLoader>, before: map<ServiceLoader, map<Stringify.JsonText, Value>>, l: ServiceLoader)
    reads l, l.cacheMap
  {
    l in before && l.Valid() &&
    (forall k :: k in l.cacheMap.entries ==> k in before[l] && l.cacheMap.entries[k] == before[l][k]) &&
    (forall k :: k in before[l] && Unreadable(k) ==> k in l.cacheMap.entries) &&
    (forall k :: k in before[l] && OwnedByNone(all, l.cacheMap, k) ==> k in l.cacheMap.entries)
  }

  /** No loader of `all` that shares the cache map `c` owns the key `k`, so
      none of their `clear` calls deletes it. */
  ghost predicate OwnedByNone(all: set<ServiceLoader>, c: CacheMap, k: Stringify.JsonText)
  {
    forall m :: m in all && m.cacheMap == c ==> !Owned(m.serviceName, k)
  }

  /** Every loader in `done` has forgotten its batch loaders. */
  ghost predicate LoadersEmptied(done: set<ServiceLoader>)
    reads done
  {
    forall l :: l in done ==> l.loaders == map[]
  }

  /** No loader in `done` had an unreadable key in its cache. */
  ghost predicate NoneUnreadable(done: set<ServiceLoader>, before: map<ServiceLoader, map<Stringify.JsonText, Value>>)
  {
    forall l, k :: l in done && l in before && k in before[l] ==> !Unreadable(k)
  }

  /** Every loader in `done` has no entry of its own service left. */
  ghost predicate OwnCleared(done: set<ServiceLoader>)
    reads set l | l in done :: l.cacheMap
  {
    forall l, k :: l in done && k in l.cacheMap.entries ==> !Owned(l.serviceName, k)
  }

  /** `loader.clear()` on one more loader of the registry. */
  method ClearLoader(l: ServiceLoader, ghost all: set<ServiceLoader>, ghost done: set<ServiceLoader>,
                     ghost before: map<ServiceLoader, map<Stringify.JsonText, Value>>, ok: bool) returns (ok': bool)
    requires l in all && done <= all && Shrunk(all, before)
    requires ok <==> NoneUnreadable(done, before)
    requires ok ==> OwnCleared(done)
    requires LoadersEmptied(done)
    modifies l`loaders, l.cacheMap
    ensures LoadersEmptied(done + {l})
    ensures Shrunk(all, before)
    ensures ok' <==> NoneUnreadable(done + {l}, before)
    ensures ok' ==> OwnCleared(done + {l})
  {
    var cleared := ClearOne(l);
    ok' := ok && cleared;
    forall m | m in all ensures ShrunkOne(all, before, m) {
      assert old(ShrunkOne(all, before, m));
      if m.cacheMap != l.cacheMap {
        assert m.cacheMap.entries == old(m.cacheMap.entries);
      }
    }
  }

  /** `loader.clear()`, with what the registry's walk needs of it. */
  method ClearOne(l: ServiceLoader) returns (cleared: bool)
    requires l.Valid()
    modifies l`loaders, l.cacheMap
    ensures l.Valid() && l.loaders == map[]
    ensures cleared <==> forall k :: k in old(l.cacheMap.entries) ==> !Unreadable(k)
    ensures cleared ==> forall k :: k in l.cacheMap.entries ==> !Owned(l.serviceName, k)
    ensures forall k :: k in l.cacheMap.entries ==>
      k in old(l.cacheMap.entries) && l.cacheMap.entries[k] == old(l.cacheMap.entries)[k]
    ensures forall k :: k in old(l.cacheMap.entries) && !Owned(l.serviceName, k) ==> k in l.cacheMap.entries
    ensures forall k :: k in old(l.cacheMap.entries) && Unreadable(k) ==> k in l.cacheMap.entries
  {
    cleared := l.Clear();
  }
}

=== FILE: cachemap.dfy ===
/** The default cache store of a service loader: a `Map` from cache-key text
    to cached result (src/serviceLoader.ts:23-29, :143). Its keys iterate in
    insertion order; writing an existing key keeps its place. */
module CacheMaps {
  import opened Json
  import opened Stringify

  /** The keys of a map after `set(k, _)`. */
  function OrderAfterSet(order: seq<JsonText>, k: JsonText): (r: seq<JsonText>)
    ensures k in r
    ensures forall x :: x in r <==> x in order || x == k
  {
    if k in order then order else order + [k]
  }

  /** The keys of `order` that `keep` still holds, in their order: what the
      iteration order becomes when only the entries of `keep` survive. */
  function Restrict(order: seq<JsonText>, keep: map<JsonText, Value>): seq<JsonText>
    decreases |order|
  {
    if order == [] then []
    else
      var n := |order| - 1;
      var rest := Restrict(order[..n], keep);
      if order[n] in keep then rest + [order[n]] else rest
  }

  /** The restricted order lists exactly the kept keys of `order`. */
  lemma {:induction false} RestrictMembers(order: seq<JsonText>, keep: map<JsonText, Value>)
    ensures forall x :: x in Restrict(order, keep) <==> x in order && x in keep
    decreases |order|
  {
    if order != [] {
      var n := |order| - 1;
      RestrictMembers(order[..n], keep);
      assert order == order[..n] + [order[n]];
    }
  }

  /** Restricting to a map holding every key changes nothing. */
  lemma {:induction false} RestrictAll(order: seq<JsonText>, keep: map<JsonText, Value>)
    requires forall x :: x in order ==> x in keep
    ensures Restrict(order, keep) == order
    decreases |order|
  {
    if order != [] {
      var n := |order| - 1;
      RestrictAll(order[..n], keep);
      assert order == order[..n] + [order[n]];
    }
  }

  /** Restricting twice is restricting once to the smaller map. */
  lemma {:induction false} RestrictRestrict(order: seq<JsonText>, s: map<JsonText, Value>, t: map<JsonText, Value>)
    requires forall x :: x in t ==> x in s
    ensures Restrict(Restrict(order, s), t) == Restrict(order, t)
    decreases |order|
  {
    if order != [] {
      var n := |order| - 1;
      RestrictRestrict(order[..n], s, t);
      var r := Restrict(order[..n], s);
      if order[n] in s {
        assert (r + [order[n]])[..|r|] == r;
      }
    }
  }

  /** `delete(k)` on a map whose keys are all in `keep` leaves the keys of
      `keep` other than `k`, in order. */
  lemma {:induction false} DeleteRestricts(order: seq<JsonText>, keep: map<JsonText, Value>, k: JsonText)
    requires forall x :: x in order ==> x in keep
    ensures OrderAfterDelete(order, k) == Restrict(order, keep - {k})
    decreases |order|
  {
    if order != [] {
      var n := |order| - 1;
      DeleteRestricts(order[..n], keep, k);
    }
  }

  /** The keys of a map after `delete(k)`. */
  function OrderAfterDelete(order: seq<JsonText>, k: JsonText): (r: seq<JsonText>)
    ensures forall x :: x in r <==> x in order && x != k
    decreases |order|
  {
    if order == [] then []
    else
      var n := |order| - 1;
      var rest := OrderAfterDelete(order[..n], k);
      assert forall x :: x in order <==> x in order[..n] || x == order[n] by {
        assert order == order[..n] + [order[n]];
      }
      if order[n] == k then rest else rest + [order[n]]
  }

  class CacheMap {
    var entries: map<JsonText, Value>
    var order: seq<JsonText>

    /** The iteration order lists exactly the stored keys. */
    ghost predicate Valid()
      reads this
    {
      forall k :: k in entries <==> k in order
    }

    constructor ()
      ensures entries == map[] && order == []
      ensures Valid()
    {
      entries := map[];
      order := [];
    }

    /** `get(k)`: the stored value, or `undefined`. */
    function Get(k: JsonText): (v: Value)
      reads this
      ensures k in entries ==> v == entries[k]
      ensures k !in entries ==> v.Undefined?
    {
      if k in entries then entries[k] else Undefined
    }

    /** `set(k, v)`. */
    method Set(k: JsonText, v: Value)
      requires Valid()
      modifies this
      ensures Valid()
      ensures entries == old(entries)[k := v]
      ensures order == OrderAfterSet(old(order), k)
    {
      entries := entries[k := v];
      order := OrderAfterSet(order, k);
    }

    /** `delete(k)`. */
    method Delete(k: JsonText)
      requires Valid()
      modifies this
      ensures Valid()
      ensures entries == old(entries) - {k}
      ensures order == OrderAfterDelete(old(order), k)
    {
      entries := entries - {k};
      order := OrderAfterDelete(order, k);
    }

    /** `clear()`. */
    method Clear()
      modifies this
      ensures Valid()
      ensures entries == map[] && order == []
    {
      entries := map[];
      order := [];
    }
  }
}

=== FILE: chained_loader.dfy ===
/** The `ChainedLoader` of src/serviceLoader.js: a small builder returned by
    the JS loader's `key`, `multi` and `select`. It remembers a key, a
    `multi` flag and a selection, forwards the terminal calls to its loader,
    and projects each result through the loader's `selectFn`. */
module ChainedLoaders {
  import opened Json
  import opened Stringify
  import opened Objects
  import opened Utils
  import opened ServiceLoaders
  import opened ServiceLoaderFacts

  // ---------------------------------------------------------------------
  // `_process`

  /** `[key, ...selection]`: the primary key followed by the selected
      names. `None` when `selection` cannot be spread into an array: only
      arrays and strings (one element per character) can. */
  function SelectPath(primaryKey: Value, selection: Value): Option<Value>
  {
    match selection
    case Arr(items) => Some(Arr([primaryKey] + items))
    case Str(s) => Some(Arr([primaryKey] + seq(|s|, i requires 0 <= i < |s| => Str([s[i]]))))
    case _ => None
  }

  /** `_process(result)`; `None` when it throws: when the selection cannot
      be spread, or when there is no `selectFn` to call. The path is built
      inside the callback, so an empty array result never builds it. */
  function Process(selection: Value, selectFn: Option<(Value, Value) -> Value>, primaryKey: Value, result: Value): (r: Option<Value>)
    ensures !Truthy(selection) ==> r == Some(result)
    ensures Truthy(selection) && result.Arr? && r.Some? ==>
      r.value.Arr? && |r.value.items| == |result.items|
    ensures Truthy(selection) && SelectPath(primaryKey, selection).Some? && selectFn.Some? ==> r.Some?
    ensures Truthy(selection) && SelectPath(primaryKey, selection).Some? && selectFn.Some? && result.Arr? ==>
      forall i :: 0 <= i < |result.items| ==>
        r.value.items[i] == selectFn.value(SelectPath(primaryKey, selection).value, result.items[i])
    ensures Truthy(selection) && SelectPath(primaryKey, selection).Some? && selectFn.Some? && !result.Arr? ==>
      r == Some(selectFn.value(SelectPath(primaryKey, selection).value, result))
    ensures Truthy(selection) && (SelectPath(primaryKey, selection).None? || selectFn.None?) ==>
      (r.Some? <==> result == Arr([]))
  {
    if !Truthy(selection) then Some(result)
    else if result.Arr? && result.items == [] then Some(result)
    else
      match SelectPath(primaryKey, selection)
      case None => None
      case Some(path) =>
        if selectFn.None? then None
        else if result.Arr? then
          Some(Arr(seq(|result.items|, i requires 0 <= i < |result.items| => selectFn.value(path, result.items[i]))))
        else Some(selectFn.value(path, result))
  }

  /** Projecting an array result projects each record on its own, exactly
      as a single record result would be projected. */
  lemma ProcessEachRecord(selection: Value, selectFn: Option<(Value, Value) -> Value>, primaryKey: Value,
                          items: seq<Value>, i: int)
    requires 0 <= i < |items| && !items[i].Arr?
    requires Process(selection, selectFn, primaryKey, Arr(items)).Some?
    ensures Process(selection, selectFn, primaryKey, items[i]).Some?
    ensures Process(selection, selectFn, primaryKey, Arr(items)).value.items[i] ==
            Process(selection, selectFn, primaryKey, items[i]).value
  {
  }

  /** The value a terminal call settles with: a rejected call stays
      rejected, a result is projected. */
  function Settle(raw: Option<Value>, selection: Value, selectFn: Option<(Value, Value) -> Value>, primaryKey: Value): Option<Value>
  {
    if raw.None? then None else Process(selection, selectFn, primaryKey, raw.value)
  }

  // ---------------------------------------------------------------------
  // The options `load`/`_load` pass to `exec`

  /** The options as written: `key` and `multi` are passed even when the
      chain never set them, and an explicit `undefined` overrides the
      loader's defaults. */
  function ChainedLoadOptionsAsWritten(key: Value, multi: Value, id: Value, params: Value, m: string): Fields
  {
    [("id", id), ("params", params), ("method", Str(m)), ("key", key), ("multi", multi)]
  }

  /** The options with `key` passed only when the chain set it, so that an
      unset key keeps the loader's primary key. `multi` is passed as the
      chain holds it: an unset one stays `undefined`, as in the source,
      and so keeps its own cache and loader keys. */
  function ChainedLoadOptions(key: Value, multi: Value, id: Value, params: Value, m: string): Fields
  {
    [("id", id), ("params", params), ("method", Str(m))]
      + (if key.Undefined? then [] else [("key", key)])
      + [("multi", multi)]
  }

  /** A chain made by `select` alone loads by the service's primary key,
      not by a field named "undefined"; a chain made by `key(k)` or
      `multi(k)` loads by `k`. The chain's `multi` overrides the default,
      even when it is `undefined`. */
  lemma ChainedLoadOptionsKeepDefaults(d: Dialect, primaryKey: Value, key: Value, multi: Value,
                                       id: Value, params: Value, m: string)
    ensures var o := ExecOptions(d, primaryKey, ChainedLoadOptions(key, multi, id, params, m));
      Lookup(o, "key") == (if key.Undefined? then primaryKey else key) &&
      Lookup(o, "multi") == multi &&
      Lookup(o, "method") == Str(m) && Lookup(o, "id") == id && Lookup(o, "params") == params
  {
    var opts := ChainedLoadOptions(key, multi, id, params, m);
    ChainedLoadOptionsLastOf(key, multi, id, params, m);
    ExecOptionsLookup(d, primaryKey, opts, "key");
    ExecOptionsLookup(d, primaryKey, opts, "multi");
    ExecOptionsLookup(d, primaryKey, opts, "method");
    ExecOptionsLookup(d, primaryKey, opts, "id");
    ExecOptionsLookup(d, primaryKey, opts, "params");
  }

  /** What each option is, among those the chain passes. */
  lemma ChainedLoadOptionsLastOf(key: Value, multi: Value, id: Value, params: Value, m: string)
    ensures var opts := ChainedLoadOptions(key, multi, id, params, m);
      LastOf(opts, "key") == (if key.Undefined? then None else Some(key)) &&
      LastOf(opts, "multi") == Some(multi) &&
      LastOf(opts, "method") == Some(Str(m)) && LastOf(opts, "id") == Some(id) &&
      LastOf(opts, "params") == Some(params)
  {
    var opts := ChainedLoadOptions(key, multi, id, params, m);
    var base: Fields := [("id", id), ("params", params), ("method", Str(m))];
    var withKey: Fields := base + (if key.Undefined? then [] else [("key", key)]);
    assert opts == withKey + [("multi", multi)];
    LastOfBase(id, params, m);
    LastOfSnocOpt(base, "key", key);
    forall k | k in {"id", "params", "method", "key", "multi"}
      ensures LastOf(opts, k) == if k == "multi" then Some(multi) else LastOf(withKey, k)
    {
      LastOfSnoc(withKey, "multi", multi, k);
    }
  }

  /** The last property named `k` after one more is appended. */
  lemma LastOfSnoc(f: Fields, k': string, v: Value, k: string)
    ensures LastOf(f + [(k', v)], k) == if k' == k then Some(v) else LastOf(f, k)
  {
    assert (f + [(k', v)])[..|f|] == f;
  }

  lemma LastOfBase(id: Value, params: Value, m: string)
    ensures var base: Fields := [("id", id), ("params", params), ("method", Str(m))];
      LastOf(base, "id") == Some(id) && LastOf(base, "params") == Some(params) &&
      LastOf(base, "method") == Some(Str(m)) && LastOf(base, "key").None? && LastOf(base, "multi").None?
  {
    var f0: Fields := [];
    var f1 := f0 + [("id", id)];
    var f2 := f1 + [("params", params)];
    var f3 := f2 + [("method", Str(m))];
    forall k | k in {"id", "params", "method", "key", "multi"}
      ensures LastOf(f3, k) == if k == "method" then Some(Str(m)) else if k == "params" then Some(params)
                               else if k == "id" then Some(id) else None
    {
      LastOfSnoc(f0, "id", id, k);
      LastOfSnoc(f1, "params", params, k);
      LastOfSnoc(f2, "method", Str(m), k);
    }
    assert f3 == [("id", id), ("params", params), ("method", Str(m))];
  }

  /** Appending a property only when it is defined. */
  lemma LastOfSnocOpt(f: Fields, k: string, v: Value)
    ensures var g := f + (if v.Undefined? then [] else [(k, v)]);
      LastOf(g, k) == (if v.Undefined? then LastOf(f, k) else Some(v)) &&
      forall k' :: k' != k ==> LastOf(g, k') == LastOf(f, k')
  {
    if !v.Undefined? {
      forall k' | k' != k ensures LastOf(f + [(k, v)], k') == LastOf(f, k') {
        LastOfSnoc(f, k, v, k');
      }
      LastOfSnoc(f, k, v, k);
    } else {
      assert f + [] == f;
    }
  }

  /** As written, `loader.select(s).load(1)` on a service whose primary key
      is `id` overrides the key with `undefined`: the batch asks the
      backend for records whose property "undefined" is 1, while the
      results are then matched on `id`. */
  lemma SelectOnlyChainQueriesUndefined()
    ensures var o := ExecOptions(Js, Str("id"), ChainedLoadOptionsAsWritten(Undefined, Undefined, Num(1), Undefined, "load"));
      Lookup(o, "key") == Undefined &&
      BatchParams(Js, Lookup(o, "key"), Lookup(o, "params"), [Num(1)]) ==
        Some(Obj([("paginate", Bool(false)), ("query", Obj([("undefined", Obj([("$in", Arr([Num(1)]))]))]))]))
  {
    SelectOnlyChainOptions();
    UndefinedKeyBatchParams();
  }

  lemma SelectOnlyChainOptions()
    ensures var o := ExecOptions(Js, Str("id"), ChainedLoadOptionsAsWritten(Undefined, Undefined, Num(1), Undefined, "load"));
      Lookup(o, "key") == Undefined && Lookup(o, "params") == Undefined
  {
    var opts := ChainedLoadOptionsAsWritten(Undefined, Undefined, Num(1), Undefined, "load");
    var f3: Fields := [("id", Num(1)), ("params", Undefined), ("method", Str("load"))];
    var f4 := f3 + [("key", Undefined)];
    assert opts == f4 + [("multi", Undefined)];
    LastOfBase(Num(1), Undefined, "load");
    LastOfSnoc(f3, "key", Undefined, "key");
    LastOfSnoc(f3, "key", Undefined, "params");
    LastOfSnoc(f4, "multi", Undefined, "key");
    LastOfSnoc(f4, "multi", Undefined, "params");
    ExecOptionsLookup(Js, Str("id"), opts, "key");
    ExecOptionsLookup(Js, Str("id"), opts, "params");
  }

  lemma UndefinedKeyBatchParams()
    ensures BatchParams(Js, Undefined, Undefined, [Num(1)]) ==
      Some(Obj([("paginate", Bool(false)), ("query", Obj([("undefined", Obj([("$in", Arr([Num(1)]))]))]))]))
  {
    assert Dedup([Num(1)]) == [Num(1)] by {
      assert [Num(1)][..0] == [];
      assert Strs([]) == {};
    }
    assert ToStr(Undefined) == "undefined";
    var inQ := Obj([("$in", Arr([Num(1)]))]);
    assert IndexOf([], "undefined") < 0;
    assert Put([], "undefined", inQ) == [("undefined", inQ)];
    var paged: Fields := [("paginate", Bool(false))];
    assert IndexOf([], "paginate") < 0;
    assert Put([], "paginate", Bool(false)) == paged;
    assert IndexOf(paged[1..], "query") < 0;
    assert IndexOf(paged, "query") < 0;
    assert Get(Obj([]), "query") == Undefined;
    assert SpreadOf(Undefined) == [] && SpreadOf(Obj([])) == [];
    assert Put(SpreadOf(Get(Obj([]), "query")), ToStr(Undefined), Obj([("$in", Arr(Dedup([Num(1)])))])) == [("undefined", inQ)];
    assert Put(paged, "query", Obj([("undefined", inQ)])) == [("paginate", Bool(false)), ("query", Obj([("undefined", inQ)]))];
  }

  // ---------------------------------------------------------------------
  // The builder

  class ChainedLoader {
    const loader: ServiceLoader
    var key: Value
    var selection: Value
    var multi: Value

    /** `new ChainedLoader({loader, key, selection, multi})`; an option not
        given is `undefined`. */
    constructor (loader: ServiceLoader, key: Value, selection: Value, multi: Value)
      ensures this.loader == loader && this.key == key && this.selection == selection && this.multi == multi
    {
      this.loader := loader;
      this.key := key;
      this.selection := selection;
      this.multi := multi;
    }

    /** `key(k)`: load by `k`, one record per id; the same chain is returned. */
    method Key(k: Value) returns (self: ChainedLoader)
      modifies this
      ensures self == this
      ensures key == k && multi == Bool(false) && selection == old(selection)
    {
      key := k;
      multi := Bool(false);
      self := this;
    }

    /** `multi(k)`: load by `k`, every matching record per id. */
    method Multi(k: Value) returns (self: ChainedLoader)
      modifies this
      ensures self == this
      ensures key == k && multi == Bool(true) && selection == old(selection)
    {
      key := k;
      multi := Bool(true);
      self := this;
    }

    /** `select(s)`: project results through `s`, keeping key and multi. */
    method Select(s: Value) returns (self: ChainedLoader)
      modifies this
      ensures self == this
      ensures selection == s && key == old(key) && multi == old(multi)
    {
      selection := s;
      self := this;
    }

    /** The state change and the settled value of a terminal call that runs
        `exec(options)` on the loader and projects its result. */
    twostate predicate Forwarded(options: Fields, cacheParamsFn: Option<Value -> Value>, new result: Option<Value>)
      reads this, loader, loader.cacheMap
    {
      var out := ExecOutcome(loader.dialect, loader.service, loader.serviceName, loader.key, loader.cacheParamsFn,
                             old(loader.cacheMap.entries), old(loader.loaders), options, cacheParamsFn);
      loader.Executed(options, cacheParamsFn, out.result) &&
      result == Settle(out.result, selection, loader.selectFn, loader.key)
    }

    /** `get(id, params, cacheParamsFn)`: the loader's `get`, projected. */
    method Get(id: Value, params: Value, cacheParamsFn: Option<Value -> Value>) returns (result: Option<Value>)
      requires loader.Valid()
      modifies loader, loader.cacheMap
      ensures loader.Valid()
      ensures Forwarded([("method", Str("get")), ("id", id), ("params", params)], cacheParamsFn, result)
    {
      var raw := loader.Get(id, params, cacheParamsFn);
      result := Settle(raw, selection, loader.selectFn, loader.key);
    }

    /** `_get(id, params, cacheParamsFn)`. */
    method InternalGet(id: Value, params: Value, cacheParamsFn: Option<Value -> Value>) returns (result: Option<Value>)
      requires loader.Valid()
      modifies loader, loader.cacheMap
      ensures loader.Valid()
      ensures Forwarded([("method", Str("_get")), ("id", id), ("params", params)], cacheParamsFn, result)
    {
      var raw := loader.InternalGet(id, params, cacheParamsFn);
      result := Settle(raw, selection, loader.selectFn, loader.key);
    }

    /** `find(params, cacheParamsFn)`. */
    method Find(params: Value, cacheParamsFn: Option<Value -> Value>) returns (result: Option<Value>)
      requires loader.Valid()
      modifies loader, loader.cacheMap
      ensures loader.Valid()
      ensures Forwarded([("method", Str("find")), ("params", params)], cacheParamsFn, result)
    {
      var raw := loader.Find(params, cacheParamsFn);
      result := Settle(raw, selection, loader.selectFn, loader.key);
    }

    /** `_find(params, cacheParamsFn)`. */
    method InternalFind(params: Value, cacheParamsFn: Option<Value -> Value>) returns (result: Option<Value>)
      requires loader.Valid()
      modifies loader, loader.cacheMap
      ensures loader.Valid()
      ensures Forwarded([("method", Str("_find")), ("params", params)], cacheParamsFn, result)
    {
      var raw := loader.InternalFind(params, cacheParamsFn);
      result := Settle(raw, selection, loader.selectFn, loader.key);
    }

    /** `load(id, params, cacheParamsFn)`: `exec` with the chain's key and
        multi flag. */
    method Load(id: Value, params: Value, cacheParamsFn: Option<Value -> Value>) returns (result: Option<Value>)
      requires loader.Valid()
      modifies loader, loader.cacheMap
      ensures loader.Valid()
      ensures Forwarded(ChainedLoadOptions(key, multi, id, params, "load"), cacheParamsFn, result)
    {
      var raw := loader.Exec(ChainedLoadOptions(key, multi, id, params, "load"), cacheParamsFn);
      result := Settle(raw, selection, loader.selectFn, loader.key);
    }

    /** `_load(id, params, cacheParamsFn)`. */
    method InternalLoad(id: Value, params: Value, cacheParamsFn: Option<Value -> Value>) returns (result: Option<Value>)
      requires loader.Valid()
      modifies loader, loader.cacheMap
      ensures loader.Valid()
      ensures Forwarded(ChainedLoadOptions(key, multi, id, params, "_load"), cacheParamsFn, result)
    {
      var raw := loader.Exec(ChainedLoadOptions(key, multi, id, params, "_load"), cacheParamsFn);
      result := Settle(raw, selection, loader.selectFn, loader.key);
    }
  }

  /** `loader.key(k)` of the JS loader: a chain loading by `k`. */
  method KeyChain(loader: ServiceLoader, k: Value) returns (c: ChainedLoader)
    ensures fresh(c)
    ensures c.loader == loader && c.key == k && c.selection == Undefined && c.multi == Undefined
  {
    c := new ChainedLoader(loader, k, Undefined, Undefined);
  }

  /** `loader.multi(k)` of the JS loader. */
  method MultiChain(loader: ServiceLoader, k: Value) returns (c: ChainedLoader)
    ensures fresh(c)
    ensures c.loader == loader && c.key == k && c.selection == Undefined && c.multi == Bool(true)
  {
    c := new ChainedLoader(loader, k, Undefined, Bool(true));
  }

  /** `loader.select(s)` of the JS loader: a chain with no key of its own. */
  method SelectChain(loader: ServiceLoader, s: Value) returns (c: ChainedLoader)
    ensures fresh(c)
    ensures c.loader == loader && c.key == Undefined && c.selection == s && c.multi == Undefined
  {
    c := new ChainedLoader(loader, Undefined, s, Undefined);
  }
}

=== FILE: demux.dfy ===
/** `uniqueResults` and `uniqueResultsMulti`: one bulk backend result is
    mapped back onto the requested keys, position by position. A record
    belongs to a key when the record's id field has the key's string form. */
module Demux {
  import opened Json
  import opened Utils

  // ---------------------------------------------------------------------
  // The records of a backend result

  /** The elements a `for (i = 0; i < v.length; i++) v[i]` loop visits:
      an array's elements, a string's characters, nothing otherwise. */
  function ArrayLike(v: Value): (rs: seq<Value>)
    ensures v.Arr? ==> rs == v.items
    ensures !v.Arr? && !v.Str? ==> rs == []
    ensures v.Str? ==> |rs| == |v.s|
  {
    match v
    case Arr(items) => items
    case Str(s) => seq(|s|, i requires 0 <= i < |s| => Str([s[i]]))
    case _ => []
  }

  /** `'data' in result ? result.data : result` followed by the record loop
      of src/utils.ts; `None` is the TypeError thrown when `result` is not
      an object or its `data` is `null` or `undefined`. */
  function RecordsOf(result: Value): Option<seq<Value>>
  {
    match result
    case Obj(f) =>
      if IndexOf(f, "data") < 0 then Some([])
      else
        var d := Lookup(f, "data");
        if d.Null? || d.Undefined? then None else Some(ArrayLike(d))
    case Arr(items) => Some(items)
    case Fn(_) => Some([])
    case _ => None
  }

  /** `result.data || result` followed by the record loop of src/utils.js;
      `None` is the TypeError thrown when `result` is `null` or `undefined`. */
  function RecordsOfJs(result: Value): Option<seq<Value>>
  {
    if result.Null? || result.Undefined? then None
    else
      var d := Get(result, "data");
      Some(ArrayLike(if Truthy(d) then d else result))
  }

  /** A `{data: xs}` envelope and the bare array `xs` give the same records,
      in both versions. */
  lemma EnvelopeSameRecords(f: seq<(string, Value)>, xs: seq<Value>)
    requires Lookup(f, "data") == Arr(xs)
    ensures RecordsOf(Obj(f)) == RecordsOf(Arr(xs)) == Some(xs)
    ensures RecordsOfJs(Obj(f)) == RecordsOfJs(Arr(xs)) == Some(xs)
  {
    GetNonIndex(Arr(xs), "data");
  }

  // ---------------------------------------------------------------------
  // Matching records to keys

  /** The string form of a record's id, read along `parts`. */
  function IdOf(item: Value, parts: seq<string>): string
  {
    ToStr(DotPath(item, parts))
  }

  /** The position of the last record whose id has the string form `s`,
      or -1. */
  function LastMatchIndex(rs: seq<Value>, parts: seq<string>, s: string): (p: int)
    ensures -1 <= p < |rs|
    ensures 0 <= p ==> IdOf(rs[p], parts) == s && forall q :: p < q < |rs| ==> IdOf(rs[q], parts) != s
    ensures p < 0 ==> forall q :: 0 <= q < |rs| ==> IdOf(rs[q], parts) != s
    decreases |rs|
  {
    if rs == [] then -1
    else if IdOf(rs[|rs| - 1], parts) == s then |rs| - 1
    else LastMatchIndex(rs[..|rs| - 1], parts, s)
  }

  /** The last record whose id has the string form `s`. */
  function LastMatch(rs: seq<Value>, parts: seq<string>, s: string): Option<Value>
  {
    var p := LastMatchIndex(rs, parts, s);
    if p < 0 then None else Some(rs[p])
  }

  lemma LastMatchSnoc(rs: seq<Value>, x: Value, parts: seq<string>, s: string)
    ensures LastMatch(rs + [x], parts, s) == if IdOf(x, parts) == s then Some(x) else LastMatch(rs, parts, s)
  {
    assert (rs + [x])[..|rs|] == rs;
  }

  /** All records whose id has the string form `s`, in backend order. */
  function Matches(rs: seq<Value>, parts: seq<string>, s: string): (m: seq<Value>)
    ensures forall x :: x in m ==> IdOf(x, parts) == s
    decreases |rs|
  {
    if rs == [] then []
    else
      var n := |rs| - 1;
      Matches(rs[..n], parts, s) + (if IdOf(rs[n], parts) == s then [rs[n]] else [])
  }

  lemma MatchesSnoc(rs: seq<Value>, x: Value, parts: seq<string>, s: string)
    ensures Matches(rs + [x], parts, s) == Matches(rs, parts, s) + if IdOf(x, parts) == s then [x] else []
  {
    assert (rs + [x])[..|rs|] == rs;
  }

  /** Grouping follows the backend order: the group of a concatenation is
      the concatenation of the groups. */
  lemma {:induction false} MatchesConcat(a: seq<Value>, b: seq<Value>, parts: seq<string>, s: string)
    ensures Matches(a + b, parts, s) == Matches(a, parts, s) + Matches(b, parts, s)
    decreases |b|
  {
    if b == [] {
      assert a + b == a;
    } else {
      var n := |b| - 1;
      assert (a + b)[..|a + b| - 1] == a + b[..n];
      MatchesConcat(a, b[..n], parts, s);
    }
  }

  /** Every record is in the group of its own id. */
  lemma {:induction false} MatchesComplete(rs: seq<Value>, parts: seq<string>, p: nat)
    requires p < |rs|
    ensures rs[p] in Matches(rs, parts, IdOf(rs[p], parts))
    decreases |rs|
  {
    var n := |rs| - 1;
    if p < n {
      MatchesComplete(rs[..n], parts, p);
    }
  }

  /** The single-record demultiplexer keeps the last member of the group the
      multi-record one returns. */
  lemma {:induction false} LastMatchIsLastOfGroup(rs: seq<Value>, parts: seq<string>, s: string)
    ensures LastMatch(rs, parts, s).None? <==> Matches(rs, parts, s) == []
    ensures Matches(rs, parts, s) != [] ==>
      LastMatch(rs, parts, s).value == Matches(rs, parts, s)[|Matches(rs, parts, s)| - 1]
    decreases |rs|
  {
    if rs != [] {
      LastMatchIsLastOfGroup(rs[..|rs| - 1], parts, s);
    }
  }

  // ---------------------------------------------------------------------
  // Entries

  /** `found[k] || defaultValue` for the single-record dictionary. */
  function Entry(m: Option<Value>, defaultValue: Value): Value
  {
    if m.Some? && Truthy(m.value) then m.value else defaultValue
  }

  /** `found[k] || defaultValue` for the grouping dictionary: a group is a
      non-empty array, which is always truthy. */
  function MultiEntry(m: seq<Value>, defaultValue: Value): Value
  {
    if m == [] then defaultValue else Arr(m)
  }

  /** The results `uniqueResults` returns for the records `rs`. */
  function UniqueResultsOf(keys: seq<Value>, rs: seq<Value>, parts: seq<string>, defaultValue: Value): seq<Value>
  {
    seq(|keys|, i requires 0 <= i < |keys| => Entry(LastMatch(rs, parts, ToStr(keys[i])), defaultValue))
  }

  /** The results `uniqueResultsMulti` returns for the records `rs`. */
  function UniqueResultsMultiOf(keys: seq<Value>, rs: seq<Value>, parts: seq<string>, defaultValue: Value): seq<Value>
  {
    seq(|keys|, i requires 0 <= i < |keys| => MultiEntry(Matches(rs, parts, ToStr(keys[i])), defaultValue))
  }

  /** One result per requested key, position by position: the last matching
      record, or the default when none matches (or the match is falsy). */
  lemma UniqueResultsPositions(keys: seq<Value>, rs: seq<Value>, parts: seq<string>, defaultValue: Value, i: nat)
    requires i < |keys|
    ensures |UniqueResultsOf(keys, rs, parts, defaultValue)| == |keys|
    ensures UniqueResultsOf(keys, rs, parts, defaultValue)[i] != defaultValue ==>
      exists p :: 0 <= p < |rs| && rs[p] == UniqueResultsOf(keys, rs, parts, defaultValue)[i] &&
        IdOf(rs[p], parts) == ToStr(keys[i]) &&
        forall q :: p < q < |rs| ==> IdOf(rs[q], parts) != ToStr(keys[i])
    ensures (forall q :: 0 <= q < |rs| ==> IdOf(rs[q], parts) != ToStr(keys[i])) ==>
      UniqueResultsOf(keys, rs, parts, defaultValue)[i] == defaultValue
    ensures forall p ::
      (0 <= p < |rs| && IdOf(rs[p], parts) == ToStr(keys[i]) &&
       forall q :: p < q < |rs| ==> IdOf(rs[q], parts) != ToStr(keys[i])) ==>
      UniqueResultsOf(keys, rs, parts, defaultValue)[i] == if Truthy(rs[p]) then rs[p] else defaultValue
  {
    var s := ToStr(keys[i]);
    forall p | 0 <= p < |rs| && IdOf(rs[p], parts) == s && (forall q :: p < q < |rs| ==> IdOf(rs[q], parts) != s)
      ensures LastMatch(rs, parts, s) == Some(rs[p])
    {
      var m := LastMatchIndex(rs, parts, s);
      assert m >= 0;
      assert !(m < p) && !(p < m);
    }
  }

  /** Keys with the same string form get the same result, in both
      demultiplexers. */
  lemma SameStringSameResult(keys: seq<Value>, rs: seq<Value>, parts: seq<string>, defaultValue: Value, i: nat, j: nat)
    requires i < |keys| && j < |keys| && ToStr(keys[i]) == ToStr(keys[j])
    ensures UniqueResultsOf(keys, rs, parts, defaultValue)[i] == UniqueResultsOf(keys, rs, parts, defaultValue)[j]
    ensures UniqueResultsMultiOf(keys, rs, parts, defaultValue)[i] == UniqueResultsMultiOf(keys, rs, parts, defaultValue)[j]
  {
  }

  /** A multi entry is either the default or the non-empty group of the
      key, every member matching it. */
  lemma MultiEntryIsGroup(keys: seq<Value>, rs: seq<Value>, parts: seq<string>, defaultValue: Value, i: nat)
    requires i < |keys|
    ensures |UniqueResultsMultiOf(keys, rs, parts, defaultValue)| == |keys|
    ensures Matches(rs, parts, ToStr(keys[i])) == [] ==>
      UniqueResultsMultiOf(keys, rs, parts, defaultValue)[i] == defaultValue
    ensures Matches(rs, parts, ToStr(keys[i])) != [] ==>
      UniqueResultsMultiOf(keys, rs, parts, defaultValue)[i] == Arr(Matches(rs, parts, ToStr(keys[i])))
  {
  }

  // ---------------------------------------------------------------------
  // The loops

  /** Reading the dictionary `found`: `None` when the key is not in it. */
  function Find<T>(found: map<string, T>, s: string): Option<T>
  {
    if s in found then Some(found[s]) else None
  }

  /** `uniqueResults(keys, result, key, defaultValue)` of src/utils.ts. */
  method UniqueResults(keys: seq<Value>, result: Value, key: string, defaultValue: Value)
    returns (r: Option<seq<Value>>)
    ensures RecordsOf(result).None? ==> r.None?
    ensures RecordsOf(result).Some? ==>
      r == Some(UniqueResultsOf(keys, RecordsOf(result).value, Split(key, '.'), defaultValue))
  {
    var records := RecordsOf(result);
    if records.None? {
      return None;
    }
    var serviceResults := records.value;
    var parts := Split(key, '.');
    var found: map<string, Value> := map[];
    var index := 0;
    while index < |serviceResults|
      invariant 0 <= index <= |serviceResults|
      invariant forall s :: Find(found, s) == LastMatch(serviceResults[..index], parts, s)
    {
      var item := serviceResults[index];
      var v := GetByDotPath(item, key);
      var id := ToStr(v);
      found := found[id := item];
      assert serviceResults[..index + 1] == serviceResults[..index] + [item];
      forall s ensures Find(found, s) == LastMatch(serviceResults[..index + 1], parts, s) {
        LastMatchSnoc(serviceResults[..index], item, parts, s);
      }
      index := index + 1;
    }
    assert serviceResults[..index] == serviceResults;
    var results := PickEntries(keys, found, defaultValue);
    r := Some(results);
    assert results == UniqueResultsOf(keys, serviceResults, parts, defaultValue);
  }

  /** The second loop of `uniqueResults`: `found[String(k)] || defaultValue`
      for every key in order. */
  method PickEntries(keys: seq<Value>, found: map<string, Value>, defaultValue: Value)
    returns (results: seq<Value>)
    ensures |results| == |keys|
    ensures forall i :: 0 <= i < |keys| ==> results[i] == Entry(Find(found, ToStr(keys[i])), defaultValue)
  {
    results := [];
    var index := 0;
    while index < |keys|
      invariant 0 <= index <= |keys| && |results| == index
      invariant forall i :: 0 <= i < index ==> results[i] == Entry(Find(found, ToStr(keys[i])), defaultValue)
    {
      var keyStr := ToStr(keys[index]);
      var hit := if keyStr in found then found[keyStr] else Undefined;
      results := results + [if Truthy(hit) then hit else defaultValue];
      index := index + 1;
    }
  }

  /** `uniqueResultsMulti(keys, result, key, defaultValue)` of src/utils.ts. */
  method UniqueResultsMulti(keys: seq<Value>, result: Value, key: string, defaultValue: Value)
    returns (r: Option<seq<Value>>)
    ensures RecordsOf(result).None? ==> r.None?
    ensures RecordsOf(result).Some? ==>
      r == Some(UniqueResultsMultiOf(keys, RecordsOf(result).value, Split(key, '.'), defaultValue))
  {
    var records := RecordsOf(result);
    if records.None? {
      return None;
    }
    var serviceResults := records.value;
    var found := GroupByPath(serviceResults, key);
    var results := PickGroups(keys, found, defaultValue);
    r := Some(results);
    PickedGroups(keys, serviceResults, Split(key, '.'), found, defaultValue, results);
  }

  /** The first loop of `uniqueResultsMulti` of src/utils.ts: records grouped
      by the string form of the value at the dotted path `key`. */
  method GroupByPath(serviceResults: seq<Value>, key: string) returns (found: map<string, seq<Value>>)
    ensures Grouped(found, serviceResults, Split(key, '.'))
  {
    ghost var parts := Split(key, '.');
    found := map[];
    var index := 0;
    while index < |serviceResults|
      invariant 0 <= index <= |serviceResults|
      invariant Grouped(found, serviceResults[..index], parts)
    {
      var item := serviceResults[index];
      var v := GetByDotPath(item, key);
      found := AddToGroup(found, ToStr(v), item, serviceResults[..index], parts);
      assert serviceResults[..index + 1] == serviceResults[..index] + [item];
      index := index + 1;
    }
    assert serviceResults[..index] == serviceResults;
  }

  /** The body of the grouping loops: `item` joins the group of `id`,
      opening it when it is new. */
  method AddToGroup(found: map<string, seq<Value>>, id: string, item: Value,
                    ghost rs: seq<Value>, ghost parts: seq<string>)
    returns (after: map<string, seq<Value>>)
    requires Grouped(found, rs, parts) && id == IdOf(item, parts)
    ensures Grouped(after, rs + [item], parts)
  {
    if id in found {
      after := found[id := found[id] + [item]];
    } else {
      after := found[id := [item]];
    }
    GroupStep(rs, item, parts, found, after);
  }

  /** `found` holds, for every string form, the non-empty group of records
      whose id has that form, in their order, and nothing else. */
  ghost predicate Grouped(found: map<string, seq<Value>>, rs: seq<Value>, parts: seq<string>)
  {
    (forall s :: s in found ==> found[s] == Matches(rs, parts, s) != []) &&
    (forall s :: s !in found ==> Matches(rs, parts, s) == [])
  }

  /** One step of the grouping loop keeps `found` equal to the groups of
      the records read so far. */
  lemma GroupStep(rs: seq<Value>, item: Value, parts: seq<string>,
                  before: map<string, seq<Value>>, after: map<string, seq<Value>>)
    requires Grouped(before, rs, parts)
    requires var id := IdOf(item, parts);
      after == before[id := if id in before then before[id] + [item] else [item]]
    ensures Grouped(after, rs + [item], parts)
  {
    forall s ensures Matches(rs + [item], parts, s) == Matches(rs, parts, s) + if IdOf(item, parts) == s then [item] else [] {
      MatchesSnoc(rs, item, parts, s);
    }
  }

  /** Picking the groups of the requested keys out of a complete grouping
      gives the results `uniqueResultsMulti` promises. */
  lemma PickedGroups(keys: seq<Value>, rs: seq<Value>, parts: seq<string>, found: map<string, seq<Value>>,
                     defaultValue: Value, results: seq<Value>)
    requires Grouped(found, rs, parts)
    requires |results| == |keys|
    requires forall i :: 0 <= i < |keys| ==>
      results[i] == (if ToStr(keys[i]) in found then Arr(found[ToStr(keys[i])]) else defaultValue)
    ensures results == UniqueResultsMultiOf(keys, rs, parts, defaultValue)
  {
  }

  /** The second loop of `uniqueResultsMulti`. */
  method PickGroups(keys: seq<Value>, found: map<string, seq<Value>>, defaultValue: Value)
    returns (results: seq<Value>)
    requires forall s :: s in found ==> found[s] != []
    ensures |results| == |keys|
    ensures forall i :: 0 <= i < |keys| ==>
      results[i] == (if ToStr(keys[i]) in found then Arr(found[ToStr(keys[i])]) else defaultValue)
  {
    results := [];
    var index := 0;
    while index < |keys|
      invariant 0 <= index <= |keys| && |results| == index
      invariant forall i :: 0 <= i < index ==>
        results[i] == (if ToStr(keys[i]) in found then Arr(found[ToStr(keys[i])]) else defaultValue)
    {
      var keyStr := ToStr(keys[index]);
      var hit := if keyStr in found then Arr(found[keyStr]) else Undefined;
      results := results + [if Truthy(hit) then hit else defaultValue];
      index := index + 1;
    }
  }

  /** Some record is `null` or `undefined`: the older lookup `item[key]`
      throws on it. */
  predicate HasNullish(rs: seq<Value>)
  {
    exists i :: 0 <= i < |rs| && Nullish(rs[i])
  }

  predicate Nullish(x: Value)
  {
    x.Null? || x.Undefined?
  }

  /** `uniqueResults(keys, result, key, defaultValue)` of src/utils.js: the
      id is the single property `key`, never a dotted path. */
  method UniqueResultsJs(keys: seq<Value>, result: Value, key: string, defaultValue: Value)
    returns (r: Option<seq<Value>>)
    ensures RecordsOfJs(result).None? ==> r.None?
    ensures RecordsOfJs(result).Some? && HasNullish(RecordsOfJs(result).value) ==> r.None?
    ensures RecordsOfJs(result).Some? && !HasNullish(RecordsOfJs(result).value) ==>
      r == Some(UniqueResultsOf(keys, RecordsOfJs(result).value, [key], defaultValue))
  {
    var records := RecordsOfJs(result);
    if records.None? {
      return None;
    }
    var serviceResults := records.value;
    var found: map<string, Value> := map[];
    var index := 0;
    while index < |serviceResults|
      invariant 0 <= index <= |serviceResults|
      invariant forall i :: 0 <= i < index ==> !Nullish(serviceResults[i])
      invariant forall s :: Find(found, s) == LastMatch(serviceResults[..index], [key], s)
    {
      var item := serviceResults[index];
      if Nullish(item) {
        return None;
      }
      var id := ToStr(Get(item, key));
      DotPathSingle(item, key);
      found := found[id := item];
      assert serviceResults[..index + 1] == serviceResults[..index] + [item];
      forall s ensures Find(found, s) == LastMatch(serviceResults[..index + 1], [key], s) {
        LastMatchSnoc(serviceResults[..index], item, [key], s);
      }
      index := index + 1;
    }
    assert serviceResults[..index] == serviceResults;
    var results := PickEntries(keys, found, defaultValue);
    r := Some(results);
    assert results == UniqueResultsOf(keys, serviceResults, [key], defaultValue);
  }

  /** `uniqueResultsMulti(keys, result, key, defaultValue)` of src/utils.js. */
  method UniqueResultsMultiJs(keys: seq<Value>, result: Value, key: string, defaultValue: Value)
    returns (r: Option<seq<Value>>)
    ensures RecordsOfJs(result).None? ==> r.None?
    ensures RecordsOfJs(result).Some? && HasNullish(RecordsOfJs(result).value) ==> r.None?
    ensures RecordsOfJs(result).Some? && !HasNullish(RecordsOfJs(result).value) ==>
      r == Some(UniqueResultsMultiOf(keys, RecordsOfJs(result).value, [key], defaultValue))
  {
    var records := RecordsOfJs(result);
    if records.None? {
      return None;
    }
    var serviceResults := records.value;
    var grouped := GroupByProperty(serviceResults, key);
    if grouped.None? {
      return None;
    }
    var found := grouped.value;
    var results := PickGroups(keys, found, defaultValue);
    r := Some(results);
    PickedGroups(keys, serviceResults, [key], found, defaultValue, results);
  }

  /** The first loop of `uniqueResultsMulti` of src/utils.js: records grouped
      by `item[key]`; `None` when a record is `null` or `undefined`. */
  method GroupByProperty(serviceResults: seq<Value>, key: string) returns (r: Option<map<string, seq<Value>>>)
    ensures r.None? <==> HasNullish(serviceResults)
    ensures r.Some? ==> Grouped(r.value, serviceResults, [key])
  {
    var found: map<string, seq<Value>> := map[];
    var index := 0;
    while index < |serviceResults|
      invariant 0 <= index <= |serviceResults|
      invariant forall i :: 0 <= i < index ==> !Nullish(serviceResults[i])
      invariant Grouped(found, serviceResults[..index], [key])
    {
      var item := serviceResults[index];
      if Nullish(item) {
        return None;
      }
      DotPathSingle(item, key);
      found := AddToGroup(found, ToStr(Get(item, key)), item, serviceResults[..index], [key]);
      assert serviceResults[..index + 1] == serviceResults[..index] + [item];
      index := index + 1;
    }
    assert serviceResults[..index] == serviceResults;
    r := Some(found);
  }

  /** For a key without a dot, the dotted-path lookup of src/utils.ts reads
      the same id as the direct lookup of src/utils.js. */
  lemma PlainKeySameResults(keys: seq<Value>, rs: seq<Value>, key: string, defaultValue: Value)
    requires '.' !in key
    ensures UniqueResultsOf(keys, rs, Split(key, '.'), defaultValue) == UniqueResultsOf(keys, rs, [key], defaultValue)
    ensures UniqueResultsMultiOf(keys, rs, Split(key, '.'), defaultValue) == UniqueResultsMultiOf(keys, rs, [key], defaultValue)
  {
    SplitNoSeparator(key, '.');
  }
}

=== FILE: idsort.dfy ===
/** The default `Array.prototype.sort()` that `exec` applies to an array of
    ids before deriving the cache key (src/serviceLoader.ts:194): a stable
    sort by string form, with `undefined` elements moved to the end. */
module IdSort {
  import opened Json

  /** `x` inserted into `s` after every element whose string form does not
      exceed its own, so that equal string forms keep their input order. */
  function InsertId(key: Value -> string, x: Value, s: seq<Value>): (r: seq<Value>)
    ensures multiset(r) == multiset(s) + multiset{x}
  {
    if s == [] then [x]
    else if StrLess(key(x), key(s[0])) then [x] + s
    else
      assert s == [s[0]] + s[1..];
      [s[0]] + InsertId(key, x, s[1..])
  }

  /** The ids other than `undefined`, sorted by string form (insertion sort,
      back to front, so that the sort is stable). */
  function SortDefined(key: Value -> string, ids: seq<Value>): seq<Value>
    decreases |ids|
  {
    if ids == [] then []
    else
      var n := |ids| - 1;
      var r := SortDefined(key, ids[..n]);
      if ids[n].Undefined? then r else InsertId(key, ids[n], r)
  }

  /** The ids sorted by `key`, then every `undefined`. */
  function SortBy(key: Value -> string, ids: seq<Value>): seq<Value>
  {
    SortDefined(key, ids) + UndefinedsOf(ids)
  }

  /** The `undefined` elements of `ids`. */
  function UndefinedsOf(ids: seq<Value>): (u: seq<Value>)
    ensures forall i :: 0 <= i < |u| ==> u[i].Undefined?
  {
    if ids == [] then []
    else
      var n := |ids| - 1;
      if ids[n].Undefined? then UndefinedsOf(ids[..n]) + [Undefined] else UndefinedsOf(ids[..n])
  }

  /** `[...ids].sort()`: the order is that of the ids' string forms. */
  function SortIds(ids: seq<Value>): seq<Value>
  {
    SortBy(ToStr, ids)
  }

  /** Non-decreasing in string order. */
  predicate StrOrdered(key: Value -> string, s: seq<Value>)
  {
    forall i, j :: 0 <= i < j < |s| ==> !StrLess(key(s[j]), key(s[i]))
  }

  // ---------------------------------------------------------------------
  // The sort orders its input and permutes it.

  lemma {:induction false} InsertIdOrdered(key: Value -> string, x: Value, s: seq<Value>)
    requires StrOrdered(key, s)
    ensures StrOrdered(key, InsertId(key, x, s))
  {
    if s != [] && !StrLess(key(x), key(s[0])) {
      InsertIdOrdered(key, x, s[1..]);
      var t := InsertId(key, x, s[1..]);
      var r := [s[0]] + t;
      assert InsertId(key, x, s) == r;
      forall i, j | 0 <= i < j < |r| ensures !StrLess(key(r[j]), key(r[i])) {
        if i == 0 {
          assert r[j] == t[j - 1] && t[j - 1] in multiset(t);
          if t[j - 1] != x {
            assert t[j - 1] in multiset(s[1..]);
            var m :| 0 <= m < |s[1..]| && s[1..][m] == t[j - 1];
            assert s[m + 1] == t[j - 1];
          }
        } else {
          assert r[i] == t[i - 1] && r[j] == t[j - 1];
        }
      }
    } else if s != [] {
      var r := [x] + s;
      assert InsertId(key, x, s) == r;
      forall i, j | 0 <= i < j < |r| ensures !StrLess(key(r[j]), key(r[i])) {
        assert r[j] == s[j - 1];
        if i == 0 {
          if j == 1 {
            StrLessAsymmetric(key(x), key(s[0]));
          } else {
            StrLessBelow(key(s[j - 1]), key(x), key(s[0]));
          }
        } else {
          assert r[i] == s[i - 1];
        }
      }
    }
  }

  /** Anything not below `c` is not below what is below `c`. */
  lemma StrLessBelow(a: string, b: string, c: string)
    requires StrLess(b, c) && !StrLess(a, c)
    ensures !StrLess(a, b)
  {
    if StrLess(a, b) {
      StrLessTransitive(a, b, c);
    }
  }

  lemma SortDefinedProps(key: Value -> string, ids: seq<Value>)
    ensures StrOrdered(key, SortDefined(key, ids))
    ensures forall x :: x in SortDefined(key, ids) ==> !x.Undefined?
    ensures multiset(SortDefined(key, ids)) + multiset(UndefinedsOf(ids)) == multiset(ids)
  {
    SortDefinedOrdered(key, ids);
    SortDefinedPermutes(key, ids);
  }

  lemma {:induction false} SortDefinedOrdered(key: Value -> string, ids: seq<Value>)
    ensures StrOrdered(key, SortDefined(key, ids))
    ensures forall x :: x in SortDefined(key, ids) ==> !x.Undefined?
    decreases |ids|
  {
    if ids != [] {
      var n := |ids| - 1;
      SortDefinedOrdered(key, ids[..n]);
      var r := SortDefined(key, ids[..n]);
      if !ids[n].Undefined? {
        InsertIdOrdered(key, ids[n], r);
        forall x | x in InsertId(key, ids[n], r) ensures !x.Undefined? {
          assert x in multiset(InsertId(key, ids[n], r));
        }
      }
    }
  }

  lemma {:induction false} SortDefinedPermutes(key: Value -> string, ids: seq<Value>)
    ensures multiset(SortDefined(key, ids)) + multiset(UndefinedsOf(ids)) == multiset(ids)
    decreases |ids|
  {
    if ids != [] {
      var n := |ids| - 1;
      SortDefinedPermutes(key, ids[..n]);
      assert ids == ids[..n] + [ids[n]];
    }
  }

  /** The sort is a permutation of its input. */
  lemma SortByPermutation(key: Value -> string, ids: seq<Value>)
    ensures multiset(SortBy(key, ids)) == multiset(ids)
  {
    SortDefinedProps(key, ids);
  }

  /** The sort lists the ids other than `undefined` in `key` order, then
      every `undefined`. */
  lemma SortByOrdered(key: Value -> string, ids: seq<Value>)
    ensures var r := SortBy(key, ids);
      var d := |SortDefined(key, ids)|;
      StrOrdered(key, r[..d]) &&
      (forall i :: 0 <= i < d ==> !r[i].Undefined?) &&
      (forall i :: d <= i < |r| ==> r[i].Undefined?)
  {
    SortDefinedProps(key, ids);
    var r := SortBy(key, ids);
    var d := |SortDefined(key, ids)|;
    assert r[..d] == SortDefined(key, ids);
    forall i | 0 <= i < d ensures !r[i].Undefined? {
      assert r[i] in SortDefined(key, ids);
    }
  }

  /** The order is that of strings, not numbers: 10 sorts before 9. */
  lemma SortTenBeforeNine()
    ensures SortIds([Num(9), Num(10)]) == [Num(10), Num(9)]
  {
    var ids := [Num(9), Num(10)];
    assert NatToDecimal(10) == NatToDecimal(1) + ['0'];
    assert StrLess(ToStr(Num(10)), ToStr(Num(9)));
    assert ids[..1] == [Num(9)] && [Num(9)][..0] == [];
    assert SortDefined(ToStr, [Num(9)]) == [Num(9)];
    assert UndefinedsOf([Num(9)]) == [];
  }

  // ---------------------------------------------------------------------
  // Permutations of the same ids share one cache key.

  /** Two orderings of the same elements, with no two different elements
      sharing a key, are the same sequence. */
  lemma {:induction false} OrderedUnique(key: Value -> string, s: seq<Value>, t: seq<Value>)
    requires StrOrdered(key, s) && StrOrdered(key, t) && multiset(s) == multiset(t)
    requires forall x, y :: x in s && y in s && key(x) == key(y) ==> x == y
    ensures s == t
    decreases |s|
  {
    assert |s| == |multiset(s)| == |t|;
    if s != [] {
      OrderedHeadsAgree(key, s, t);
      var s', t' := s[1..], t[1..];
      assert multiset(s) == multiset{s[0]} + multiset(s') by { assert s == [s[0]] + s'; }
      assert multiset(t) == multiset{t[0]} + multiset(t') by { assert t == [t[0]] + t'; }
      forall x, y | x in s' && y in s' && key(x) == key(y) ensures x == y {
        assert x in s && y in s;
      }
      forall x ensures multiset(s')[x] == multiset(t')[x] {
        assert multiset(s)[x] == multiset(t)[x];
      }
      OrderedTail(key, s);
      OrderedTail(key, t);
      OrderedUnique(key, s', t');
      assert s == [s[0]] + s' && t == [t[0]] + t';
    }
  }

  lemma OrderedTail(key: Value -> string, s: seq<Value>)
    requires StrOrdered(key, s) && s != []
    ensures StrOrdered(key, s[1..])
  {
    var s' := s[1..];
    forall i, j | 0 <= i < j < |s'| ensures !StrLess(key(s'[j]), key(s'[i])) {
      assert s'[i] == s[i + 1] && s'[j] == s[j + 1];
    }
  }

  /** The first elements of two such orderings agree. */
  lemma OrderedHeadsAgree(key: Value -> string, s: seq<Value>, t: seq<Value>)
    requires StrOrdered(key, s) && StrOrdered(key, t) && multiset(s) == multiset(t)
    requires forall x, y :: x in s && y in s && key(x) == key(y) ==> x == y
    requires s != [] && t != []
    ensures s[0] == t[0]
  {
    assert t[0] in multiset(s) && s[0] in multiset(t);
    var i :| 0 <= i < |s| && s[i] == t[0];
    var j :| 0 <= j < |t| && t[j] == s[0];
    if i > 0 && j > 0 {
      var a, b := key(s[0]), key(t[0]);
      assert !StrLess(b, a) by { assert b == key(s[i]); }
      assert !StrLess(a, b) by { assert a == key(t[j]); }
      StrLessTotal(a, b);
      assert s[i] in s && s[0] in s;
    }
  }

  /** Two id lists that are permutations of each other sort to the same
      list, provided no two different ids share a key. */
  lemma SortByPermutationsAgree(key: Value -> string, a: seq<Value>, b: seq<Value>)
    requires multiset(a) == multiset(b)
    requires forall x, y :: x in a && y in a && key(x) == key(y) ==> x == y
    ensures SortBy(key, a) == SortBy(key, b)
  {
    var ua, ub := UndefinedsOf(a), UndefinedsOf(b);
    UndefinedsCount(a);
    UndefinedsCount(b);
    assert ua == ub by {
      assert forall i :: 0 <= i < |ua| ==> ua[i] == Undefined == ub[i];
    }
    SortDefinedProps(key, a);
    SortDefinedProps(key, b);
    var sa, sb := SortDefined(key, a), SortDefined(key, b);
    forall x ensures multiset(sa)[x] == multiset(sb)[x] {
      assert (multiset(sa) + multiset(ua))[x] == multiset(a)[x];
      assert (multiset(sb) + multiset(ub))[x] == multiset(b)[x];
    }
    forall x, y | x in sa && y in sa && key(x) == key(y) ensures x == y {
      assert x in multiset(sa) && y in multiset(sa);
      assert x in multiset(a) && y in multiset(a);
    }
    OrderedUnique(key, sa, sb);
  }

  lemma {:induction false} UndefinedsCount(ids: seq<Value>)
    ensures |UndefinedsOf(ids)| == multiset(ids)[Undefined]
    decreases |ids|
  {
    if ids != [] {
      var n := |ids| - 1;
      UndefinedsCount(ids[..n]);
      assert ids == ids[..n] + [ids[n]];
    }
  }

  // ---------------------------------------------------------------------
  // The sort is stable: ids with the same string form keep their order.

  /** The ids of `s` other than `undefined` whose key is `w`, in order. */
  function WithKey(key: Value -> string, s: seq<Value>, w: string): (r: seq<Value>)
    ensures forall i :: 0 <= i < |r| ==> !r[i].Undefined? && key(r[i]) == w
    ensures |r| <= |s|
    decreases |s|
  {
    if s == [] then []
    else
      var n := |s| - 1;
      var r := WithKey(key, s[..n], w);
      if !s[n].Undefined? && key(s[n]) == w then r + [s[n]] else r
  }

  /** Selecting distributes over concatenation. */
  lemma {:induction false} WithKeyAppend(key: Value -> string, a: seq<Value>, b: seq<Value>, w: string)
    ensures WithKey(key, a + b, w) == WithKey(key, a, w) + WithKey(key, b, w)
    decreases |b|
  {
    if b != [] {
      var n := |b| - 1;
      WithKeyAppend(key, a, b[..n], w);
      assert (a + b)[..|a| + n] == a + b[..n];
    } else {
      assert a + b == a;
    }
  }

  /** Nothing is selected from a list in which no defined id has key `w`. */
  lemma {:induction false} WithKeyNone(key: Value -> string, s: seq<Value>, w: string)
    requires forall i :: 0 <= i < |s| && !s[i].Undefined? ==> key(s[i]) != w
    ensures WithKey(key, s, w) == []
    decreases |s|
  {
    if s != [] {
      WithKeyNone(key, s[..|s| - 1], w);
    }
  }

  /** Inserting into an ordered list puts `x` after every id with its key. */
  lemma {:induction false} WithKeyInsert(key: Value -> string, x: Value, s: seq<Value>, w: string)
    requires StrOrdered(key, s)
    ensures WithKey(key, InsertId(key, x, s), w) == WithKey(key, s, w) + WithKey(key, [x], w)
    decreases |s|
  {
    if s == [] {
      assert InsertId(key, x, s) == [x];
    } else if StrLess(key(x), key(s[0])) {
      assert InsertId(key, x, s) == [x] + s;
      WithKeyBeforeGreater(key, x, s, w);
    } else {
      assert InsertId(key, x, s) == [s[0]] + InsertId(key, x, s[1..]);
      OrderedTail(key, s);
      WithKeyInsert(key, x, s[1..], w);
      WithKeyAppend(key, [s[0]], InsertId(key, x, s[1..]), w);
      WithKeyAppend(key, [s[0]], s[1..], w);
      assert [s[0]] + s[1..] == s;
    }
  }

  /** `x` placed before an ordered list whose first key exceeds its own
      comes after every id with its key, as there are none. */
  lemma WithKeyBeforeGreater(key: Value -> string, x: Value, s: seq<Value>, w: string)
    requires StrOrdered(key, s) && s != [] && StrLess(key(x), key(s[0]))
    ensures WithKey(key, [x] + s, w) == WithKey(key, s, w) + WithKey(key, [x], w)
  {
    WithKeyAppend(key, [x], s, w);
    if key(x) == w {
      forall i | 0 <= i < |s| ensures key(s[i]) != w {
        if i == 0 {
          StrLessIrreflexive(w);
        } else {
          assert !StrLess(key(s[i]), key(s[0]));
        }
      }
      WithKeyNone(key, s, w);
    } else {
      assert [x][..0] == [];
      assert WithKey(key, [x], w) == [];
    }
  }

  lemma {:induction false} SortDefinedStable(key: Value -> string, ids: seq<Value>, w: string)
    ensures WithKey(key, SortDefined(key, ids), w) == WithKey(key, ids, w)
    decreases |ids|
  {
    if ids != [] {
      var n := |ids| - 1;
      SortDefinedStable(key, ids[..n], w);
      if !ids[n].Undefined? {
        SortDefinedOrdered(key, ids[..n]);
        WithKeyInsert(key, ids[n], SortDefined(key, ids[..n]), w);
        assert WithKey(key, [ids[n]], w) == (if key(ids[n]) == w then [ids[n]] else []) by {
          assert [ids[n]][..0] == [];
        }
      }
    }
  }

  /** For every key, the defined ids with that key appear in the sorted
      list in the same order as in the input. */
  lemma SortByStable(key: Value -> string, ids: seq<Value>, w: string)
    ensures WithKey(key, SortBy(key, ids), w) == WithKey(key, ids, w)
  {
    SortDefinedStable(key, ids, w);
    WithKeyAppend(key, SortDefined(key, ids), UndefinedsOf(ids), w);
    WithKeyNone(key, UndefinedsOf(ids), w);
  }

  /** `[...ids].sort()` keeps the input order of ids with the same string
      form. */
  lemma SortIdsStable(ids: seq<Value>, w: string)
    ensures WithKey(ToStr, SortIds(ids), w) == WithKey(ToStr, ids, w)
  {
    SortByStable(ToStr, ids, w);
  }

  /** Without that proviso they need not: `1` and `"1"` keep their input
      order, so the two orders give two cache keys. */
  lemma SameStringFormsKeepInputOrder()
    ensures SortIds([Num(1), Str("1")]) == [Num(1), Str("1")]
    ensures SortIds([Str("1"), Num(1)]) == [Str("1"), Num(1)]
  {
    assert ToStr(Num(1)) == "1" == ToStr(Str("1"));
    StrLessIrreflexive("1");
    assert [Num(1), Str("1")][..1] == [Num(1)] && [Num(1)][..0] == [];
    assert [Str("1"), Num(1)][..1] == [Str("1")] && [Str("1")][..0] == [];
    assert SortDefined(ToStr, [Num(1)]) == [Num(1)];
    assert SortDefined(ToStr, [Str("1")]) == [Str("1")];
    assert UndefinedsOf([Num(1)]) == [] && UndefinedsOf([Str("1")]) == [];
  }
}

=== FILE: json.dfy ===
/** The JSON-like values the loader passes around: ids, params, queries, backend
    records and results, together with the JavaScript coercions the source
    relies on (truthiness, `String(x)`, the default string sort). */
module Json {

  datatype Option<+T> = None | Some(value: T)

  /** A JavaScript value as far as this library looks at it. An object keeps
      its properties in insertion order; `Fn` is any function value (its
      source text is what `String(fn)` returns). Numbers are integers. */
  datatype Value =
    | Undefined
    | Null
    | Bool(b: bool)
    | Num(n: int)
    | Str(s: string)
    | Arr(items: seq<Value>)
    | Obj(fields: seq<(string, Value)>)
    | Fn(src: string)

  /** JavaScript truthiness (`if (x)`, `x || y`). */
  predicate Truthy(v: Value)
  {
    match v
    case Undefined => false
    case Null => false
    case Bool(b) => b
    case Num(n) => n != 0
    case Str(s) => s != ""
    case _ => true
  }

  /** The property names of an object, in insertion order (`Object.keys`). */
  function KeysOf(f: seq<(string, Value)>): (ks: seq<string>)
    ensures |ks| == |f|
    ensures forall i :: 0 <= i < |f| ==> ks[i] == f[i].0
  {
    if f == [] then [] else [f[0].0] + KeysOf(f[1..])
  }

  /** Index of property `k` in `f`, or -1 when `f` has no such property. */
  function IndexOf(f: seq<(string, Value)>, k: string): (i: int)
    ensures -1 <= i < |f|
    ensures 0 <= i ==> f[i].0 == k && forall j :: 0 <= j < i ==> f[j].0 != k
    ensures i < 0 ==> forall j :: 0 <= j < |f| ==> f[j].0 != k
  {
    if f == [] then -1
    else if f[0].0 == k then 0
    else
      var j := IndexOf(f[1..], k);
      if j < 0 then -1 else j + 1
  }

  /** Property read `obj[k]`: the own property, or `undefined` when absent. */
  function Lookup(f: seq<(string, Value)>, k: string): Value
  {
    var i := IndexOf(f, k);
    if i < 0 then Undefined else f[i].1
  }

  /** `x[k]` for any value other than `null` and `undefined`: an own
      property of a plain object; an element of an array, or a
      one-character string of a string, at a canonical decimal index below
      the length; the `length` of an array or a string. Everything else,
      inherited members included, reads as `undefined`. */
  function Get(v: Value, k: string): Value
  {
    match v
    case Obj(fields) => Lookup(fields, k)
    case Arr(items) =>
      if k == "length" then Num(|items|)
      else
        var i := ArrayIndex(k, |items|);
        if i.Some? then items[i.value] else Undefined
    case Str(s) =>
      if k == "length" then Num(|s|)
      else
        var i := ArrayIndex(k, |s|);
        if i.Some? then Str([s[i.value]]) else Undefined
    case _ => Undefined
  }

  /** The index below `n` whose canonical decimal form is the property name
      `k`, if there is one. */
  function ArrayIndex(k: string, n: nat): (r: Option<nat>)
    ensures r.Some? ==> r.value < n && NatToDecimal(r.value) == k
    ensures r.None? ==> forall i: nat :: i < n ==> NatToDecimal(i) != k
    decreases n
  {
    if n == 0 then None
    else if NatToDecimal(n - 1) == k then Some(n - 1)
    else ArrayIndex(k, n - 1)
  }

  /** Reading the decimal name of an index below the length gives that
      element. */
  lemma GetIndex(items: seq<Value>, i: nat)
    requires i < |items|
    ensures Get(Arr(items), NatToDecimal(i)) == items[i]
  {
    var k := NatToDecimal(i);
    assert k != "length" by { assert '0' <= k[0] <= '9'; }
    var j := ArrayIndex(k, |items|);
    assert j.Some?;
    NatToDecimalInjective(j.value, i);
  }

  /** A name that does not start with a digit and is not `length` reads
      as `undefined` from an array or a string. */
  lemma GetNonIndex(v: Value, k: string)
    requires v.Arr? || v.Str?
    requires k != "length" && (k == [] || !('0' <= k[0] <= '9'))
    ensures Get(v, k) == Undefined
  {
  }

  /** Different numbers have different decimal forms. */
  lemma {:induction false} NatToDecimalInjective(a: nat, b: nat)
    requires NatToDecimal(a) == NatToDecimal(b)
    ensures a == b
    decreases a
  {
    if a < 10 && b < 10 {
      DigitCharInjective(a, b);
    } else if a >= 10 && b >= 10 {
      var x, y := NatToDecimal(a / 10), NatToDecimal(b / 10);
      var c, d := DigitChar(a % 10), DigitChar(b % 10);
      assert x + [c] == y + [d];
      assert |x| == |y|;
      assert x == (x + [c])[..|x|] && y == (y + [d])[..|y|];
      assert c == (x + [c])[|x|] && d == (y + [d])[|y|];
      DigitCharInjective(a % 10, b % 10);
      NatToDecimalInjective(a / 10, b / 10);
    }
  }

  lemma DigitCharInjective(a: nat, b: nat)
    requires a < 10 && b < 10 && DigitChar(a) == DigitChar(b)
    ensures a == b
  {
  }

  /** The elements of a sequence, as a set. */
  function Elems<T>(s: seq<T>): set<T>
  {
    set x | x in s
  }

  lemma ElemsConcat<T>(s: seq<T>, t: seq<T>)
    ensures Elems(s + t) == Elems(s) + Elems(t)
  {
  }

  lemma ElemsEmpty<T>(s: seq<T>)
    ensures Elems(s) == {} ==> s == []
  {
    if s != [] { assert s[0] in Elems(s); }
  }

  /** No sequence has a repeated element. */
  predicate Distinct<T(==)>(s: seq<T>)
  {
    forall i, j :: 0 <= i < j < |s| ==> s[i] != s[j]
  }

  /** Every object reachable from `v` has pairwise distinct property names,
      as every JavaScript object has. */
  predicate WellFormed(v: Value)
    decreases v, 1, 0
  {
    match v
    case Arr(items) => ItemsWellFormed(items, 0)
    case Obj(f) => Distinct(KeysOf(f)) && FieldsWellFormed(f, 0)
    case _ => true
  }

  predicate ItemsWellFormed(items: seq<Value>, i: nat)
    requires i <= |items|
    decreases Arr(items), 0, |items| - i
  {
    i == |items| || (assert items[i] in items; WellFormed(items[i]) && ItemsWellFormed(items, i + 1))
  }

  predicate FieldsWellFormed(f: seq<(string, Value)>, i: nat)
    requires i <= |f|
    decreases Obj(f), 0, |f| - i
  {
    i == |f| || (assert f[i] in f; WellFormed(f[i].1) && FieldsWellFormed(f, i + 1))
  }

  /** Some value reachable from `v` (through array elements or property
      values, including `undefined`-valued ones) is a function. */
  predicate ContainsFn(v: Value)
    decreases v, 1, 0
  {
    match v
    case Fn(_) => true
    case Arr(items) => ItemsContainFn(items, 0)
    case Obj(f) => FieldsContainFn(f, 0)
    case _ => false
  }

  predicate ItemsContainFn(items: seq<Value>, i: nat)
    requires i <= |items|
    decreases Arr(items), 0, |items| - i
  {
    i < |items| && (assert items[i] in items; ContainsFn(items[i]) || ItemsContainFn(items, i + 1))
  }

  predicate FieldsContainFn(f: seq<(string, Value)>, i: nat)
    requires i <= |f|
    decreases Obj(f), 0, |f| - i
  {
    i < |f| && (assert f[i] in f; ContainsFn(f[i].1) || FieldsContainFn(f, i + 1))
  }

  // ---------------------------------------------------------------------
  // String(x)

  function DigitChar(d: nat): char
    requires d < 10
  {
    "0123456789"[d]
  }

  /** Decimal digits of a natural number, most significant first. */
  function NatToDecimal(n: nat): (s: string)
    ensures |s| >= 1
    ensures forall i :: 0 <= i < |s| ==> '0' <= s[i] <= '9'
  {
    if n < 10 then [DigitChar(n)] else NatToDecimal(n / 10) + [DigitChar(n % 10)]
  }

  /** `String(n)` for an integer number. */
  function IntToDecimal(n: int): string
  {
    if n < 0 then "-" + NatToDecimal(-n) else NatToDecimal(n)
  }

  /** `String(v)`: the coercion used for property names and key comparison.
      Arrays join their elements' strings with ',' (null and undefined
      elements give the empty string); plain objects give "[object Object]". */
  function ToStr(v: Value): string
    decreases v, 1, 0
  {
    match v
    case Undefined => "undefined"
    case Null => "null"
    case Bool(b) => if b then "true" else "false"
    case Num(n) => IntToDecimal(n)
    case Str(s) => s
    case Arr(items) => JoinStr(items, 0)
    case Obj(_) => "[object Object]"
    case Fn(src) => src
  }

  /** The `join(',')` of `items[i..]`. */
  function JoinStr(items: seq<Value>, i: nat): string
    requires i <= |items|
    decreases Arr(items), 0, |items| - i
  {
    if i == |items| then ""
    else
      assert items[i] in items;
      var s := if items[i].Null? || items[i].Undefined? then "" else ToStr(items[i]);
      if i + 1 == |items| then s else s + "," + JoinStr(items, i + 1)
  }

  // ---------------------------------------------------------------------
  // The order of the default `Array.prototype.sort`: string comparison.

  /** `a < b` on strings: lexicographic by character, a proper prefix first. */
  predicate StrLess(a: string, b: string)
  {
    if a == [] then b != []
    else if b == [] then false
    else if a[0] == b[0] then StrLess(a[1..], b[1..])
    else a[0] < b[0]
  }

  lemma {:induction false} StrLessIrreflexive(a: string)
    ensures !StrLess(a, a)
  {
    if a != [] { StrLessIrreflexive(a[1..]); }
  }

  lemma {:induction false} StrLessTransitive(a: string, b: string, c: string)
    requires StrLess(a, b) && StrLess(b, c)
    ensures StrLess(a, c)
  {
    if a != [] && b != [] && c != [] && a[0] == b[0] && b[0] == c[0] {
      StrLessTransitive(a[1..], b[1..], c[1..]);
    }
  }

  lemma {:induction false} StrLessTotal(a: string, b: string)
    ensures a == b || StrLess(a, b) || StrLess(b, a)
  {
    if a != [] && b != [] && a[0] == b[0] {
      StrLessTotal(a[1..], b[1..]);
      if a[1..] == b[1..] {
        assert a == [a[0]] + a[1..] && b == [b[0]] + b[1..];
      }
    }
  }

  lemma StrLessAsymmetric(a: string, b: string)
    requires StrLess(a, b)
    ensures !StrLess(b, a)
  {
    if StrLess(b, a) {
      StrLessTransitive(a, b, a);
      StrLessIrreflexive(a);
    }
  }

  /** Strictly increasing in the string order. */
  predicate StrictlySorted(t: seq<string>)
  {
    forall i, j :: 0 <= i < j < |t| ==> StrLess(t[i], t[j])
  }

  /** Inserts `x` into a sorted list, before the first element not less than it. */
  function InsertKey(x: string, t: seq<string>): seq<string>
  {
    if t == [] then [x]
    else if StrLess(t[0], x) then [t[0]] + InsertKey(x, t[1..])
    else [x] + t
  }

  /** `keys.sort()` for a list of property names. */
  function SortKeys(ks: seq<string>): seq<string>
  {
    if ks == [] then [] else InsertKey(ks[0], SortKeys(ks[1..]))
  }

  lemma {:induction false} InsertKeySorted(x: string, t: seq<string>)
    requires StrictlySorted(t) && x !in t
    ensures StrictlySorted(InsertKey(x, t))
    ensures Elems(InsertKey(x, t)) == Elems(t + [x])
  {
    if t != [] {
      if StrLess(t[0], x) {
        InsertKeySorted(x, t[1..]);
        var r := InsertKey(x, t[1..]);
        assert Elems(r) == Elems(t[1..] + [x]);
        forall j | 0 < j < |r| + 1 ensures StrLess(t[0], ([t[0]] + r)[j]) {
          var y := r[j - 1];
          assert y in Elems(t[1..] + [x]);
          if y != x {
            var m :| 0 <= m < |t[1..]| && t[1..][m] == y;
            assert t[m + 1] == y;
          }
        }
        assert t == [t[0]] + t[1..];
        ElemsConcat([t[0]], r);
        ElemsConcat(t[1..], [x]);
        ElemsConcat([t[0]], t[1..]);
        ElemsConcat(t, [x]);
      } else {
        StrLessTotal(t[0], x);
        forall j | 0 < j < |t| + 1 ensures StrLess(x, ([x] + t)[j]) {
          if j > 1 { StrLessTransitive(x, t[0], t[j - 1]); }
        }
        ElemsConcat([x], t);
        ElemsConcat(t, [x]);
      }
    }
  }

  /** Sorting distinct property names gives them in strictly increasing
      order, and exactly the same names. */
  lemma {:induction false} SortKeysSorted(ks: seq<string>)
    requires Distinct(ks)
    ensures StrictlySorted(SortKeys(ks))
    ensures Elems(SortKeys(ks)) == Elems(ks)
  {
    if ks != [] {
      SortKeysSorted(ks[1..]);
      assert ks[0] !in ks[1..] by {
        forall j | 0 <= j < |ks[1..]| ensures ks[1..][j] != ks[0] { assert ks[j + 1] != ks[0]; }
      }
      var t := SortKeys(ks[1..]);
      assert ks[0] !in Elems(ks[1..]);
      assert ks[0] !in t;
      InsertKeySorted(ks[0], t);
      assert ks == [ks[0]] + ks[1..];
      assert Elems(t + [ks[0]]) == Elems(t) + {ks[0]};
      assert Elems(ks) == {ks[0]} + Elems(ks[1..]);
    }
  }

  /** Two strictly sorted lists of the same names are the same list. */
  lemma {:induction false} StrictlySortedUnique(a: seq<string>, b: seq<string>)
    requires StrictlySorted(a) && StrictlySorted(b)
    requires Elems(a) == Elems(b)
    ensures a == b
  {
    ElemsEmpty(a);
    ElemsEmpty(b);
    if a != [] {
      assert a[0] in Elems(b);
      assert b != [];
      assert b[0] in Elems(a);
      if a[0] != b[0] {
        var i :| 0 <= i < |a| && a[i] == b[0];
        var j :| 0 <= j < |b| && b[j] == a[0];
        assert StrLess(a[0], b[0]);
        assert StrLess(b[0], a[0]);
        StrLessAsymmetric(a[0], b[0]);
      }
      assert a[0] !in a[1..] by {
        forall j | 1 <= j < |a| ensures a[j] != a[0] { StrLessIrreflexive(a[0]); }
      }
      assert b[0] !in b[1..] by {
        forall j | 1 <= j < |b| ensures b[j] != b[0] { StrLessIrreflexive(b[0]); }
      }
      assert a == [a[0]] + a[1..] && b == [b[0]] + b[1..];
      assert Elems(a[1..]) == Elems(a) - {a[0]};
      assert Elems(b[1..]) == Elems(b) - {b[0]};
      StrictlySortedUnique(a[1..], b[1..]);
    }
  }
}

=== FILE: objects.dfy ===
/** Plain-object operations: the spread `{...a, ...b}` the loaders use to
    combine options, and the `_` helpers `assign`, `omit`, `pick` and `has`
    of src/utils.js. Objects are property lists in insertion order; writing
    an existing property keeps its position, as JavaScript does. */
module Objects {
  import opened Json
  import opened Stringify

  type Fields = seq<(string, Value)>

  /** Reading a property after writing one. */
  lemma LookupPut(f: Fields, k: string, v: Value, k': string)
    ensures Lookup(Put(f, k, v), k') == if k == k' then v else Lookup(f, k')
  {
    var i := IndexOf(f, k);
    var g := Put(f, k, v);
    if i < 0 {
      assert forall j :: 0 <= j < |f| ==> g[j] == f[j];
      if k != k' {
        var j := IndexOf(f, k');
        if 0 <= j {
          assert IndexOf(g, k') == j by { IndexOfPrefixKeys(f, g, k'); }
        } else {
          assert IndexOf(g, k') < 0;
        }
      } else {
        assert g[|f|] == (k, v);
      }
    } else {
      IndexOfPrefixKeys(f, g, k');
    }
  }

  /** Two property lists with the same names at every position find a name
      at the same position. */
  lemma IndexOfPrefixKeys(f: Fields, g: Fields, k: string)
    requires |f| <= |g|
    requires forall j :: 0 <= j < |f| ==> g[j].0 == f[j].0
    requires |f| < |g| ==> g[|f|].0 != k || IndexOf(f, k) >= 0
    requires |g| <= |f| + 1
    ensures IndexOf(f, k) >= 0 ==> IndexOf(g, k) == IndexOf(f, k)
    ensures IndexOf(f, k) < 0 && |f| == |g| ==> IndexOf(g, k) < 0
  {
    var i := IndexOf(f, k);
    if i >= 0 {
      assert g[i].0 == k;
      assert forall j :: 0 <= j < i ==> g[j].0 == f[j].0 != k;
    } else if |f| == |g| {
      forall j | 0 <= j < |g| ensures g[j].0 != k { assert f[j].0 != k; }
    }
  }

  /** The names of `Put(f, k, v)`: those of `f`, then `k` if it is new. */
  lemma KeysOfPut(f: Fields, k: string, v: Value)
    ensures KeysOf(Put(f, k, v)) == if IndexOf(f, k) < 0 then KeysOf(f) + [k] else KeysOf(f)
  {
    var g := Put(f, k, v);
    if IndexOf(f, k) < 0 {
      assert KeysOf(g) == KeysOf(f) + [k];
    } else {
      assert KeysOf(g) == KeysOf(f);
    }
  }

  // ---------------------------------------------------------------------
  // Spread and `_.assign`

  /** `{...t, ...s}`: every property of `s` written onto a copy of `t`,
      including those whose value is `undefined`. */
  function Spread(t: Fields, s: Fields): Fields
    decreases |s|
  {
    if s == [] then t
    else
      var n := |s| - 1;
      Put(Spread(t, s[..n]), s[n].0, s[n].1)
  }

  /** `_.assign(target, source)`: like the spread, except that a property of
      `source` whose value is `undefined` is skipped. */
  function AssignOf(t: Fields, s: Fields): Fields
    decreases |s|
  {
    if s == [] then t
    else
      var n := |s| - 1;
      var r := AssignOf(t, s[..n]);
      if s[n].1.Undefined? then r else Put(r, s[n].0, s[n].1)
  }

  /** The last property of `s` named `k`, or `None`. */
  function LastOf(s: Fields, k: string): Option<Value>
    decreases |s|
  {
    if s == [] then None
    else if s[|s| - 1].0 == k then Some(s[|s| - 1].1)
    else LastOf(s[..|s| - 1], k)
  }

  /** After a spread a property has the value `s` gives it, or else the one
      it had in `t`. */
  lemma {:induction false} LookupSpread(t: Fields, s: Fields, k: string)
    ensures Lookup(Spread(t, s), k) == if LastOf(s, k).Some? then LastOf(s, k).value else Lookup(t, k)
    decreases |s|
  {
    if s != [] {
      var n := |s| - 1;
      LookupSpread(t, s[..n], k);
      LookupPut(Spread(t, s[..n]), s[n].0, s[n].1, k);
    }
  }

  /** The last value other than `undefined` that `s` gives the name `k`. */
  function LastDefinedOf(s: Fields, k: string): Option<Value>
    decreases |s|
  {
    if s == [] then None
    else if s[|s| - 1].0 == k && !s[|s| - 1].1.Undefined? then Some(s[|s| - 1].1)
    else LastDefinedOf(s[..|s| - 1], k)
  }

  /** After `_.assign` a property has the value `source` gives it, when that
      is not `undefined`, or else the one it had in `target`. */
  lemma {:induction false} LookupAssign(t: Fields, s: Fields, k: string)
    ensures Lookup(AssignOf(t, s), k) ==
      if LastDefinedOf(s, k).Some? then LastDefinedOf(s, k).value else Lookup(t, k)
    decreases |s|
  {
    if s != [] {
      var n := |s| - 1;
      LookupAssign(t, s[..n], k);
      if !s[n].1.Undefined? {
        LookupPut(AssignOf(t, s[..n]), s[n].0, s[n].1, k);
      }
    }
  }

  /** `_.assign` is the spread of the properties that are not `undefined`. */
  lemma {:induction false} AssignIsSpreadOfDefined(t: Fields, s: Fields)
    ensures AssignOf(t, s) == Spread(t, Defined(s))
    decreases |s|
  {
    if s != [] {
      var n := |s| - 1;
      AssignIsSpreadOfDefined(t, s[..n]);
      if !s[n].1.Undefined? {
        var d := Defined(s[..n]) + [s[n]];
        assert d[..|d| - 1] == Defined(s[..n]);
      }
    }
  }

  /** The properties of `s` whose value is not `undefined`. */
  function Defined(s: Fields): (d: Fields)
    ensures forall p :: p in d ==> p in s && !p.1.Undefined?
    decreases |s|
  {
    if s == [] then []
    else
      var n := |s| - 1;
      if s[n].1.Undefined? then Defined(s[..n]) else Defined(s[..n]) + [s[n]]
  }

  /** `_.assign(target, source)`: a copy of `target` overlaid with every
      property of `source` that is not `undefined`. */
  method Assign(target: Fields, source: Fields) returns (result: Fields)
    ensures result == AssignOf(target, source)
  {
    result := target;
    var keys := KeysOf(source);
    var index := 0;
    while index < |keys|
      invariant 0 <= index <= |keys|
      invariant result == AssignOf(target, source[..index])
    {
      var key := keys[index];
      var value := source[index].1;
      assert source[..index + 1][..index] == source[..index];
      if !value.Undefined? {
        result := Put(result, key, value);
      }
      index := index + 1;
    }
    assert source[..index] == source;
  }

  // ---------------------------------------------------------------------
  // `_.omit`, `_.pick`, `_.has`

  /** `delete o[k]`: the property list without the name `k`. */
  function Delete(f: Fields, k: string): (r: Fields)
    ensures forall j :: 0 <= j < |r| ==> r[j].0 != k
    ensures forall p :: p in r ==> p in f
  {
    if f == [] then []
    else if f[0].0 == k then Delete(f[1..], k)
    else [f[0]] + Delete(f[1..], k)
  }

  lemma {:induction false} LookupDelete(f: Fields, k: string, k': string)
    ensures Lookup(Delete(f, k), k') == if k == k' then Undefined else Lookup(f, k')
  {
    if f != [] {
      LookupDelete(f[1..], k, k');
      if f[0].0 != k {
        assert ([f[0]] + Delete(f[1..], k))[1..] == Delete(f[1..], k);
      }
    }
  }

  /** The properties of `f` whose names are not listed, in their order,
      whatever their values. */
  function Without(f: Fields, keys: seq<string>): (r: Fields)
    ensures forall p :: p in r <==> p in f && p.0 !in keys
    ensures |r| <= |f|
  {
    if f == [] then []
    else if f[0].0 in keys then Without(f[1..], keys)
    else
      assert forall p :: p in f <==> p == f[0] || p in f[1..] by { assert f == [f[0]] + f[1..]; }
      [f[0]] + Without(f[1..], keys)
  }

  /** Listing no names removes nothing. */
  lemma {:induction false} WithoutNone(f: Fields)
    ensures Without(f, []) == f
  {
    if f != [] {
      WithoutNone(f[1..]);
      assert f == [f[0]] + f[1..];
    }
  }

  /** Deleting one more name is removing one more listed name. */
  lemma {:induction false} DeleteWithout(f: Fields, keys: seq<string>, k: string)
    ensures Delete(Without(f, keys), k) == Without(f, keys + [k])
  {
    if f != [] {
      DeleteWithout(f[1..], keys, k);
      var w := Without(f[1..], keys);
      if f[0].0 !in keys {
        assert ([f[0]] + w)[1..] == w;
      }
    }
  }

  /** `_.omit(source, keys)`: a copy of `source` without the listed names. */
  method Omit(source: Fields, keys: seq<string>) returns (result: Fields)
    ensures result == Without(source, keys)
    ensures forall k :: Lookup(result, k) == if k in keys then Undefined else Lookup(source, k)
    ensures forall p :: p in result <==> p in source && p.0 !in keys
  {
    result := source;
    WithoutNone(source);
    assert keys[..0] == [];
    var index := 0;
    while index < |keys|
      invariant 0 <= index <= |keys|
      invariant result == Without(source, keys[..index])
      invariant forall k :: Lookup(result, k) == if k in keys[..index] then Undefined else Lookup(source, k)
    {
      var key := keys[index];
      forall k ensures Lookup(Delete(result, key), k) == if key == k then Undefined else Lookup(result, k) {
        LookupDelete(result, key, k);
      }
      DeleteWithout(source, keys[..index], key);
      result := Delete(result, key);
      assert keys[..index + 1] == keys[..index] + [key];
      index := index + 1;
    }
    assert keys[..index] == keys;
  }

  /** `_.pick(source, keys)`: the listed names whose value in `source` is
      defined, in the order listed. */
  function PickOf(source: Fields, keys: seq<string>): Fields
    decreases |keys|
  {
    if keys == [] then []
    else
      var n := |keys| - 1;
      var r := PickOf(source, keys[..n]);
      var v := Lookup(source, keys[n]);
      if v.Undefined? then r else Put(r, keys[n], v)
  }

  /** A picked property has its value from `source`; every other name is
      absent. The result owns exactly the listed names whose value in
      `source` is not `undefined`. */
  lemma {:induction false} LookupPick(source: Fields, keys: seq<string>, k: string)
    ensures Lookup(PickOf(source, keys), k) == if k in keys then Lookup(source, k) else Undefined
    ensures IndexOf(PickOf(source, keys), k) >= 0 <==> k in keys && !Lookup(source, k).Undefined?
    decreases |keys|
  {
    if keys != [] {
      var n := |keys| - 1;
      LookupPick(source, keys[..n], k);
      var r := PickOf(source, keys[..n]);
      var v := Lookup(source, keys[n]);
      if !v.Undefined? {
        LookupPut(r, keys[n], v, k);
        IndexOfPut(r, keys[n], v, k);
      }
      assert keys == keys[..n] + [keys[n]];
    }
  }

  /** After a write, a name is present when it was before or was written. */
  lemma IndexOfPut(f: Fields, k: string, v: Value, k': string)
    ensures IndexOf(Put(f, k, v), k') >= 0 <==> IndexOf(f, k') >= 0 || k' == k
  {
    var g := Put(f, k, v);
    KeysOfPut(f, k, v);
    InKeysOf(f, k');
    InKeysOf(g, k');
  }

  /** A name is present exactly when it is among the names. */
  lemma InKeysOf(f: Fields, k: string)
    ensures IndexOf(f, k) >= 0 <==> k in KeysOf(f)
  {
    var ks := KeysOf(f);
    if k in ks {
      var j :| 0 <= j < |ks| && ks[j] == k;
      assert f[j].0 == k;
    }
    if IndexOf(f, k) >= 0 {
      assert ks[IndexOf(f, k)] == k;
    }
  }

  /** `_.has(source, keys)`: whether any listed name is an own property. */
  method Has(source: Fields, keys: seq<string>) returns (b: bool)
    ensures b <==> exists k :: k in keys && IndexOf(source, k) >= 0
  {
    var index := 0;
    while index < |keys|
      invariant 0 <= index <= |keys|
      invariant forall j :: 0 <= j < index ==> IndexOf(source, keys[j]) < 0
    {
      if IndexOf(source, keys[index]) >= 0 {
        assert keys[index] in keys;
        return true;
      }
      index := index + 1;
    }
    return false;
  }
}

=== FILE: service_loader.dfy ===
/** The `ServiceLoader` of src/serviceLoader.ts (`Ts`) and of the older
    src/serviceLoader.js (`Js`): a cache of results keyed by the stable text
    of each request, in front of one DataLoader per batch shape.

    The backend service is a parameter: the set of methods it has and the
    answer it gives to each call (`None` when the call rejects). DataLoader
    itself is abstract: `load(id)` runs the batch function on `[id]`,
    `loadMany(ids)` on `ids`, and a batch error rejects the whole call; a
    `null` or `undefined` id makes `load` throw (see `Dispatch`). */
module ServiceLoaders {
  import opened Json
  import opened Stringify
  import opened Objects
  import opened Utils
  import opened Demux
  import opened IdSort
  import opened CacheMaps

  datatype Dialect = Ts | Js

  /** One call made to the backend: the method name and its arguments. */
  datatype Request = Request(name: string, args: seq<Value>)

  /** The backend service: its methods, its `options` and its answers. */
  datatype Service = Service(methods: set<string>, options: Value, respond: Request -> Option<Value>)

  /** What `createDataLoader` was given; its batch function closes over it. */
  datatype BatchConfig = BatchConfig(key: Value, multi: Value, loadMethod: Value, params: Value)

  /** Everything one `exec` call does: the settled result (`None`: the
      returned promise rejects), the backend calls made in order, the loader
      registered under its key, and the cache entry written. */
  datatype Outcome = Outcome(
    result: Option<Value>,
    requests: seq<Request>,
    loader: Option<(JsonText, BatchConfig)>,
    write: Option<(JsonText, Value)>)

  const Rejected: Outcome := Outcome(None, [], None, None)

  /** A map after an optional write. */
  function Written<K, V>(m: map<K, V>, w: Option<(K, V)>): (r: map<K, V>)
    ensures w.None? ==> r == m
    ensures w.Some? ==> w.value.0 in r && r[w.value.0] == w.value.1
    ensures forall k :: k in m && (w.None? || k != w.value.0) ==> k in r && r[k] == m[k]
  {
    if w.Some? then m[w.value.0 := w.value.1] else m
  }

  // ---------------------------------------------------------------------
  // Construction

  /** `options.key` as the constructor sets it: in TS the service's
      `options.id` when that is truthy and `'id'` otherwise; in JS
      `service.options.id`, which throws when `options` is missing. */
  function PrimaryKey(d: Dialect, serviceOptions: Value): (r: Option<Value>)
    ensures d == Ts ==> r.Some? && Truthy(r.value)
    ensures d == Ts && Truthy(Get(serviceOptions, "id")) ==> r == Some(Get(serviceOptions, "id"))
    ensures d == Js ==> (r.None? <==> Nullish(serviceOptions))
    ensures d == Js && r.Some? ==> r.value == Get(serviceOptions, "id")
  {
    if d == Ts then
      var id := if Truthy(serviceOptions) then Get(serviceOptions, "id") else serviceOptions;
      Some(if Truthy(id) then id else Str("id"))
    else if Nullish(serviceOptions) then None
    else Some(Get(serviceOptions, "id"))
  }

  // ---------------------------------------------------------------------
  // Keys

  /** The options an `exec` call works with: the defaults, overlaid with
      every option the caller passed (an explicit `undefined` included). */
  function ExecOptions(d: Dialect, key: Value, options: Fields): Fields
  {
    Spread([("id", Null), ("key", key), ("params", if d == Ts then Undefined else Null),
            ("multi", Bool(false)), ("method", Str("load"))], options)
  }

  /** The object `stringifyKey` canonicalises: the options with the service
      name added and the params replaced by their cache-relevant part. */
  function KeyObject(serviceName: string, options: Fields, cacheParamsFn: Value -> Value): Fields
  {
    Put(Put(options, "serviceName", Str(serviceName)), "params", cacheParamsFn(Lookup(options, "params")))
  }

  /** `stringifyKey(options, cacheParamsFn)`; `None` when it throws. */
  function KeyText(serviceName: string, options: Fields, cacheParamsFn: Value -> Value): Option<JsonText>
  {
    match StableStringify(Obj(KeyObject(serviceName, options, cacheParamsFn)))
    case Emitted(t) => Some(t)
    case _ => None
  }

  /** The options the loader key is derived from: everything but the id. */
  function LoaderFields(o: Fields): Fields
  {
    [("key", Lookup(o, "key")), ("multi", Lookup(o, "multi")),
     ("method", Lookup(o, "method")), ("params", Lookup(o, "params"))]
  }

  /** The four methods that go straight to the backend. */
  predicate IsPlain(m: Value)
  {
    m == Str("get") || m == Str("_get") || m == Str("find") || m == Str("_find")
  }

  /** The backend method a batch calls. */
  function FindMethod(m: Value): string
  {
    if m == Str("_load") then "_find" else "find"
  }

  /** `Array.isArray(id) ? [...id].sort() : id`. */
  function SortedId(id: Value): Value
  {
    if id.Arr? then Arr(SortIds(id.items)) else id
  }

  /** A cached value that `exec` returns: present and truthy. */
  predicate Hit(cache: map<JsonText, Value>, k: JsonText)
  {
    k in cache && Truthy(cache[k])
  }

  // ---------------------------------------------------------------------
  // The batch function of `createDataLoader`

  /** The own enumerable properties `{...v}` copies. */
  function SpreadOf(v: Value): Fields
  {
    match v
    case Obj(f) => f
    case Arr(items) => seq(|items|, i requires 0 <= i < |items| => (NatToDecimal(i), items[i]))
    case Str(s) => seq(|s|, i requires 0 <= i < |s| => (NatToDecimal(i), Str([s[i]])))
    case _ => []
  }

  /** The params the batch sends to `find`: the caller's params with
      `paginate: false` and a query extended by `{[key]: {$in: uniqueKeys(keys)}}`;
      TS then removes `$limit` from that query. `None` when `params` is
      `null`, for which reading `params.query` throws. */
  function BatchParams(d: Dialect, key: Value, params: Value, keys: seq<Value>): Option<Value>
  {
    if params.Null? then None
    else
      var p := if params.Undefined? then Obj([]) else params;
      var query := Put(SpreadOf(Get(p, "query")), ToStr(key), Obj([("$in", Arr(Dedup(keys)))]));
      var query' := if d == Ts then Delete(query, "$limit") else query;
      Some(Obj(Put(Put(SpreadOf(p), "paginate", Bool(false)), "query", Obj(query'))))
  }

  /** `getResults(keys, result, key)`: one entry per key, or `None` when the
      demultiplexer throws. TS reads the dotted path `key` (a non-string key
      throws once there is a record to read); JS reads the property `key`
      (a `null` or `undefined` record throws). An undefined key is `'id'`. */
  function BatchResults(d: Dialect, keys: seq<Value>, result: Value, key: Value, multi: Value): (r: Option<seq<Value>>)
    ensures r.Some? ==> |r.value| == |keys|
  {
    if d == Ts then
      match RecordsOf(result)
      case None => None
      case Some(rs) =>
        if rs != [] && !key.Str? && !key.Undefined? then None
        else
          var parts := Split(if key.Str? then key.s else "id", '.');
          Some(if Truthy(multi) then UniqueResultsMultiOf(keys, rs, parts, Null)
               else UniqueResultsOf(keys, rs, parts, Null))
    else
      match RecordsOfJs(result)
      case None => None
      case Some(rs) =>
        if HasNullish(rs) then None
        else
          var parts := [if key.Undefined? then "id" else ToStr(key)];
          Some(if Truthy(multi) then UniqueResultsMultiOf(keys, rs, parts, Null)
               else UniqueResultsOf(keys, rs, parts, Null))
  }

  /** One run of the batch function on `keys`: its results and the backend
      calls it makes. */
  function BatchRun(d: Dialect, svc: Service, config: BatchConfig, keys: seq<Value>): (r: (Option<seq<Value>>, seq<Request>))
    ensures r.0.Some? ==> |r.0.value| == |keys|
    ensures |r.1| <= 1
  {
    match BatchParams(d, config.key, config.params, keys)
    case None => (None, [])
    case Some(p) =>
      var req := Request(FindMethod(config.loadMethod), [p]);
      match svc.respond(req)
      case None => (None, [req])
      case Some(answer) => (BatchResults(d, keys, answer, config.key, config.multi), [req])
  }

  /** The position of the first `null` or `undefined` id, or `|ids|`. */
  function FirstNullish(ids: seq<Value>): (n: nat)
    ensures n <= |ids|
    ensures forall j :: 0 <= j < n ==> !Nullish(ids[j])
    ensures n < |ids| ==> Nullish(ids[n])
    ensures n == |ids| <==> !HasNullish(ids)
  {
    if ids == [] then 0
    else if Nullish(ids[0]) then 0
    else
      var n := FirstNullish(ids[1..]);
      assert forall j :: 1 <= j < |ids| ==> ids[j] == ids[1..][j - 1];
      1 + n
  }

  /** `loadMany(sortedId)` for an array, `load(sortedId)` otherwise.
      DataLoader's `load` throws on a `null` or `undefined` id before it
      queues anything. `loadMany` calls `load` on each id in turn, so the
      ids before the first nullish one are already queued when it throws:
      their batch still runs, and the call rejects. */
  function Dispatch(d: Dialect, svc: Service, config: BatchConfig, sortedId: Value): (r: (Option<Value>, seq<Request>))
    ensures !sortedId.Arr? && Nullish(sortedId) ==> r == (None, [])
    ensures sortedId.Arr? && HasNullish(sortedId.items) ==> r.0.None?
    ensures sortedId.Arr? && |sortedId.items| > 0 && Nullish(sortedId.items[0]) ==> r == (None, [])
  {
    if !sortedId.Arr? && Nullish(sortedId) then (None, [])
    else if sortedId.Arr? && sortedId.items == [] then (Some(Arr([])), [])
    else if sortedId.Arr? && HasNullish(sortedId.items) then
      var n := FirstNullish(sortedId.items);
      (None, if n == 0 then [] else BatchRun(d, svc, config, sortedId.items[..n]).1)
    else
      var keys := if sortedId.Arr? then sortedId.items else [sortedId];
      var b := BatchRun(d, svc, config, keys);
      match b.0
      case None => (None, b.1)
      case Some(rs) => (Some(if sortedId.Arr? then Arr(rs) else rs[0]), b.1)
  }

  // ---------------------------------------------------------------------
  // `exec`

  /** The `get`/`_get`/`find`/`_find` branch of `exec`. */
  function PlainOutcome(svc: Service, name: string, cache: map<JsonText, Value>, o: Fields, f: Value -> Value): Outcome
    requires IsPlain(Lookup(o, "method"))
  {
    match KeyText(name, o, f)
    case None => Rejected
    case Some(ck) =>
      if Hit(cache, ck) then Outcome(Some(cache[ck]), [], None, None)
      else
        var m := Lookup(o, "method").s;
        if m !in svc.methods then Rejected
        else
          var req := Request(m, if m == "get" || m == "_get" then [Lookup(o, "id"), Lookup(o, "params")]
                                else [Lookup(o, "params")]);
          match svc.respond(req)
          case None => Outcome(None, [req], None, None)
          case Some(r) => Outcome(Some(r), [req], None, Some((ck, r)))
  }

  /** The `load`/`_load` branch of `exec`. The request enters it only
      through its sorted id, the request with that id in place (the cache
      key), its loader fields (the loader key) and the configuration a new
      loader would get. */
  function LoadOutcome(d: Dialect, svc: Service, name: string, cache: map<JsonText, Value>,
                       loaders: map<JsonText, BatchConfig>, o: Fields, f: Value -> Value): Outcome
  {
    var sorted := SortedId(Lookup(o, "id"));
    var created := BatchConfig(Lookup(o, "key"), Lookup(o, "multi"), Lookup(o, "method"), Lookup(o, "params"));
    SortedLoadOutcome(d, svc, name, cache, loaders, sorted, Put(o, "id", sorted), LoaderFields(o), created, f)
  }

  /** The `load` branch from the point where the ids are sorted. */
  function SortedLoadOutcome(d: Dialect, svc: Service, name: string, cache: map<JsonText, Value>,
                             loaders: map<JsonText, BatchConfig>, sorted: Value, keyed: Fields, shape: Fields,
                             created: BatchConfig, f: Value -> Value): Outcome
  {
    match KeyText(name, keyed, f)
    case None => Rejected
    case Some(ck) =>
      if Hit(cache, ck) then Outcome(Some(cache[ck]), [], None, None)
      else
        match KeyText(name, shape, f)
        case None => Rejected
        case Some(lk) =>
          if lk !in loaders && FindMethod(created.loadMethod) !in svc.methods then Rejected
          else
            var config := if lk in loaders then loaders[lk] else created;
            var b := Dispatch(d, svc, config, sorted);
            Outcome(b.0, b.1, Some((lk, config)), if b.0.Some? then Some((ck, b.0.value)) else None)
  }

  /** Everything `exec({cacheParamsFn, ...options})` does, given the cache
      contents and the registered loaders. */
  function ExecOutcome(d: Dialect, svc: Service, name: string, key: Value, defaultFn: Value -> Value,
                       cache: map<JsonText, Value>, loaders: map<JsonText, BatchConfig>,
                       options: Fields, cacheParamsFn: Option<Value -> Value>): Outcome
  {
    var o := ExecOptions(d, key, options);
    var f := if cacheParamsFn.Some? then cacheParamsFn.value else defaultFn;
    if IsPlain(Lookup(o, "method")) then PlainOutcome(svc, name, cache, o, f)
    else LoadOutcome(d, svc, name, cache, loaders, o, f)
  }

  // ---------------------------------------------------------------------
  // `clear`

  /** A cache key that `clear` deletes: it parses to a value whose
      `serviceName` is this loader's. */
  predicate Owned(name: string, k: JsonText)
  {
    Parse(k).Some? && Get(Parse(k).value, "serviceName") == Str(name)
  }

  /** A cache key on which `clear` throws: `JSON.parse` fails, or gives
      `null`, whose `serviceName` cannot be read. */
  predicate Unreadable(k: JsonText)
  {
    Parse(k).None? || Parse(k).value.Null?
  }

  /** `keys[i]` is the first key of the walk on which `clear` throws. */
  predicate FirstUnreadable(keys: seq<JsonText>, i: nat)
  {
    i < |keys| && Unreadable(keys[i]) && ReadableBefore(keys, i)
  }

  /** The walk of `clear` reads the first `i` keys without throwing. */
  predicate ReadableBefore(keys: seq<JsonText>, i: nat)
  {
    i <= |keys| && forall j :: 0 <= j < i ==> !Unreadable(keys[j])
  }

  /** The cache after `clear` has looked at the keys `seen`: every seen key
      this loader owns is gone, everything else is as it was. */
  function Cleared(entries: map<JsonText, Value>, name: string, seen: seq<JsonText>): (r: map<JsonText, Value>)
    ensures forall k :: k in r <==> k in entries && !(k in seen && Owned(name, k))
    ensures forall k :: k in r ==> r[k] == entries[k]
  {
    map k | k in entries && !(k in seen && Owned(name, k)) :: entries[k]
  }

  /** Looking at one more key deletes it exactly when this loader owns it. */
  lemma ClearedStep(entries: map<JsonText, Value>, name: string, seen: seq<JsonText>, k: JsonText)
    ensures Cleared(entries, name, seen + [k]) ==
            if Owned(name, k) then Cleared(entries, name, seen) - {k} else Cleared(entries, name, seen)
  {
    var a := Cleared(entries, name, seen + [k]);
    var b := if Owned(name, k) then Cleared(entries, name, seen) - {k} else Cleared(entries, name, seen);
    assert forall x :: x in seen + [k] <==> x in seen || x == k;
    assert forall x :: x in a <==> x in b;
  }

  // ---------------------------------------------------------------------
  // The loader

  class ServiceLoader {
    const dialect: Dialect
    const serviceName: string
    const service: Service
    const key: Value
    const cacheParamsFn: Value -> Value
    /** The projection the JS loader's chains apply to results; `None`
        when the option is not given, since the fallback it names,
        `defaultSelectFn`, is not defined by src/utils.js. */
    const selectFn: Option<(Value, Value) -> Value>
    const cacheMap: CacheMap
    var loaders: map<JsonText, BatchConfig>
    /** The backend calls made so far. */
    ghost var requests: seq<Request>

    ghost predicate Valid()
      reads this, cacheMap
    {
      cacheMap.Valid()
    }

    /** `new ServiceLoader({app, serviceName, cacheParamsFn, selectFn, cacheMap})`:
        the service is `app.service(serviceName)`. */
    constructor (d: Dialect, app: string -> Service, serviceName: string,
                 cacheParamsFn: Option<Value -> Value>, selectFn: Option<(Value, Value) -> Value>, cacheMap: Option<CacheMap>)
      requires d == Js ==> !Nullish(app(serviceName).options)
      requires cacheMap.Some? ==> cacheMap.value.Valid()
      ensures Valid()
      ensures this.dialect == d && this.serviceName == serviceName && this.service == app(serviceName)
      ensures Some(this.key) == PrimaryKey(d, app(serviceName).options)
      ensures this.cacheParamsFn == if cacheParamsFn.Some? then cacheParamsFn.value else DefaultCacheParams
      ensures this.selectFn == selectFn
      ensures cacheMap.Some? ==> this.cacheMap == cacheMap.value
      ensures cacheMap.None? ==> fresh(this.cacheMap) && this.cacheMap.entries == map[]
      ensures loaders == map[] && requests == []
    {
      dialect := d;
      this.serviceName := serviceName;
      service := app(serviceName);
      key := PrimaryKey(d, app(serviceName).options).value;
      if cacheParamsFn.Some? {
        this.cacheParamsFn := cacheParamsFn.value;
      } else {
        this.cacheParamsFn := DefaultCacheParams;
      }
      this.selectFn := selectFn;
      if cacheMap.Some? {
        this.cacheMap := cacheMap.value;
      } else {
        this.cacheMap := new CacheMap();
      }
      loaders := map[];
      requests := [];
    }

    /** The state change and the result of `exec({cacheParamsFn, ...options})`:
        those `ExecOutcome` describes. */
    twostate predicate Executed(options: Fields, cacheParamsFn: Option<Value -> Value>, new result: Option<Value>)
      reads this, cacheMap
    {
      var out := ExecOutcome(dialect, service, serviceName, key, this.cacheParamsFn,
                             old(cacheMap.entries), old(loaders), options, cacheParamsFn);
      result == out.result && requests == old(requests) + out.requests &&
      loaders == Written(old(loaders), out.loader) &&
      cacheMap.entries == Written(old(cacheMap.entries), out.write) &&
      cacheMap.order == (if out.write.Some? then OrderAfterSet(old(cacheMap.order), out.write.value.0)
                         else old(cacheMap.order))
    }

    /** `exec({cacheParamsFn, ...options})`. */
    method Exec(options: Fields, cacheParamsFn: Option<Value -> Value>) returns (result: Option<Value>)
      requires Valid()
      requires IndexOf(options, "cacheParamsFn") < 0  // taken apart by the destructuring
      modifies this, cacheMap
      ensures Valid()
      ensures Executed(options, cacheParamsFn, result)
    {
      var o := ExecOptions(dialect, key, options);
      var f := if cacheParamsFn.Some? then cacheParamsFn.value else this.cacheParamsFn;
      if IsPlain(Lookup(o, "method")) {
        result := ExecPlain(o, f);
      } else {
        result := ExecLoad(o, f);
      }
    }

    /** The `get`/`_get`/`find`/`_find` branch of `exec`. */
    method ExecPlain(o: Fields, f: Value -> Value) returns (result: Option<Value>)
      requires Valid() && IsPlain(Lookup(o, "method"))
      modifies this`requests, cacheMap
      ensures Valid()
      ensures var out := PlainOutcome(service, serviceName, old(cacheMap.entries), o, f);
        result == out.result && requests == old(requests) + out.requests && out.loader.None? &&
        cacheMap.entries == Written(old(cacheMap.entries), out.write) &&
        cacheMap.order == (if out.write.Some? then OrderAfterSet(old(cacheMap.order), out.write.value.0)
                           else old(cacheMap.order))
    {
      var m := Lookup(o, "method").s;
      var cacheKey := KeyText(serviceName, o, f);
      if cacheKey.None? {
        return None;
      }
      var cachedResult := cacheMap.Get(cacheKey.value);
      if Truthy(cachedResult) {
        return Some(cachedResult);
      }
      if m !in service.methods {
        return None;
      }
      var request := Request(m, if m == "get" || m == "_get"
                                then [Lookup(o, "id"), Lookup(o, "params")]
                                else [Lookup(o, "params")]);
      requests := requests + [request];
      result := service.respond(request);
      if result.Some? {
        cacheMap.Set(cacheKey.value, result.value);
      }
    }

    /** The `load`/`_load` branch of `exec`. */
    method ExecLoad(o: Fields, f: Value -> Value) returns (result: Option<Value>)
      requires Valid()
      modifies this, cacheMap
      ensures Valid()
      ensures var out := LoadOutcome(dialect, service, serviceName, old(cacheMap.entries), old(loaders), o, f);
        result == out.result && requests == old(requests) + out.requests &&
        loaders == Written(old(loaders), out.loader) &&
        cacheMap.entries == Written(old(cacheMap.entries), out.write) &&
        cacheMap.order == (if out.write.Some? then OrderAfterSet(old(cacheMap.order), out.write.value.0)
                           else old(cacheMap.order))
    {
      var sortedId := SortedId(Lookup(o, "id"));
      var cacheKey := KeyText(serviceName, Put(o, "id", sortedId), f);
      if cacheKey.None? {
        return None;
      }
      var cachedResult := cacheMap.Get(cacheKey.value);
      if Truthy(cachedResult) {
        return Some(cachedResult);
      }
      var loaderKey := KeyText(serviceName, LoaderFields(o), f);
      if loaderKey.None? {
        return None;
      }
      var config;
      if loaderKey.value in loaders {
        config := loaders[loaderKey.value];
      } else {
        var m := Lookup(o, "method");
        if FindMethod(m) !in service.methods {
          return None;
        }
        config := BatchConfig(Lookup(o, "key"), Lookup(o, "multi"), m, Lookup(o, "params"));
      }
      loaders := loaders[loaderKey.value := config];
      result := RunLoader(config, sortedId);
      if result.Some? {
        cacheMap.Set(cacheKey.value, result.value);
      }
    }

    /** `get(id, params, cacheParamsFn)`. */
    method Get(id: Value, params: Value, cacheParamsFn: Option<Value -> Value>) returns (result: Option<Value>)
      requires Valid()
      modifies this, cacheMap
      ensures Valid()
      ensures Executed([("method", Str("get")), ("id", id), ("params", params)], cacheParamsFn, result)
    {
      result := Exec([("method", Str("get")), ("id", id), ("params", params)], cacheParamsFn);
    }

    /** `_get(id, params, cacheParamsFn)`. */
    method InternalGet(id: Value, params: Value, cacheParamsFn: Option<Value -> Value>) returns (result: Option<Value>)
      requires Valid()
      modifies this, cacheMap
      ensures Valid()
      ensures Executed([("method", Str("_get")), ("id", id), ("params", params)], cacheParamsFn, result)
    {
      result := Exec([("method", Str("_get")), ("id", id), ("params", params)], cacheParamsFn);
    }

    /** `find(params, cacheParamsFn)`. */
    method Find(params: Value, cacheParamsFn: Option<Value -> Value>) returns (result: Option<Value>)
      requires Valid()
      modifies this, cacheMap
      ensures Valid()
      ensures Executed([("method", Str("find")), ("params", params)], cacheParamsFn, result)
    {
      result := Exec([("method", Str("find")), ("params", params)], cacheParamsFn);
    }

    /** `_find(params, cacheParamsFn)`. */
    method InternalFind(params: Value, cacheParamsFn: Option<Value -> Value>) returns (result: Option<Value>)
      requires Valid()
      modifies this, cacheMap
      ensures Valid()
      ensures Executed([("method", Str("_find")), ("params", params)], cacheParamsFn, result)
    {
      result := Exec([("method", Str("_find")), ("params", params)], cacheParamsFn);
    }

    /** `load(id, params, cacheParamsFn)`. */
    method Load(id: Value, params: Value, cacheParamsFn: Option<Value -> Value>) returns (result: Option<Value>)
      requires Valid()
      modifies this, cacheMap
      ensures Valid()
      ensures Executed([("method", Str("load")), ("id", id), ("params", params)], cacheParamsFn, result)
    {
      result := Exec([("method", Str("load")), ("id", id), ("params", params)], cacheParamsFn);
    }

    /** `_load(id, params, cacheParamsFn)`. */
    method InternalLoad(id: Value, params: Value, cacheParamsFn: Option<Value -> Value>) returns (result: Option<Value>)
      requires Valid()
      modifies this, cacheMap
      ensures Valid()
      ensures Executed([("method", Str("_load")), ("id", id), ("params", params)], cacheParamsFn, result)
    {
      result := Exec([("method", Str("_load")), ("id", id), ("params", params)], cacheParamsFn);
    }

    /** `key(k).load(id, params, cacheParamsFn)` of the TS loader. */
    method KeyLoad(k: string, id: Value, params: Value, cacheParamsFn: Option<Value -> Value>) returns (result: Option<Value>)
      requires Valid()
      modifies this, cacheMap
      ensures Valid()
      ensures Executed([("method", Str("load")), ("id", id), ("key", Str(k)), ("params", params)], cacheParamsFn, result)
    {
      result := Exec([("method", Str("load")), ("id", id), ("key", Str(k)), ("params", params)], cacheParamsFn);
    }

    /** `key(k)._load(id, params, cacheParamsFn)` of the TS loader. */
    method KeyInternalLoad(k: string, id: Value, params: Value, cacheParamsFn: Option<Value -> Value>) returns (result: Option<Value>)
      requires Valid()
      modifies this, cacheMap
      ensures Valid()
      ensures Executed([("method", Str("_load")), ("id", id), ("key", Str(k)), ("params", params)], cacheParamsFn, result)
    {
      result := Exec([("method", Str("_load")), ("id", id), ("key", Str(k)), ("params", params)], cacheParamsFn);
    }

    /** `multi(k).load(id, params, cacheParamsFn)` of the TS loader. */
    method MultiLoad(k: string, id: Value, params: Value, cacheParamsFn: Option<Value -> Value>) returns (result: Option<Value>)
      requires Valid()
      modifies this, cacheMap
      ensures Valid()
      ensures Executed([("method", Str("load")), ("id", id), ("key", Str(k)), ("params", params), ("multi", Bool(true))],
                       cacheParamsFn, result)
    {
      result := Exec([("method", Str("load")), ("id", id), ("key", Str(k)), ("params", params), ("multi", Bool(true))],
                     cacheParamsFn);
    }

    /** `multi(k)._load(id, params, cacheParamsFn)` of the TS loader. */
    method MultiInternalLoad(k: string, id: Value, params: Value, cacheParamsFn: Option<Value -> Value>) returns (result: Option<Value>)
      requires Valid()
      modifies this, cacheMap
      ensures Valid()
      ensures Executed([("method", Str("_load")), ("id", id), ("key", Str(k)), ("params", params), ("multi", Bool(true))],
                       cacheParamsFn, result)
    {
      result := Exec([("method", Str("_load")), ("id", id), ("key", Str(k)), ("params", params), ("multi", Bool(true))],
                     cacheParamsFn);
    }

    /** `clear()`: forget every loader, then walk the cache keys and delete
        those whose parsed `serviceName` is this loader's. `ok` is false
        when a key does not parse to an object-like value, in which case the
        keys before it have been handled and the rest have not. */
    method Clear() returns (ok: bool)
      requires Valid()
      modifies this`loaders, cacheMap
      ensures Valid()
      ensures loaders == map[]
      ensures ok <==> forall k :: k in old(cacheMap.order) ==> !Unreadable(k)
      ensures ok ==> cacheMap.entries == Cleared(old(cacheMap.entries), serviceName, old(cacheMap.order))
      ensures !ok ==> exists i :: 0 <= i < |old(cacheMap.order)| && FirstUnreadable(old(cacheMap.order), i) &&
                                  cacheMap.entries == Cleared(old(cacheMap.entries), serviceName, old(cacheMap.order)[..i])
      ensures cacheMap.order == Restrict(old(cacheMap.order), cacheMap.entries)
      ensures forall k :: k in cacheMap.entries ==> k in old(cacheMap.entries) && cacheMap.entries[k] == old(cacheMap.entries)[k]
      ensures forall k :: k in old(cacheMap.entries) && !Owned(serviceName, k) ==> k in cacheMap.entries
    {
      loaders := map[];
      ok := ClearKeys();
    }

    /** The cache iterates over the keys of `keys` it still holds, in the
        order of `keys`. */
    ghost predicate OrderFollows(keys: seq<JsonText>)
      reads cacheMap
    {
      cacheMap.order == Restrict(keys, cacheMap.entries)
    }

    /** The walk of `clear` over the cache keys, in iteration order. */
    method ClearKeys() returns (ok: bool)
      requires cacheMap.Valid()
      modifies cacheMap
      ensures cacheMap.Valid()
      ensures ok <==> forall k :: k in old(cacheMap.order) ==> !Unreadable(k)
      ensures ok ==> cacheMap.entries == Cleared(old(cacheMap.entries), serviceName, old(cacheMap.order))
      ensures !ok ==> exists i :: 0 <= i < |old(cacheMap.order)| && FirstUnreadable(old(cacheMap.order), i) &&
                                  cacheMap.entries == Cleared(old(cacheMap.entries), serviceName, old(cacheMap.order)[..i])
      ensures OrderFollows(old(cacheMap.order))
    {
      var keys := cacheMap.order;
      RestrictAll(keys, cacheMap.entries);
      var i := 0;
      while i < |keys|
        invariant 0 <= i <= |keys|
        invariant cacheMap.Valid()
        invariant cacheMap.entries == Cleared(old(cacheMap.entries), serviceName, keys[..i])
        invariant ReadableBefore(keys, i)
        invariant OrderFollows(keys)
      {
        var readable := ClearKey(old(cacheMap.entries), keys, i, keys[i]);
        if !readable {
          assert keys[i] in old(cacheMap.order);
          return false;
        }
        i := i + 1;
      }
      assert keys[..i] == keys;
      return true;
    }

    /** One key of `clear`'s walk: it is parsed, and deleted when this
        loader owns it. `false` when parsing it throws. */
    method ClearKey(ghost entries: map<JsonText, Value>, ghost keys: seq<JsonText>, ghost i: nat, k: JsonText)
      returns (readable: bool)
      requires i < |keys| && k == keys[i]
      requires cacheMap.Valid() && cacheMap.entries == Cleared(entries, serviceName, keys[..i])
      requires OrderFollows(keys)
      requires ReadableBefore(keys, i)
      modifies cacheMap
      ensures cacheMap.Valid()
      ensures readable <==> !Unreadable(k)
      ensures readable ==> ReadableBefore(keys, i + 1)
      ensures !readable ==> FirstUnreadable(keys, i)
      ensures readable ==> cacheMap.entries == Cleared(entries, serviceName, keys[..i + 1])
      ensures !readable ==> cacheMap.entries == old(cacheMap.entries)
      ensures OrderFollows(keys)
    {
      DeleteRestricts(cacheMap.order, cacheMap.entries, k);
      RestrictRestrict(keys, cacheMap.entries, cacheMap.entries - {k});
      assert keys[..i + 1] == keys[..i] + [k];
      var parsed := Parse(k);
      if parsed.None? || parsed.value.Null? {
        return false;
      }
      ClearedStep(entries, serviceName, keys[..i], k);
      if Json.Get(parsed.value, "serviceName") == Str(serviceName) {
        cacheMap.Delete(k);
      }
      return true;
    }

    /** `dataLoader.loadMany(sortedId)` or `dataLoader.load(sortedId)`. */
    method RunLoader(config: BatchConfig, sortedId: Value) returns (result: Option<Value>)
      modifies this`requests
      ensures result == Dispatch(dialect, service, config, sortedId).0
      ensures requests == old(requests) + Dispatch(dialect, service, config, sortedId).1
    {
      if !sortedId.Arr? && Nullish(sortedId) {
        return None;
      }
      if sortedId.Arr? && sortedId.items == [] {
        return Some(Arr([]));
      }
      if sortedId.Arr? && HasNullish(sortedId.items) {
        var n := FirstNullish(sortedId.items);
        if n > 0 {
          var queued := Batch(config, sortedId.items[..n]);
        }
        return None;
      }
      var keys := if sortedId.Arr? then sortedId.items else [sortedId];
      var results := Batch(config, keys);
      if results.None? {
        return None;
      }
      result := Some(if sortedId.Arr? then Arr(results.value) else results.value[0]);
    }

    /** The batch function of `createDataLoader`, run on `keys`. */
    method Batch(config: BatchConfig, keys: seq<Value>) returns (results: Option<seq<Value>>)
      modifies this`requests
      ensures results == BatchRun(dialect, service, config, keys).0
      ensures requests == old(requests) + BatchRun(dialect, service, config, keys).1
    {
      var loaderParams := BatchParams(dialect, config.key, config.params, keys);
      if loaderParams.None? {
        return None;
      }
      var request := Request(FindMethod(config.loadMethod), [loaderParams.value]);
      requests := requests + [request];
      var answer := service.respond(request);
      if answer.None? {
        return None;
      }
      results := Demultiplex(keys, answer.value, config.key, config.multi);
    }

    /** `getResults(keys, result, key)`, with `getResults` chosen by `multi`. */
    method Demultiplex(keys: seq<Value>, result: Value, key: Value, multi: Value) returns (r: Option<seq<Value>>)
      ensures r == BatchResults(dialect, keys, result, key, multi)
    {
      if dialect == Ts {
        r := DemultiplexTs(keys, result, key, multi);
      } else {
        r := DemultiplexJs(keys, result, key, multi);
      }
    }
  }

  /** The TS `getResults`: records matched along the dotted path `key`. */
  method DemultiplexTs(keys: seq<Value>, result: Value, key: Value, multi: Value) returns (r: Option<seq<Value>>)
    ensures r == BatchResults(Ts, keys, result, key, multi)
  {
    var records := RecordsOf(result);
    if records.Some? && records.value != [] && !key.Str? && !key.Undefined? {
      return None;
    }
    var name := if key.Str? then key.s else "id";
    if Truthy(multi) {
      r := UniqueResultsMulti(keys, result, name, Null);
    } else {
      r := UniqueResults(keys, result, name, Null);
    }
  }

  /** The JS `getResults`: records matched on the property `key`. */
  method DemultiplexJs(keys: seq<Value>, result: Value, key: Value, multi: Value) returns (r: Option<seq<Value>>)
    ensures r == BatchResults(Js, keys, result, key, multi)
  {
    var name := if key.Undefined? then "id" else ToStr(key);
    if Truthy(multi) {
      r := UniqueResultsMultiJs(keys, result, name, Null);
    } else {
      r := UniqueResultsJs(keys, result, name, Null);
    }
  }
}

=== FILE: service_loader_facts.dfy ===
/** What the `ServiceLoader` of src/serviceLoader.ts and src/serviceLoader.js
    promises, stated on the functions its `exec` and `clear` methods are
    proved against. */
module ServiceLoaderFacts {
  import opened Json
  import opened Stringify
  import opened StringifyFacts
  import opened ParseFacts
  import opened Objects
  import opened Utils
  import opened IdSort
  import opened Demux
  import opened ServiceLoaders

  /** The params-cache function an `exec` call uses: the caller's when it
      passes one, otherwise the loader's. */
  function ParamsFn(defaultFn: Value -> Value, cacheParamsFn: Option<Value -> Value>): Value -> Value
  {
    if cacheParamsFn.Some? then cacheParamsFn.value else defaultFn
  }

  /** The cache key `exec` derives: the whole request for the plain methods,
      the request with its ids sorted for `load`/`_load`. */
  function CacheKeyOf(d: Dialect, name: string, key: Value, defaultFn: Value -> Value,
                      options: Fields, cacheParamsFn: Option<Value -> Value>): Option<JsonText>
  {
    var o := ExecOptions(d, key, options);
    var f := ParamsFn(defaultFn, cacheParamsFn);
    if IsPlain(Lookup(o, "method")) then KeyText(name, o, f)
    else KeyText(name, Put(o, "id", SortedId(Lookup(o, "id"))), f)
  }

  /** The key under which `exec` registers its DataLoader. */
  function LoaderKeyOf(d: Dialect, name: string, key: Value, defaultFn: Value -> Value,
                       options: Fields, cacheParamsFn: Option<Value -> Value>): Option<JsonText>
  {
    KeyText(name, LoaderFields(ExecOptions(d, key, options)), ParamsFn(defaultFn, cacheParamsFn))
  }

  // ---------------------------------------------------------------------
  // Options

  /** Every option the caller passes wins over the defaults, an explicit
      `undefined` included; the defaults are `id: null`, the loader's key,
      no params (`null` in JS), `multi: false` and `method: 'load'`. */
  lemma ExecOptionsLookup(d: Dialect, key: Value, options: Fields, k: string)
    ensures Lookup(ExecOptions(d, key, options), k) ==
      if LastOf(options, k).Some? then LastOf(options, k).value
      else if k == "id" then Null
      else if k == "key" then key
      else if k == "params" then (if d == Ts then Undefined else Null)
      else if k == "multi" then Bool(false)
      else if k == "method" then Str("load")
      else Undefined
  {
    var defaults := [("id", Null), ("key", key), ("params", if d == Ts then Undefined else Null),
                     ("multi", Bool(false)), ("method", Str("load"))];
    LookupSpread(defaults, options, k);
    assert defaults[0].0 == "id" && defaults[1].0 == "key" && defaults[2].0 == "params";
    assert defaults[3].0 == "multi" && defaults[4].0 == "method";
  }

  /** One more option at the end is a write onto the options before it. */
  lemma ExecOptionsSnoc(d: Dialect, key: Value, options: Fields, k: string, v: Value)
    ensures ExecOptions(d, key, options + [(k, v)]) == Put(ExecOptions(d, key, options), k, v)
  {
    assert (options + [(k, v)])[..|options|] == options;
  }

  // ---------------------------------------------------------------------
  // The cache

  /** The cache decides first: a request whose key cannot be computed
      rejects, and a truthy cached value is returned with no backend call,
      no loader created and no write. */
  lemma HitShortCircuits(d: Dialect, svc: Service, name: string, key: Value, defaultFn: Value -> Value,
                         cache: map<JsonText, Value>, loaders: map<JsonText, BatchConfig>,
                         options: Fields, cacheParamsFn: Option<Value -> Value>)
    ensures var out := ExecOutcome(d, svc, name, key, defaultFn, cache, loaders, options, cacheParamsFn);
      var ck := CacheKeyOf(d, name, key, defaultFn, options, cacheParamsFn);
      (ck.None? ==> out == Rejected) &&
      (ck.Some? && Hit(cache, ck.value) ==> out == Outcome(Some(cache[ck.value]), [], None, None))
  {
  }

  /** The plain branch writes the backend's answer under the request key,
      and only once the backend call has succeeded. */
  lemma PlainWrites(svc: Service, name: string, cache: map<JsonText, Value>, o: Fields, f: Value -> Value)
    requires IsPlain(Lookup(o, "method"))
    ensures var out := PlainOutcome(svc, name, cache, o, f);
      var ck := KeyText(name, o, f);
      (out.result.None? ==> out.write.None?) &&
      (out.write.Some? ==> ck == Some(out.write.value.0) && out.result == Some(out.write.value.1)) &&
      (ck.Some? && !Hit(cache, ck.value) && out.result.Some? ==> out.write == Some((ck.value, out.result.value)))
  {
  }

  /** The load branch writes the loader's answer under the key of the
      request with its ids sorted, and only once the batch has succeeded. */
  lemma LoadWrites(d: Dialect, svc: Service, name: string, cache: map<JsonText, Value>,
                   loaders: map<JsonText, BatchConfig>, o: Fields, f: Value -> Value)
    ensures var out := LoadOutcome(d, svc, name, cache, loaders, o, f);
      var ck := KeyText(name, Put(o, "id", SortedId(Lookup(o, "id"))), f);
      (out.result.None? ==> out.write.None?) &&
      (out.write.Some? ==> ck == Some(out.write.value.0) && out.result == Some(out.write.value.1)) &&
      (ck.Some? && !Hit(cache, ck.value) && out.result.Some? ==> out.write == Some((ck.value, out.result.value)))
  {
  }

  /** The cache is written only after the backend or batch call has
      succeeded, with the result under the request's key; a failure writes
      nothing. */
  lemma WriteOnlyOnSuccess(d: Dialect, svc: Service, name: string, key: Value, defaultFn: Value -> Value,
                           cache: map<JsonText, Value>, loaders: map<JsonText, BatchConfig>,
                           options: Fields, cacheParamsFn: Option<Value -> Value>)
    ensures var out := ExecOutcome(d, svc, name, key, defaultFn, cache, loaders, options, cacheParamsFn);
      var ck := CacheKeyOf(d, name, key, defaultFn, options, cacheParamsFn);
      (out.result.None? ==> out.write.None?) &&
      (out.write.Some? ==> ck == Some(out.write.value.0) && out.result == Some(out.write.value.1)) &&
      (ck.Some? && !Hit(cache, ck.value) && out.result.Some? ==> out.write == Some((ck.value, out.result.value)))
  {
    var o := ExecOptions(d, key, options);
    var f := ParamsFn(defaultFn, cacheParamsFn);
    if IsPlain(Lookup(o, "method")) {
      PlainWrites(svc, name, cache, o, f);
    } else {
      LoadWrites(d, svc, name, cache, loaders, o, f);
    }
  }

  /** A request that settled with a truthy value is answered from the cache
      the next time: same result, no backend call, nothing registered. */
  lemma ExecMemoises(d: Dialect, svc: Service, name: string, key: Value, defaultFn: Value -> Value,
                     cache: map<JsonText, Value>, loaders: map<JsonText, BatchConfig>,
                     options: Fields, cacheParamsFn: Option<Value -> Value>)
    requires var out := ExecOutcome(d, svc, name, key, defaultFn, cache, loaders, options, cacheParamsFn);
      out.result.Some? && Truthy(out.result.value)
    ensures var out := ExecOutcome(d, svc, name, key, defaultFn, cache, loaders, options, cacheParamsFn);
      ExecOutcome(d, svc, name, key, defaultFn, Written(cache, out.write), Written(loaders, out.loader),
                  options, cacheParamsFn) == Outcome(out.result, [], None, None)
  {
    var out := ExecOutcome(d, svc, name, key, defaultFn, cache, loaders, options, cacheParamsFn);
    var ck := CacheKeyOf(d, name, key, defaultFn, options, cacheParamsFn);
    HitShortCircuits(d, svc, name, key, defaultFn, cache, loaders, options, cacheParamsFn);
    WriteOnlyOnSuccess(d, svc, name, key, defaultFn, cache, loaders, options, cacheParamsFn);
    var cache' := Written(cache, out.write);
    assert Hit(cache', ck.value) && cache'[ck.value] == out.result.value;
    HitShortCircuits(d, svc, name, key, defaultFn, cache', Written(loaders, out.loader), options, cacheParamsFn);
  }

  // ---------------------------------------------------------------------
  // The plain methods

  /** `get`/`_get`/`find`/`_find` never touch the loaders. On a miss they
      call the backend method of the same name once, `get`-style with
      `(id, params)` and `find`-style with `(params)`; a service without
      that method rejects. */
  lemma PlainBypassesLoaders(svc: Service, name: string, cache: map<JsonText, Value>, o: Fields, f: Value -> Value)
    requires IsPlain(Lookup(o, "method"))
    ensures var out := PlainOutcome(svc, name, cache, o, f);
      var m := Lookup(o, "method").s;
      var ck := KeyText(name, o, f);
      out.loader.None? &&
      (ck.Some? && !Hit(cache, ck.value) && m !in svc.methods ==> out == Rejected) &&
      (ck.Some? && !Hit(cache, ck.value) && m in svc.methods ==>
        out.requests == [Request(m, if m == "get" || m == "_get" then [Lookup(o, "id"), Lookup(o, "params")]
                                    else [Lookup(o, "params")])] &&
        out.result == svc.respond(out.requests[0]))
  {
  }

  // ---------------------------------------------------------------------
  // `load` and the loaders

  /** `load`/`_load` register at most one loader, under the key of the
      request's shape: an existing loader is reused with the configuration
      it was created with, a new one is created from this request. */
  lemma LoadRegistry(d: Dialect, svc: Service, name: string, cache: map<JsonText, Value>,
                     loaders: map<JsonText, BatchConfig>, o: Fields, f: Value -> Value)
    ensures var out := LoadOutcome(d, svc, name, cache, loaders, o, f);
      var lk := KeyText(name, LoaderFields(o), f);
      (out.loader.Some? ==> lk == Some(out.loader.value.0)) &&
      (out.loader.Some? && out.loader.value.0 in loaders ==> out.loader.value.1 == loaders[out.loader.value.0]) &&
      (out.loader.Some? && out.loader.value.0 !in loaders ==>
        out.loader.value.1 == BatchConfig(Lookup(o, "key"), Lookup(o, "multi"), Lookup(o, "method"), Lookup(o, "params")) &&
        FindMethod(Lookup(o, "method")) in svc.methods)
  {
  }

  /** A new loader needs `find` (`_find` for `_load`): without it the request
      rejects before anything is registered or called. With it, or with a
      loader already registered, the loader is registered even when the
      batch then fails. */
  lemma MissingFindRejects(d: Dialect, svc: Service, name: string, cache: map<JsonText, Value>,
                           loaders: map<JsonText, BatchConfig>, o: Fields, f: Value -> Value)
    requires var ck := KeyText(name, Put(o, "id", SortedId(Lookup(o, "id"))), f);
      ck.Some? && !Hit(cache, ck.value) && KeyText(name, LoaderFields(o), f).Some?
    ensures var out := LoadOutcome(d, svc, name, cache, loaders, o, f);
      var lk := KeyText(name, LoaderFields(o), f).value;
      (lk !in loaders && FindMethod(Lookup(o, "method")) !in svc.methods ==> out == Rejected) &&
      (lk in loaders || FindMethod(Lookup(o, "method")) in svc.methods ==> out.loader.Some?)
  {
  }

  /** One `exec` makes at most one backend call: a plain call, or one batch. */
  lemma AtMostOneCall(d: Dialect, svc: Service, name: string, key: Value, defaultFn: Value -> Value,
                      cache: map<JsonText, Value>, loaders: map<JsonText, BatchConfig>,
                      options: Fields, cacheParamsFn: Option<Value -> Value>)
    ensures |ExecOutcome(d, svc, name, key, defaultFn, cache, loaders, options, cacheParamsFn).requests| <= 1
  {
    var o := ExecOptions(d, key, options);
    var f := ParamsFn(defaultFn, cacheParamsFn);
    if !IsPlain(Lookup(o, "method")) {
      LoadAtMostOneCall(d, svc, name, cache, loaders, o, f);
    }
  }

  lemma LoadAtMostOneCall(d: Dialect, svc: Service, name: string, cache: map<JsonText, Value>,
                          loaders: map<JsonText, BatchConfig>, o: Fields, f: Value -> Value)
    ensures |LoadOutcome(d, svc, name, cache, loaders, o, f).requests| <= 1
  {
    var sorted := SortedId(Lookup(o, "id"));
    var created := BatchConfig(Lookup(o, "key"), Lookup(o, "multi"), Lookup(o, "method"), Lookup(o, "params"));
    SortedLoadAtMostOneCall(d, svc, name, cache, loaders, sorted, Put(o, "id", sorted), LoaderFields(o), created, f);
  }

  lemma SortedLoadAtMostOneCall(d: Dialect, svc: Service, name: string, cache: map<JsonText, Value>,
                                loaders: map<JsonText, BatchConfig>, sorted: Value, keyed: Fields, shape: Fields,
                                created: BatchConfig, f: Value -> Value)
    ensures |SortedLoadOutcome(d, svc, name, cache, loaders, sorted, keyed, shape, created, f).requests| <= 1
  {
    var lk := KeyText(name, shape, f);
    if lk.Some? {
      DispatchAtMostOneCall(d, svc, if lk.value in loaders then loaders[lk.value] else created, sorted);
    }
  }

  lemma DispatchAtMostOneCall(d: Dialect, svc: Service, config: BatchConfig, sortedId: Value)
    ensures |Dispatch(d, svc, config, sortedId).1| <= 1
  {
    if sortedId.Arr? && HasNullish(sortedId.items) {
      var n := FirstNullish(sortedId.items);
      if n > 0 {
        assert |BatchRun(d, svc, config, sortedId.items[..n]).1| <= 1;
      }
    } else if !sortedId.Arr? || sortedId.items != [] {
      var keys := if sortedId.Arr? then sortedId.items else [sortedId];
      assert |BatchRun(d, svc, config, keys).1| <= 1;
    }
  }

  /** The loader key leaves the id out: requests that differ only in their
      ids share one DataLoader. */
  lemma LoaderKeyIgnoresId(d: Dialect, name: string, key: Value, defaultFn: Value -> Value,
                           options: Fields, cacheParamsFn: Option<Value -> Value>, x: Value, y: Value)
    ensures LoaderKeyOf(d, name, key, defaultFn, options + [("id", x)], cacheParamsFn) ==
            LoaderKeyOf(d, name, key, defaultFn, options + [("id", y)], cacheParamsFn)
  {
    var o := ExecOptions(d, key, options);
    ExecOptionsSnoc(d, key, options, "id", x);
    ExecOptionsSnoc(d, key, options, "id", y);
    LoaderFieldsIgnoreId(o, x);
    LoaderFieldsIgnoreId(o, y);
  }

  lemma LoaderFieldsIgnoreId(o: Fields, x: Value)
    ensures LoaderFields(Put(o, "id", x)) == LoaderFields(o)
  {
    LookupPut(o, "id", x, "key");
    LookupPut(o, "id", x, "multi");
    LookupPut(o, "id", x, "method");
    LookupPut(o, "id", x, "params");
  }

  /** Writing the same property twice keeps only the second value. */
  lemma PutPut(f: Fields, k: string, x: Value, y: Value)
    ensures Put(Put(f, k, x), k, y) == Put(f, k, y)
  {
    var g := Put(f, k, x);
    if IndexOf(f, k) < 0 {
      assert g[|f|].0 == k;
      assert forall j :: 0 <= j < |f| ==> g[j].0 == f[j].0;
      assert IndexOf(g, k) == |f|;
    } else {
      IndexOfPrefixKeys(f, g, k);
    }
  }

  /** Two `load` requests whose id arrays hold the same ids in different
      orders do exactly the same thing: one cache key, one loader, the same
      batch of sorted ids, the same result. Ids must not repeat a string
      form with a different value (`1` and `"1"`), whose relative order the
      sort keeps. */
  lemma LoadPermutedIdsAgree(d: Dialect, svc: Service, name: string, cache: map<JsonText, Value>,
                             loaders: map<JsonText, BatchConfig>, o: Fields, f: Value -> Value,
                             a: seq<Value>, b: seq<Value>)
    requires multiset(a) == multiset(b)
    requires forall x, y :: x in a && y in a && ToStr(x) == ToStr(y) ==> x == y
    ensures LoadOutcome(d, svc, name, cache, loaders, Put(o, "id", Arr(a)), f) ==
            LoadOutcome(d, svc, name, cache, loaders, Put(o, "id", Arr(b)), f)
  {
    var oa, ob := Put(o, "id", Arr(a)), Put(o, "id", Arr(b));
    SortByPermutationsAgree(ToStr, a, b);
    LookupPut(o, "id", Arr(a), "id");
    LookupPut(o, "id", Arr(b), "id");
    var sorted := SortedId(Lookup(oa, "id"));
    assert sorted == SortedId(Lookup(ob, "id"));
    PutPut(o, "id", Arr(a), sorted);
    PutPut(o, "id", Arr(b), sorted);
    LoaderFieldsIgnoreId(o, Arr(a));
    LoaderFieldsIgnoreId(o, Arr(b));
    LookupPut(o, "id", Arr(a), "key");
    LookupPut(o, "id", Arr(b), "key");
    LookupPut(o, "id", Arr(a), "multi");
    LookupPut(o, "id", Arr(b), "multi");
    LookupPut(o, "id", Arr(a), "method");
    LookupPut(o, "id", Arr(b), "method");
    LookupPut(o, "id", Arr(a), "params");
    LookupPut(o, "id", Arr(b), "params");
  }

  /** The same, for two `exec` calls that differ only in the order of their
      ids. */
  lemma ExecPermutedIdsAgree(d: Dialect, svc: Service, name: string, key: Value, defaultFn: Value -> Value,
                             cache: map<JsonText, Value>, loaders: map<JsonText, BatchConfig>,
                             options: Fields, cacheParamsFn: Option<Value -> Value>, a: seq<Value>, b: seq<Value>)
    requires !IsPlain(Lookup(ExecOptions(d, key, options), "method"))
    requires multiset(a) == multiset(b)
    requires forall x, y :: x in a && y in a && ToStr(x) == ToStr(y) ==> x == y
    ensures ExecOutcome(d, svc, name, key, defaultFn, cache, loaders, options + [("id", Arr(a))], cacheParamsFn) ==
            ExecOutcome(d, svc, name, key, defaultFn, cache, loaders, options + [("id", Arr(b))], cacheParamsFn)
  {
    var o := ExecOptions(d, key, options);
    ExecOptionsSnoc(d, key, options, "id", Arr(a));
    ExecOptionsSnoc(d, key, options, "id", Arr(b));
    LookupPut(o, "id", Arr(a), "method");
    LookupPut(o, "id", Arr(b), "method");
    LoadPermutedIdsAgree(d, svc, name, cache, loaders, o, ParamsFn(defaultFn, cacheParamsFn), a, b);
  }

  // ---------------------------------------------------------------------
  // The batch

  /** The params a batch sends: the caller's params with `paginate: false`
      and a query in which `key` asks for the de-duplicated ids with `$in`,
      the caller's other query properties kept; TS also drops `$limit`.
      Reading `params.query` throws for `null` params. */
  lemma BatchParamsShape(d: Dialect, key: Value, params: Value, keys: seq<Value>, k: string)
    ensures BatchParams(d, key, params, keys).None? <==> params.Null?
    ensures BatchParams(d, key, params, keys).Some? ==>
      var p := if params.Undefined? then Obj([]) else params;
      var sent := BatchParams(d, key, params, keys).value;
      sent.Obj? && Lookup(sent.fields, "paginate") == Bool(false) &&
      Lookup(sent.fields, "query").Obj? &&
      (k != "paginate" && k != "query" ==> Lookup(sent.fields, k) == Lookup(SpreadOf(p), k)) &&
      Lookup(Lookup(sent.fields, "query").fields, k) ==
        if d == Ts && k == "$limit" then Undefined
        else if k == ToStr(key) then Obj([("$in", Arr(Dedup(keys)))])
        else Lookup(SpreadOf(Get(p, "query")), k)
  {
    if !params.Null? {
      var p := if params.Undefined? then Obj([]) else params;
      var query := Put(SpreadOf(Get(p, "query")), ToStr(key), Obj([("$in", Arr(Dedup(keys)))]));
      var query' := if d == Ts then Delete(query, "$limit") else query;
      var withPaginate := Put(SpreadOf(p), "paginate", Bool(false));
      LookupPut(SpreadOf(Get(p, "query")), ToStr(key), Obj([("$in", Arr(Dedup(keys)))]), k);
      LookupDelete(query, "$limit", k);
      LookupPut(SpreadOf(p), "paginate", Bool(false), k);
      LookupPut(SpreadOf(p), "paginate", Bool(false), "paginate");
      LookupPut(withPaginate, "query", Obj(query'), k);
      LookupPut(withPaginate, "query", Obj(query'), "query");
      LookupPut(withPaginate, "query", Obj(query'), "paginate");
    }
  }

  /** `loadMany(ids)` answers with one result per id, in the order of the
      (sorted) ids, and `loadMany([])` calls nothing; otherwise the one call
      is the batch's `find` with the batch params. A nullish id rejects the
      call: the only batch is the one over the ids queued before it. */
  lemma DispatchOneResultPerId(d: Dialect, svc: Service, config: BatchConfig, sortedId: Value)
    ensures var r := Dispatch(d, svc, config, sortedId);
      var keys := if sortedId.Arr? then sortedId.items else [sortedId];
      var sent := BatchParams(d, config.key, config.params, keys);
      (sortedId == Arr([]) ==> r == (Some(Arr([])), [])) &&
      (sortedId.Arr? && r.0.Some? ==> r.0.value.Arr? && |r.0.value.items| == |sortedId.items|) &&
      (sortedId != Arr([]) && !HasNullish(keys) ==>
        r.1 == if sent.Some? then [Request(FindMethod(config.loadMethod), [sent.value])] else []) &&
      (HasNullish(keys) ==>
        var queued := BatchParams(d, config.key, config.params, keys[..FirstNullish(keys)]);
        r.0.None? &&
        r.1 == if FirstNullish(keys) > 0 && queued.Some? then [Request(FindMethod(config.loadMethod), [queued.value])] else [])
  {
  }

  // ---------------------------------------------------------------------
  // Keys and `clear`

  /** `stringifyKey` throws exactly when a function is reachable from the
      key object, for instance one left in the params. */
  lemma KeyTextFailsIffFn(name: string, o: Fields, f: Value -> Value)
    requires WellFormed(Obj(KeyObject(name, o, f)))
    ensures KeyText(name, o, f).None? <==> ContainsFn(Obj(KeyObject(name, o, f)))
  {
    SerFailsIffFn(Obj(KeyObject(name, o, f)));
  }

  /** Reading a property from the front of a property list. */
  lemma LookupCons(p: (string, Value), t: Fields, k: string)
    ensures Lookup([p] + t, k) == if p.0 == k then p.1 else Lookup(t, k)
  {
    assert ([p] + t)[1..] == t;
  }

  /** The canonical object has each property that survives stringification,
      with its canonical value. */
  lemma {:induction false} CanonMembersLookup(f: Fields, ks: seq<string>, j: nat, k: string)
    requires j <= |ks| && k in ks[j..]
    requires 0 <= IndexOf(f, k) && Emits(f[IndexOf(f, k)].1)
    ensures Lookup(CanonMembers(f, ks, j), k) == Canon(f[IndexOf(f, k)].1)
    decreases |ks| - j
  {
    var i := IndexOf(f, ks[j]);
    if ks[j] == k {
      assert f[i] in f;
      LookupCons((k, Canon(f[i].1)), CanonMembers(f, ks, j + 1), k);
    } else {
      assert k in ks[j + 1..] by { assert ks[j..] == [ks[j]] + ks[j + 1..]; }
      CanonMembersLookup(f, ks, j + 1, k);
      if 0 <= i && Emits(f[i].1) {
        assert f[i] in f;
        LookupCons((ks[j], Canon(f[i].1)), CanonMembers(f, ks, j + 1), k);
      }
    }
  }

  lemma CanonLookup(f: Fields, k: string)
    requires Distinct(KeysOf(f)) && 0 <= IndexOf(f, k) && Emits(f[IndexOf(f, k)].1)
    ensures Canon(Obj(f)).Obj? && Lookup(Canon(Obj(f)).fields, k) == Canon(f[IndexOf(f, k)].1)
  {
    var ks := SortKeys(KeysOf(f));
    SortKeysSorted(KeysOf(f));
    assert KeysOf(f)[IndexOf(f, k)] == k;
    assert k in Elems(KeysOf(f));
    assert k in Elems(ks);
    assert ks[0..] == ks;
    CanonMembersLookup(f, ks, 0, k);
  }

  /** A cache key made by a loader parses back to an object naming that
      loader's service and no other: `clear` deletes the loader's own keys
      and only those. */
  lemma KeyTextOwned(name: string, o: Fields, f: Value -> Value, k: JsonText, other: string)
    requires WellFormed(Obj(KeyObject(name, o, f))) && KeyText(name, o, f) == Some(k)
    ensures Owned(other, k) <==> other == name
  {
    var o1 := Put(o, "serviceName", Str(name));
    var fields := KeyObject(name, o, f);
    ParseStableStringify(Obj(fields));
    LookupPut(o, "serviceName", Str(name), "serviceName");
    LookupPut(o1, "params", f(Lookup(o, "params")), "serviceName");
    assert Lookup(fields, "serviceName") == Str(name);
    CanonLookup(fields, "serviceName");
  }

  /** On a shared cache, `clear` removes an entry that this loader wrote
      and keeps one that a loader of another service wrote. */
  lemma ClearScopedToService(entries: map<JsonText, Value>, name: string, seen: seq<JsonText>,
                             owner: string, o: Fields, f: Value -> Value, k: JsonText)
    requires k in entries && k in seen
    requires WellFormed(Obj(KeyObject(owner, o, f))) && KeyText(owner, o, f) == Some(k)
    ensures k in Cleared(entries, name, seen) <==> owner != name
  {
    KeyTextOwned(owner, o, f, k, name);
  }
}

=== FILE: stringify.dfy ===
/** `stableStringify` (src/utils.ts and src/utils.js): `JSON.stringify` with a
    replacer that rejects functions and re-creates every plain object with its
    property names sorted. The output is modelled as a stream of JSON tokens,
    so that escaping and number formatting stay out of the model; `Parse` is
    `JSON.parse` over the same tokens. */
module Stringify {
  import opened Json

  /** One lexical token of JSON text. */
  datatype Tok =
    | LBrace | RBrace | LBracket | RBracket | Colon | Comma
    | NullTok | BoolTok(b: bool) | NumTok(n: int) | StrTok(s: string)

  type JsonText = seq<Tok>

  /** What `JSON.stringify` does with one value: it throws (`Failed`),
      returns `undefined` (`Absent`, for an undefined value), or emits text. */
  datatype Stringified = Failed | Absent | Emitted(text: JsonText)

  /** Comma-separated concatenation of the given texts. */
  function Join(parts: seq<JsonText>): JsonText
  {
    if |parts| == 0 then []
    else if |parts| == 1 then parts[0]
    else parts[0] + [Comma] + Join(parts[1..])
  }

  /** The serialisation of one value, the replacer applied first: a function
      throws, a plain object is serialised with its property names in sorted
      order, an array in its own order. */
  function Ser(v: Value): Stringified
    decreases v, 1, 0
  {
    match v
    case Fn(_) => Failed
    case Undefined => Absent
    case Null => Emitted([NullTok])
    case Bool(b) => Emitted([BoolTok(b)])
    case Num(n) => Emitted([NumTok(n)])
    case Str(s) => Emitted([StrTok(s)])
    case Arr(items) =>
      (match ItemTexts(items, 0)
       case None => Failed
       case Some(ps) => Emitted([LBracket] + Join(ps) + [RBracket]))
    case Obj(f) =>
      (match MemberTexts(f, SortKeys(KeysOf(f)), 0)
       case None => Failed
       case Some(ps) => Emitted([LBrace] + Join(ps) + [RBrace]))
  }

  /** Texts of `items[i..]`; an undefined element is written as `null`. */
  function ItemTexts(items: seq<Value>, i: nat): Option<seq<JsonText>>
    requires i <= |items|
    decreases Arr(items), 0, |items| - i
  {
    if i == |items| then Some([])
    else
      assert items[i] in items;
      match Ser(items[i])
      case Failed => None
      case Absent => (match ItemTexts(items, i + 1) case None => None case Some(ps) => Some([[NullTok]] + ps))
      case Emitted(t) => (match ItemTexts(items, i + 1) case None => None case Some(ps) => Some([t] + ps))
  }

  /** Texts `"k":value` of the properties `ks[j..]` of `f`, in that order;
      a property whose value is undefined is left out. */
  function MemberTexts(f: seq<(string, Value)>, ks: seq<string>, j: nat): Option<seq<JsonText>>
    requires j <= |ks|
    decreases Obj(f), 0, |ks| - j
  {
    if j == |ks| then Some([])
    else
      var i := IndexOf(f, ks[j]);
      var s := if i < 0 then Absent else (assert f[i] in f; Ser(f[i].1));
      match s
      case Failed => None
      case Absent => MemberTexts(f, ks, j + 1)
      case Emitted(t) =>
        (match MemberTexts(f, ks, j + 1) case None => None case Some(ps) => Some([[StrTok(ks[j]), Colon] + t] + ps))
  }

  /** `stableStringify(v)`. */
  function StableStringify(v: Value): Stringified
  {
    Ser(v)
  }

  // ---------------------------------------------------------------------
  // The value that `JSON.parse` gives back for the emitted text.

  /** Whether a property or element of this value survives stringification. */
  predicate Emits(v: Value)
  {
    !v.Undefined? && !v.Fn?
  }

  /** The JSON data-model value described by `Ser(v)`: plain objects with
      sorted property names and no undefined-valued properties, arrays with
      undefined elements turned into null. */
  function Canon(v: Value): Value
    decreases v, 1, 0
  {
    match v
    case Fn(_) => Undefined
    case Arr(items) => Arr(CanonItems(items, 0))
    case Obj(f) => Obj(CanonMembers(f, SortKeys(KeysOf(f)), 0))
    case _ => v
  }

  function CanonItems(items: seq<Value>, i: nat): (r: seq<Value>)
    requires i <= |items|
    ensures |r| == |items| - i
    decreases Arr(items), 0, |items| - i
  {
    if i == |items| then []
    else
      assert items[i] in items;
      [if Emits(items[i]) then Canon(items[i]) else Null] + CanonItems(items, i + 1)
  }

  function CanonMembers(f: seq<(string, Value)>, ks: seq<string>, j: nat): seq<(string, Value)>
    requires j <= |ks|
    decreases Obj(f), 0, |ks| - j
  {
    if j == |ks| then []
    else
      var i := IndexOf(f, ks[j]);
      if i < 0 || !Emits(f[i].1) then CanonMembers(f, ks, j + 1)
      else (assert f[i] in f; [(ks[j], Canon(f[i].1))] + CanonMembers(f, ks, j + 1))
  }

  // ---------------------------------------------------------------------
  // JSON.parse

  /** Assignment of property `k` while parsing: a repeated name overwrites
      the value in its first position. */
  function Put(f: seq<(string, Value)>, k: string, v: Value): seq<(string, Value)>
  {
    var i := IndexOf(f, k);
    if i < 0 then f + [(k, v)] else f[i := (k, v)]
  }

  /** Parses one value at the front of `t`; returns it and the rest. */
  function ParseValue(t: JsonText): (r: Option<(Value, JsonText)>)
    ensures r.Some? ==> |r.value.1| < |t|
    decreases |t|, 0
  {
    if t == [] then None
    else
      match t[0]
      case NullTok => Some((Null, t[1..]))
      case BoolTok(b) => Some((Bool(b), t[1..]))
      case NumTok(n) => Some((Num(n), t[1..]))
      case StrTok(s) => Some((Str(s), t[1..]))
      case LBracket =>
        if |t| > 1 && t[1] == RBracket then Some((Arr([]), t[2..])) else ParseItems(t[1..], [])
      case LBrace =>
        if |t| > 1 && t[1] == RBrace then Some((Obj([]), t[2..])) else ParseMembers(t[1..], [])
      case _ => None
  }

  /** Parses `value (',' value)* ']'` after the elements `acc`. */
  function ParseItems(t: JsonText, acc: seq<Value>): (r: Option<(Value, JsonText)>)
    ensures r.Some? ==> |r.value.1| < |t|
    decreases |t|, 1
  {
    match ParseValue(t)
    case None => None
    case Some((x, rest)) =>
      if rest == [] then None
      else if rest[0] == Comma then ParseItems(rest[1..], acc + [x])
      else if rest[0] == RBracket then Some((Arr(acc + [x]), rest[1..]))
      else None
  }

  /** Parses `string ':' value (',' string ':' value)* '}'` after the
      properties `acc`. */
  function ParseMembers(t: JsonText, acc: seq<(string, Value)>): (r: Option<(Value, JsonText)>)
    ensures r.Some? ==> |r.value.1| < |t|
    decreases |t|, 1
  {
    if |t| < 2 || !t[0].StrTok? || t[1] != Colon then None
    else
      match ParseValue(t[2..])
      case None => None
      case Some((x, rest)) =>
        var acc' := Put(acc, t[0].s, x);
        if rest == [] then None
        else if rest[0] == Comma then ParseMembers(rest[1..], acc')
        else if rest[0] == RBrace then Some((Obj(acc'), rest[1..]))
        else None
  }

  // ---------------------------------------------------------------------
  // Values that differ only in the insertion order of object properties.

  /** `v` and `w` are the same value except that, at any depth, an object may
      list its properties in a different order. */
  predicate Reordered(v: Value, w: Value)
    decreases v, 1, 0
  {
    if v.Arr? && w.Arr? then
      |v.items| == |w.items| && ItemsReordered(v.items, w.items, 0)
    else if v.Obj? && w.Obj? then
      Elems(KeysOf(v.fields)) == Elems(KeysOf(w.fields)) && FieldsReordered(v.fields, w.fields, 0)
    else v == w
  }

  predicate ItemsReordered(a: seq<Value>, b: seq<Value>, i: nat)
    requires i <= |a| == |b|
    decreases Arr(a), 0, |a| - i
  {
    i == |a| || (assert a[i] in a; Reordered(a[i], b[i]) && ItemsReordered(a, b, i + 1))
  }

  predicate FieldsReordered(f: seq<(string, Value)>, g: seq<(string, Value)>, i: nat)
    requires i <= |f|
    decreases Obj(f), 0, |f| - i
  {
    i == |f| || (assert f[i] in f; Reordered(f[i].1, Lookup(g, f[i].0)) && FieldsReordered(f, g, i + 1))
  }

  /** `JSON.parse(text)`: one value and nothing after it; `None` is the
      SyntaxError the source would throw. */
  function Parse(t: JsonText): Option<Value>
  {
    match ParseValue(t)
    case Some((v, rest)) => if rest == [] then Some(v) else None
    case None => None
  }
}

module StringifyFacts {
  import opened Json
  import opened Stringify

  lemma {:induction false} FieldsContainFnExists(f: seq<(string, Value)>, i: nat)
    requires i <= |f|
    ensures FieldsContainFn(f, i) <==> exists j :: i <= j < |f| && ContainsFn(f[j].1)
    decreases |f| - i
  {
    if i < |f| { FieldsContainFnExists(f, i + 1); }
  }

  lemma {:induction false} MemberTextsFailExists(f: seq<(string, Value)>, ks: seq<string>, j: nat)
    requires j <= |ks|
    ensures MemberTexts(f, ks, j).None? <==>
      exists m :: j <= m < |ks| && 0 <= IndexOf(f, ks[m]) && Ser(f[IndexOf(f, ks[m])].1).Failed?
    decreases |ks| - j
  {
    if j < |ks| { MemberTextsFailExists(f, ks, j + 1); }
  }

  /** With distinct names, the index of a field's own name is that field. */
  lemma {:induction false} IndexOfDistinct(f: seq<(string, Value)>, j: nat)
    requires Distinct(KeysOf(f)) && j < |f|
    ensures IndexOf(f, f[j].0) == j
  {
    var ks := KeysOf(f);
    assert forall m :: 0 <= m < j ==> ks[m] != ks[j];
  }

  /** `stableStringify` throws exactly when a function is reachable from its
      argument, however deeply nested in objects or arrays. */
  lemma {:induction false} SerFailsIffFn(v: Value)
    requires WellFormed(v)
    ensures Ser(v).Failed? <==> ContainsFn(v)
    decreases v, 1, 0
  {
    match v
    case Arr(items) => ItemTextsFail(items, 0);
    case Obj(f) => MembersFail(f);
    case _ =>
  }

  lemma {:induction false} ItemTextsFail(items: seq<Value>, i: nat)
    requires i <= |items| && ItemsWellFormed(items, i)
    ensures ItemTexts(items, i).None? <==> ItemsContainFn(items, i)
    decreases Arr(items), 0, |items| - i
  {
    if i < |items| {
      assert items[i] in items;
      SerFailsIffFn(items[i]);
      ItemTextsFail(items, i + 1);
    }
  }

  lemma {:induction false} MembersFail(f: seq<(string, Value)>)
    requires WellFormed(Obj(f))
    ensures MemberTexts(f, SortKeys(KeysOf(f)), 0).None? <==> FieldsContainFn(f, 0)
    decreases Obj(f), 0, 0
  {
    var ks := SortKeys(KeysOf(f));
    SortKeysSorted(KeysOf(f));
    FieldsContainFnExists(f, 0);
    MemberTextsFailExists(f, ks, 0);
    forall j | 0 <= j < |f| ensures Ser(f[j].1).Failed? <==> ContainsFn(f[j].1) {
      assert f[j] in f;
      FieldWellFormed(f, 0, j);
      SerFailsIffFn(f[j].1);
    }
    if FieldsContainFn(f, 0) {
      var j :| 0 <= j < |f| && ContainsFn(f[j].1);
      assert f[j].0 in Elems(KeysOf(f));
      var m :| 0 <= m < |ks| && ks[m] == f[j].0;
      IndexOfDistinct(f, j);
    }
  }

  lemma {:induction false} ItemWellFormed(a: seq<Value>, i: nat, j: nat)
    requires i <= j < |a| && ItemsWellFormed(a, i)
    ensures WellFormed(a[j])
    decreases j - i
  {
    if i < j { ItemWellFormed(a, i + 1, j); }
  }

  lemma {:induction false} FieldReorderedAt(f: seq<(string, Value)>, g: seq<(string, Value)>, i: nat, j: nat)
    requires i <= j < |f| && FieldsReordered(f, g, i)
    ensures Reordered(f[j].1, Lookup(g, f[j].0))
    decreases j - i
  {
    if i < j { FieldReorderedAt(f, g, i + 1, j); }
  }

  /** A name that one object has, an object with the same names has too. */
  lemma {:induction false} SameKeysSameIndexSign(f: seq<(string, Value)>, g: seq<(string, Value)>, k: string)
    requires Elems(KeysOf(f)) == Elems(KeysOf(g))
    ensures (0 <= IndexOf(f, k)) == (0 <= IndexOf(g, k))
  {
    if 0 <= IndexOf(f, k) {
      assert KeysOf(f)[IndexOf(f, k)] == k;
      assert k in Elems(KeysOf(g));
      var m :| 0 <= m < |g| && KeysOf(g)[m] == k;
    }
    if 0 <= IndexOf(g, k) {
      assert KeysOf(g)[IndexOf(g, k)] == k;
      assert k in Elems(KeysOf(f));
      var m :| 0 <= m < |f| && KeysOf(f)[m] == k;
    }
  }

  /** Sorting the names of two objects with the same property names gives
      the same list. */
  lemma {:induction false} SameKeysSameOrder(f: seq<(string, Value)>, g: seq<(string, Value)>)
    requires Distinct(KeysOf(f)) && Distinct(KeysOf(g))
    requires Elems(KeysOf(f)) == Elems(KeysOf(g))
    ensures SortKeys(KeysOf(f)) == SortKeys(KeysOf(g))
  {
    SortKeysSorted(KeysOf(f));
    SortKeysSorted(KeysOf(g));
    StrictlySortedUnique(SortKeys(KeysOf(f)), SortKeys(KeysOf(g)));
  }

  /** Canonicalisation: two values that differ only in the insertion order
      of object properties, at any depth (also inside arrays), give the same
      `stableStringify` result and describe the same JSON value. */
  lemma {:induction false} ReorderedSameText(v: Value, w: Value)
    requires WellFormed(v) && WellFormed(w) && Reordered(v, w)
    ensures Ser(v) == Ser(w) && Canon(v) == Canon(w)
    decreases v, 1, 0
  {
    if v.Arr? && w.Arr? {
      ItemsReorderedSame(v.items, w.items, 0);
    } else if v.Obj? && w.Obj? {
      var f, g := v.fields, w.fields;
      SameKeysSameOrder(f, g);
      var ks := SortKeys(KeysOf(f));
      SortKeysSorted(KeysOf(f));
      MembersReorderedSame(f, g, ks, 0);
    }
  }

  lemma {:induction false} ItemsReorderedSame(a: seq<Value>, b: seq<Value>, i: nat)
    requires i <= |a| == |b|
    requires ItemsWellFormed(a, i) && ItemsWellFormed(b, i) && ItemsReordered(a, b, i)
    ensures ItemTexts(a, i) == ItemTexts(b, i) && CanonItems(a, i) == CanonItems(b, i)
    decreases Arr(a), 0, |a| - i
  {
    if i < |a| {
      assert a[i] in a;
      ReorderedSameText(a[i], b[i]);
      ItemsReorderedSame(a, b, i + 1);
    }
  }

  lemma {:induction false} MembersReorderedSame(f: seq<(string, Value)>, g: seq<(string, Value)>, ks: seq<string>, j: nat)
    requires j <= |ks|
    requires WellFormed(Obj(f)) && WellFormed(Obj(g))
    requires Elems(KeysOf(f)) == Elems(KeysOf(g)) && FieldsReordered(f, g, 0)
    ensures MemberTexts(f, ks, j) == MemberTexts(g, ks, j)
    ensures CanonMembers(f, ks, j) == CanonMembers(g, ks, j)
    decreases Obj(f), 0, |ks| - j
  {
    if j < |ks| {
      MembersReorderedSame(f, g, ks, j + 1);
      var k := ks[j];
      var i, i' := IndexOf(f, k), IndexOf(g, k);
      SameKeysSameIndexSign(f, g, k);
      if 0 <= i {
        assert f[i] in f;
        FieldReorderedAt(f, g, 0, i);
        FieldWellFormed(f, 0, i);
        FieldWellFormed(g, 0, i');
        ReorderedSameText(f[i].1, g[i'].1);
      }
    }
  }

  lemma {:induction false} FieldWellFormed(f: seq<(string, Value)>, i: nat, j: nat)
    requires i <= j < |f| && FieldsWellFormed(f, i)
    ensures WellFormed(f[j].1)
    decreases j - i
  {
    if i < j { FieldWellFormed(f, i + 1, j); }
  }
}

module ParseFacts {
  import opened Json
  import opened Stringify
  import opened StringifyFacts

  lemma {:induction false} SerTextStart(v: Value)
    requires Ser(v).Emitted?
    ensures |Ser(v).text| >= 1
    ensures Ser(v).text[0] != RBracket && Ser(v).text[0] != RBrace && Ser(v).text[0] != Comma
  {
  }

  lemma {:induction false} JoinHead(ps: seq<JsonText>)
    requires |ps| >= 1 && |ps[0]| >= 1
    ensures |Join(ps)| >= 1 && Join(ps)[0] == ps[0][0]
  {
  }

  lemma {:induction false} JoinCons(p: JsonText, ps: seq<JsonText>, tail: JsonText)
    ensures |ps| == 0 ==> Join([p] + ps) + tail == p + tail
    ensures |ps| >= 1 ==> Join([p] + ps) + tail == p + ([Comma] + (Join(ps) + tail))
  {
    if |ps| == 0 {
      assert [p] + ps == [p];
    } else {
      JoinConsMore(p, ps);
      var j := Join(ps);
      assert p + [Comma] + j + tail == p + ([Comma] + (j + tail));
    }
  }

  lemma {:induction false} JoinConsMore(p: JsonText, ps: seq<JsonText>)
    requires |ps| >= 1
    ensures Join([p] + ps) == p + [Comma] + Join(ps)
  {
    var q := [p] + ps;
    assert q[0] == p && q[1..] == ps;
  }

  /** The text of one array element: an undefined element is written as null. */
  function ItemText(x: Value): JsonText
    requires !Ser(x).Failed?
  {
    if Ser(x).Absent? then [NullTok] else Ser(x).text
  }

  function CanonItem(x: Value): Value
  {
    if Emits(x) then Canon(x) else Null
  }

  /** Serialisation of property `k` of `f`, `Absent` when there is none. */
  function FieldSer(f: seq<(string, Value)>, k: string): Stringified
  {
    var i := IndexOf(f, k);
    if i < 0 then Absent else Ser(f[i].1)
  }

  lemma {:induction false} ItemTextsUnfold(items: seq<Value>, i: nat)
    requires i < |items| && ItemTexts(items, i).Some?
    ensures !Ser(items[i]).Failed? && ItemTexts(items, i + 1).Some?
    ensures ItemTexts(items, i).value == [ItemText(items[i])] + ItemTexts(items, i + 1).value
    ensures CanonItems(items, i) == [CanonItem(items[i])] + CanonItems(items, i + 1)
  {
  }

  lemma {:induction false} MemberTextsUnfold(f: seq<(string, Value)>, ks: seq<string>, j: nat)
    requires j < |ks| && MemberTexts(f, ks, j).Some?
    ensures !FieldSer(f, ks[j]).Failed? && MemberTexts(f, ks, j + 1).Some?
    ensures FieldSer(f, ks[j]).Absent? ==>
      MemberTexts(f, ks, j) == MemberTexts(f, ks, j + 1) && CanonMembers(f, ks, j) == CanonMembers(f, ks, j + 1)
    ensures FieldSer(f, ks[j]).Emitted? ==>
      0 <= IndexOf(f, ks[j]) &&
      MemberTexts(f, ks, j).value
        == [[StrTok(ks[j]), Colon] + FieldSer(f, ks[j]).text] + MemberTexts(f, ks, j + 1).value &&
      CanonMembers(f, ks, j) == [(ks[j], Canon(f[IndexOf(f, ks[j])].1))] + CanonMembers(f, ks, j + 1)
  {
  }

  lemma {:induction false} ParseItemsStep(p: JsonText, r: JsonText, acc: seq<Value>, c: Value)
    requires ParseValue(p + r) == Some((c, r)) && |r| >= 1
    ensures r[0] == Comma ==> ParseItems(p + r, acc) == ParseItems(r[1..], acc + [c])
    ensures r[0] == RBracket ==> ParseItems(p + r, acc) == Some((Arr(acc + [c]), r[1..]))
  {
  }

  lemma {:induction false} ParseMembersStep(k: string, t: JsonText, r: JsonText, acc: seq<(string, Value)>, c: Value)
    requires ParseValue(t + r) == Some((c, r)) && |r| >= 1
    ensures r[0] == Comma ==>
      ParseMembers([StrTok(k), Colon] + (t + r), acc) == ParseMembers(r[1..], Put(acc, k, c))
    ensures r[0] == RBrace ==>
      ParseMembers([StrTok(k), Colon] + (t + r), acc) == Some((Obj(Put(acc, k, c)), r[1..]))
  {
    var s := [StrTok(k), Colon] + (t + r);
    assert s[0] == StrTok(k) && s[1] == Colon && s[2..] == t + r;
  }

  lemma {:induction false} ItemTextsLength(items: seq<Value>, i: nat)
    requires i <= |items| && ItemTexts(items, i).Some?
    ensures |ItemTexts(items, i).value| == |items| - i
    decreases |items| - i
  {
    if i < |items| { ItemTextsLength(items, i + 1); }
  }

  lemma {:induction false} NoMemberTextsNoMembers(f: seq<(string, Value)>, ks: seq<string>, j: nat)
    requires j <= |ks| && MemberTexts(f, ks, j) == Some([])
    ensures CanonMembers(f, ks, j) == []
    decreases |ks| - j
  {
    if j < |ks| { NoMemberTextsNoMembers(f, ks, j + 1); }
  }

  lemma {:induction false} ItemTextsHead(items: seq<Value>, i: nat)
    requires i < |items| && ItemTexts(items, i).Some?
    ensures |ItemTexts(items, i).value| >= 1 && |ItemTexts(items, i).value[0]| >= 1
    ensures ItemTexts(items, i).value[0][0] != RBracket
  {
    if Ser(items[i]).Emitted? { SerTextStart(items[i]); }
  }

  lemma {:induction false} MemberTextsHead(f: seq<(string, Value)>, ks: seq<string>, j: nat)
    requires j <= |ks| && MemberTexts(f, ks, j).Some? && |MemberTexts(f, ks, j).value| >= 1
    ensures |MemberTexts(f, ks, j).value[0]| >= 2 && MemberTexts(f, ks, j).value[0][0].StrTok?
    decreases |ks| - j
  {
    if j < |ks| {
      MemberTextsUnfold(f, ks, j);
      if FieldSer(f, ks[j]).Absent? { MemberTextsHead(f, ks, j + 1); }
    }
  }

  /** JSON.parse is a left inverse of stableStringify: parsing the emitted
      text (followed by anything) gives back the canonical form of the value
      and leaves the rest untouched. */
  lemma {:induction false} ParseSer(v: Value, rest: JsonText)
    requires WellFormed(v) && Ser(v).Emitted?
    ensures ParseValue(Ser(v).text + rest) == Some((Canon(v), rest))
    decreases v, 2, 0
  {
    if v.Arr? {
      ParseSerArr(v.items, rest);
    } else if v.Obj? {
      ParseSerObj(v.fields, rest);
    } else {
      assert (Ser(v).text + rest)[1..] == rest;
    }
  }

  lemma {:induction false} ParseSerArr(items: seq<Value>, rest: JsonText)
    requires WellFormed(Arr(items)) && Ser(Arr(items)).Emitted?
    ensures ParseValue(Ser(Arr(items)).text + rest) == Some((Canon(Arr(items)), rest))
    decreases Arr(items), 1, 0
  {
    var ps := ItemTexts(items, 0).value;
    ItemTextsLength(items, 0);
    if |items| == 0 {
      assert Ser(Arr(items)).text + rest == [LBracket, RBracket] + rest;
    } else {
      ParseItemsSer(items, 0, [], rest);
      ItemTextsHead(items, 0);
      JoinHead(ps);
      var body := Join(ps) + [RBracket] + rest;
      assert Ser(Arr(items)).text + rest == [LBracket] + body;
      assert ([LBracket] + body)[1..] == body;
      assert [] + CanonItems(items, 0) == CanonItems(items, 0);
    }
  }

  lemma {:induction false} ParseSerObj(f: seq<(string, Value)>, rest: JsonText)
    requires WellFormed(Obj(f)) && Ser(Obj(f)).Emitted?
    ensures ParseValue(Ser(Obj(f)).text + rest) == Some((Canon(Obj(f)), rest))
    decreases Obj(f), 1, 0
  {
    var ks := SortKeys(KeysOf(f));
    SortKeysSorted(KeysOf(f));
    if |MemberTexts(f, ks, 0).value| == 0 {
      ParseEmptyObj(f, rest);
    } else {
      ParseMembersSer(f, ks, 0, [], rest);
      ParseObjBody(f, rest);
    }
  }

  /** An object none of whose properties is emitted parses as `{}`. */
  lemma {:induction false} ParseEmptyObj(f: seq<(string, Value)>, rest: JsonText)
    requires Ser(Obj(f)).Emitted?
    requires |MemberTexts(f, SortKeys(KeysOf(f)), 0).value| == 0
    ensures ParseValue(Ser(Obj(f)).text + rest) == Some((Canon(Obj(f)), rest))
  {
    NoMemberTextsNoMembers(f, SortKeys(KeysOf(f)), 0);
    assert Ser(Obj(f)).text + rest == [LBrace, RBrace] + rest;
  }

  /** The object's text is `{`, its members and `}`. */
  lemma {:induction false} ParseObjBody(f: seq<(string, Value)>, rest: JsonText)
    requires Ser(Obj(f)).Emitted?
    requires var ks := SortKeys(KeysOf(f));
      |MemberTexts(f, ks, 0).value| >= 1 &&
      ParseMembers(Join(MemberTexts(f, ks, 0).value) + [RBrace] + rest, [])
        == Some((Obj([] + CanonMembers(f, ks, 0)), rest))
    ensures ParseValue(Ser(Obj(f)).text + rest) == Some((Canon(Obj(f)), rest))
  {
    var ks := SortKeys(KeysOf(f));
    var ps := MemberTexts(f, ks, 0).value;
    MemberTextsHead(f, ks, 0);
    JoinHead(ps);
    var body := Join(ps) + [RBrace] + rest;
    assert Ser(Obj(f)).text + rest == [LBrace] + body;
    assert ([LBrace] + body)[1..] == body;
    assert [] + CanonMembers(f, ks, 0) == CanonMembers(f, ks, 0);
  }

  lemma {:induction false} ItemParse(x: Value, r: JsonText)
    requires WellFormed(x) && !Ser(x).Failed?
    ensures ParseValue(ItemText(x) + r) == Some((CanonItem(x), r))
    decreases x, 2, 1
  {
    if Ser(x).Emitted? {
      ParseSer(x, r);
    } else {
      assert ([NullTok] + r)[1..] == r;
    }
  }

  lemma {:induction false} ParseItemsSer(items: seq<Value>, i: nat, acc: seq<Value>, rest: JsonText)
    requires i < |items| && ItemsWellFormed(items, i) && ItemTexts(items, i).Some?
    ensures ParseItems(Join(ItemTexts(items, i).value) + [RBracket] + rest, acc)
         == Some((Arr(acc + CanonItems(items, i)), rest))
    decreases Arr(items), 0, |items| - i
  {
    var x := items[i];
    assert x in items;
    ItemTextsUnfold(items, i);
    ItemTextsLength(items, i + 1);
    var p := ItemText(x);
    var c := CanonItem(x);
    var ps' := ItemTexts(items, i + 1).value;
    var tail := [RBracket] + rest;
    assert Join(ItemTexts(items, i).value) + [RBracket] + rest == Join([p] + ps') + tail;
    JoinCons(p, ps', tail);
    if i + 1 == |items| {
      ItemParse(x, tail);
      ParseItemsStep(p, tail, acc, c);
      assert tail[1..] == rest;
      assert CanonItems(items, i) == [c];
    } else {
      var r := [Comma] + (Join(ps') + tail);
      ItemParse(x, r);
      ParseItemsStep(p, r, acc, c);
      assert r[1..] == Join(ps') + [RBracket] + rest;
      ParseItemsSer(items, i + 1, acc + [c], rest);
      assert acc + [c] + CanonItems(items, i + 1) == acc + CanonItems(items, i);
    }
  }

  /** The names already parsed all come before `ks[j]`, so `ks[j]` is new. */
  lemma {:induction false} PutFresh(ks: seq<string>, j: nat, acc: seq<(string, Value)>)
    requires StrictlySorted(ks) && j < |ks|
    requires forall n :: 0 <= n < |acc| ==> acc[n].0 in ks[..j]
    ensures IndexOf(acc, ks[j]) < 0
    ensures forall c: Value, n :: 0 <= n < |acc + [(ks[j], c)]| ==> (acc + [(ks[j], c)])[n].0 in ks[..j + 1]
  {
    var k := ks[j];
    forall n | 0 <= n < |acc| ensures acc[n].0 != k {
      var m :| 0 <= m < j && ks[m] == acc[n].0;
      assert StrLess(ks[m], ks[j]);
      StrLessIrreflexive(k);
    }
    assert ks[..j + 1] == ks[..j] + [k];
  }

  /** The last property of an object's text. */
  lemma {:induction false} ParseLastMember(k: string, t: JsonText, rest: JsonText,
                                           acc: seq<(string, Value)>, c: Value)
    requires ParseValue(t + ([RBrace] + rest)) == Some((c, [RBrace] + rest))
    requires IndexOf(acc, k) < 0
    ensures ParseMembers(Join([[StrTok(k), Colon] + t]) + [RBrace] + rest, acc)
         == Some((Obj(acc + [(k, c)]), rest))
  {
    var p := [StrTok(k), Colon] + t;
    var r := [RBrace] + rest;
    assert Join([p]) + [RBrace] + rest == [StrTok(k), Colon] + (t + r);
    ParseMembersStep(k, t, r, acc, c);
    assert r[1..] == rest;
  }

  /** A property followed by more properties in an object's text. */
  lemma {:induction false} ParseNextMember(k: string, t: JsonText, ps: seq<JsonText>, rest: JsonText,
                                           acc: seq<(string, Value)>, c: Value)
    requires |ps| >= 1
    requires ParseValue(t + ([Comma] + (Join(ps) + ([RBrace] + rest))))
          == Some((c, [Comma] + (Join(ps) + ([RBrace] + rest))))
    requires IndexOf(acc, k) < 0
    ensures ParseMembers(Join([[StrTok(k), Colon] + t] + ps) + [RBrace] + rest, acc)
         == ParseMembers(Join(ps) + [RBrace] + rest, acc + [(k, c)])
  {
    var p := [StrTok(k), Colon] + t;
    var r := [Comma] + (Join(ps) + ([RBrace] + rest));
    JoinConsMore(p, ps);
    assert Join([p] + ps) + [RBrace] + rest == [StrTok(k), Colon] + (t + r);
    ParseMembersStep(k, t, r, acc, c);
    assert r[1..] == Join(ps) + [RBrace] + rest;
  }

  lemma {:induction false} ParseMembersSer(f: seq<(string, Value)>, ks: seq<string>, j: nat,
                                           acc: seq<(string, Value)>, rest: JsonText)
    requires WellFormed(Obj(f)) && StrictlySorted(ks) && j <= |ks|
    requires MemberTexts(f, ks, j).Some? && |MemberTexts(f, ks, j).value| >= 1
    requires forall n :: 0 <= n < |acc| ==> acc[n].0 in ks[..j]
    ensures ParseMembers(Join(MemberTexts(f, ks, j).value) + [RBrace] + rest, acc)
         == Some((Obj(acc + CanonMembers(f, ks, j)), rest))
    decreases Obj(f), 0, |ks| - j, 1
  {
    MemberTextsUnfold(f, ks, j);
    var k := ks[j];
    PutFresh(ks, j, acc);
    if FieldSer(f, k).Absent? {
      ParseMembersSer(f, ks, j + 1, acc, rest);
    } else {
      var i := IndexOf(f, k);
      var c := Canon(f[i].1);
      if |MemberTexts(f, ks, j + 1).value| >= 1 {
        ParseMembersSer(f, ks, j + 1, acc + [(k, c)], rest);
      } else {
        NoMemberTextsNoMembers(f, ks, j + 1);
      }
      ParseMembersEmitted(f, ks, j, acc, rest, c);
    }
  }

  /** One emitted property followed by the parse of the others. */
  lemma {:induction false} ParseMembersEmitted(f: seq<(string, Value)>, ks: seq<string>, j: nat,
                                               acc: seq<(string, Value)>, rest: JsonText, c: Value)
    requires WellFormed(Obj(f)) && j < |ks|
    requires MemberTexts(f, ks, j).Some? && FieldSer(f, ks[j]).Emitted?
    requires IndexOf(acc, ks[j]) < 0 && c == Canon(f[IndexOf(f, ks[j])].1)
    requires MemberTexts(f, ks, j + 1).Some?
    requires |MemberTexts(f, ks, j + 1).value| == 0 ==> CanonMembers(f, ks, j + 1) == []
    requires |MemberTexts(f, ks, j + 1).value| >= 1 ==>
      ParseMembers(Join(MemberTexts(f, ks, j + 1).value) + [RBrace] + rest, acc + [(ks[j], c)])
        == Some((Obj(acc + [(ks[j], c)] + CanonMembers(f, ks, j + 1)), rest))
    ensures ParseMembers(Join(MemberTexts(f, ks, j).value) + [RBrace] + rest, acc)
         == Some((Obj(acc + CanonMembers(f, ks, j)), rest))
    decreases Obj(f), 0, |ks| - j, 0
  {
    MemberTextsUnfold(f, ks, j);
    var k := ks[j];
    var i := IndexOf(f, k);
    var t := FieldSer(f, k).text;
    var ps := MemberTexts(f, ks, j + 1).value;
    var more := CanonMembers(f, ks, j + 1);
    assert f[i] in f;
    FieldWellFormed(f, 0, i);
    if |ps| == 0 {
      ParseSer(f[i].1, [RBrace] + rest);
      ParseLastMember(k, t, rest, acc, c);
      assert [[StrTok(k), Colon] + t] + ps == [[StrTok(k), Colon] + t];
      assert acc + CanonMembers(f, ks, j) == acc + [(k, c)];
    } else {
      ParseSer(f[i].1, [Comma] + (Join(ps) + ([RBrace] + rest)));
      ParseNextMember(k, t, ps, rest, acc, c);
      assert acc + [(k, c)] + more == acc + CanonMembers(f, ks, j);
    }
  }

  /** `JSON.parse(stableStringify(v))` gives back the canonical form of `v`. */
  lemma {:induction false} ParseStableStringify(v: Value)
    requires WellFormed(v) && StableStringify(v).Emitted?
    ensures Parse(StableStringify(v).text) == Some(Canon(v))
  {
    ParseSer(v, []);
    assert Ser(v).text + [] == Ser(v).text;
  }

  /** Equal cache keys come only from values with the same canonical form. */
  lemma {:induction false} StableStringifyInjective(v: Value, w: Value)
    requires WellFormed(v) && WellFormed(w)
    requires StableStringify(v).Emitted? && StableStringify(v) == StableStringify(w)
    ensures Canon(v) == Canon(w)
  {
    ParseStableStringify(v);
    ParseStableStringify(w);
  }

  lemma {:induction false} CanonItemsAt(items: seq<Value>, i: nat, k: nat)
    requires i <= k < |items|
    ensures CanonItems(items, i)[k - i] == CanonItem(items[k])
    decreases k - i
  {
    if i < k { CanonItemsAt(items, i + 1, k); }
  }

  /** Arrays are never re-sorted: two arrays with the same key agree element
      by element, in their own order. */
  lemma {:induction false} ArraysKeepOrder(a: seq<Value>, b: seq<Value>)
    requires WellFormed(Arr(a)) && WellFormed(Arr(b))
    requires StableStringify(Arr(a)).Emitted? && StableStringify(Arr(a)) == StableStringify(Arr(b))
    ensures |a| == |b| && forall k :: 0 <= k < |a| ==> CanonItem(a[k]) == CanonItem(b[k])
  {
    StableStringifyInjective(Arr(a), Arr(b));
    forall k | 0 <= k < |a| ensures CanonItem(a[k]) == CanonItem(b[k]) {
      CanonItemsAt(a, 0, k);
      CanonItemsAt(b, 0, k);
    }
  }
}

module StringifyExample {
  import opened Json
  import opened Stringify
  import opened StringifyFacts

  /** Two parameter objects that list the same properties in different
      orders, at the top level and inside array elements, get one key. */
  lemma {:induction false} ConsistentKeyExample()
    ensures StableStringify(Obj([("id", Num(1)), ("array", Arr([Obj([("id", Num(1)), ("param", Bool(true))]), Obj([("param", Bool(true)), ("id", Num(2))])]))]))
         == StableStringify(Obj([("array", Arr([Obj([("param", Bool(true)), ("id", Num(1))]), Obj([("id", Num(2)), ("param", Bool(true))])])), ("id", Num(1))]))
  {
    var a1 := Obj([("id", Num(1)), ("param", Bool(true))]);
    var a2 := Obj([("param", Bool(true)), ("id", Num(1))]);
    var b1 := Obj([("param", Bool(true)), ("id", Num(2))]);
    var b2 := Obj([("id", Num(2)), ("param", Bool(true))]);
    var v := Obj([("id", Num(1)), ("array", Arr([a1, b1]))]);
    var w := Obj([("array", Arr([a2, b2])), ("id", Num(1))]);
    assert Reordered(a1, a2);
    assert Reordered(b1, b2);
    assert ItemsReordered([a1, b1], [a2, b2], 2);
    assert ItemsReordered([a1, b1], [a2, b2], 1);
    assert ItemsReordered([a1, b1], [a2, b2], 0);
    assert Lookup(w.fields, "array") == Arr([a2, b2]);
    assert Lookup(w.fields, "id") == Num(1);
    assert Reordered(Arr([a1, b1]), Arr([a2, b2]));
    assert FieldsReordered(v.fields, w.fields, 2);
    assert FieldsReordered(v.fields, w.fields, 1);
    assert FieldsReordered(v.fields, w.fields, 0);
    assert KeysOf(v.fields) == ["id", "array"] && KeysOf(w.fields) == ["array", "id"];
    assert Elems(KeysOf(v.fields)) == Elems(KeysOf(w.fields));
    assert Reordered(v, w);
    TwoFieldsWellFormed("id", Num(1), "param", Bool(true));
    TwoFieldsWellFormed("param", Bool(true), "id", Num(1));
    TwoFieldsWellFormed("param", Bool(true), "id", Num(2));
    TwoFieldsWellFormed("id", Num(2), "param", Bool(true));
    TwoItemsWellFormed(a1, b1);
    TwoItemsWellFormed(a2, b2);
    TwoFieldsWellFormed("id", Num(1), "array", Arr([a1, b1]));
    TwoFieldsWellFormed("array", Arr([a2, b2]), "id", Num(1));
    ReorderedSameText(v, w);
  }

  lemma {:induction false} TwoFieldsWellFormed(k1: string, x1: Value, k2: string, x2: Value)
    requires k1 != k2 && WellFormed(x1) && WellFormed(x2)
    ensures WellFormed(Obj([(k1, x1), (k2, x2)]))
  {
    var f := [(k1, x1), (k2, x2)];
    assert KeysOf(f) == [k1, k2];
    assert FieldsWellFormed(f, 2);
    assert FieldsWellFormed(f, 1);
  }

  lemma {:induction false} TwoItemsWellFormed(x1: Value, x2: Value)
    requires WellFormed(x1) && WellFormed(x2)
    ensures WellFormed(Arr([x1, x2]))
  {
    assert ItemsWellFormed([x1, x2], 2);
    assert ItemsWellFormed([x1, x2], 1);
  }
}

=== FILE: utils.dfy ===
/** The small helpers the loaders are built from: dotted-path field access,
    the default cache-parameter and cache-key extractors, and `uniqueKeys`,
    which removes duplicate ids before they are sent to the backend. */
module Utils {
  import opened Json

  // ---------------------------------------------------------------------
  // `path.split('.')` and `getByDotPath`

  /** `s.split(c)` for a one-character separator: always at least one part,
      empty parts kept. */
  function Split(s: string, c: char): (parts: seq<string>)
    ensures |parts| >= 1
    ensures forall p :: p in parts ==> c !in p
  {
    if s == [] then [""]
    else
      var rest := Split(s[1..], c);
      if s[0] == c then [""] + rest else [[s[0]] + rest[0]] + rest[1..]
  }

  /** `parts.join(c)`. */
  function JoinWith(parts: seq<string>, c: char): string
    requires |parts| >= 1
  {
    if |parts| == 1 then parts[0] else parts[0] + [c] + JoinWith(parts[1..], c)
  }

  /** Splitting loses nothing: joining the parts gives the path back. */
  lemma {:induction false} SplitJoin(s: string, c: char)
    ensures JoinWith(Split(s, c), c) == s
  {
    if s != [] {
      SplitJoin(s[1..], c);
      SplitJoinStep(s, c, Split(s[1..], c));
    }
  }

  /** One step of `SplitJoin`: the first character joins back onto the
      parts of the rest. */
  lemma SplitJoinStep(s: string, c: char, rest: seq<string>)
    requires s != [] && rest == Split(s[1..], c) && JoinWith(rest, c) == s[1..]
    ensures JoinWith(Split(s, c), c) == s
  {
    assert s == [s[0]] + s[1..];
    if s[0] != c && |rest| > 1 {
      assert ([[s[0]] + rest[0]] + rest[1..])[1..] == rest[1..];
    }
  }

  /** A name without the separator is a single part. */
  lemma {:induction false} SplitNoSeparator(s: string, c: char)
    requires c !in s
    ensures Split(s, c) == [s]
  {
    if s != [] {
      assert s[0] != c && c !in s[1..];
      SplitNoSeparator(s[1..], c);
      assert [s[0]] + s[1..] == s;
    }
  }

  /** The value reached by reading the properties `parts` one after the
      other; reading from `null` or `undefined` stops with `undefined`. */
  function DotPath(v: Value, parts: seq<string>): Value
    decreases |parts|
  {
    if parts == [] then v
    else if v.Null? || v.Undefined? then Undefined
    else DotPath(Get(v, parts[0]), parts[1..])
  }

  /** Reading a path in two pieces is reading it in one. */
  lemma {:induction false} DotPathConcat(v: Value, a: seq<string>, b: seq<string>)
    ensures DotPath(v, a + b) == DotPath(DotPath(v, a), b)
    decreases |a|
  {
    if a == [] {
      assert a + b == b;
    } else if v.Null? || v.Undefined? {
      DotPathNullish(v, b);
    } else {
      assert (a + b)[1..] == a[1..] + b;
      DotPathConcat(Get(v, a[0]), a[1..], b);
    }
  }

  lemma {:induction false} DotPathNullish(v: Value, parts: seq<string>)
    requires v.Null? || v.Undefined?
    ensures DotPath(v, parts) == (if parts == [] then v else Undefined)
  {
  }

  /** `getByDotPath(obj, path)`. */
  method GetByDotPath(obj: Value, path: string) returns (current: Value)
    ensures current == DotPath(obj, Split(path, '.'))
  {
    var parts := Split(path, '.');
    current := obj;
    var i := 0;
    while i < |parts|
      invariant 0 <= i <= |parts|
      invariant current == DotPath(obj, parts[..i])
      decreases |parts| - i
    {
      DotPathConcat(obj, parts[..i], parts[i..]);
      assert parts[..i] + parts[i..] == parts;
      if current.Null? || current.Undefined? {
        DotPathNullish(current, parts[i..]);
        return Undefined;
      }
      DotPathConcat(obj, parts[..i], [parts[i]]);
      assert parts[..i + 1] == parts[..i] + [parts[i]];
      current := Get(current, parts[i]);
      i := i + 1;
    }
    assert parts[..i] == parts;
  }

  /** As soon as a prefix of the path reaches `null` or `undefined`, the
      whole read is `undefined`. */
  lemma DotPathStopsAtNullish(v: Value, parts: seq<string>, i: nat)
    requires i < |parts|
    requires DotPath(v, parts[..i]).Null? || DotPath(v, parts[..i]).Undefined?
    ensures DotPath(v, parts) == Undefined
  {
    DotPathConcat(v, parts[..i], parts[i..]);
    assert parts[..i] + parts[i..] == parts;
    DotPathNullish(DotPath(v, parts[..i]), parts[i..]);
  }

  /** A one-part path is a single property read. */
  lemma DotPathSingle(v: Value, k: string)
    requires !v.Null? && !v.Undefined?
    ensures DotPath(v, [k]) == Get(v, k)
  {
    assert [k][1..] == [];
  }

  /** A path may go through arrays: `'tags.0'` reads the first element of
      the array under `tags`, and `'tags.length'` its length. */
  lemma DotPathThroughArray(v: Value, k: string, i: nat)
    requires !v.Null? && !v.Undefined? && Get(v, k).Arr? && i < |Get(v, k).items|
    ensures DotPath(v, [k, NatToDecimal(i)]) == Get(v, k).items[i]
    ensures DotPath(v, [k, "length"]) == Num(|Get(v, k).items|)
  {
    var items := Get(v, k).items;
    GetIndex(items, i);
    assert [k, NatToDecimal(i)][1..] == [NatToDecimal(i)];
    assert [k, "length"][1..] == ["length"];
    DotPathSingle(Arr(items), NatToDecimal(i));
    DotPathSingle(Arr(items), "length");
  }

  /** On a non-null value, a path without a dot is a direct property read,
      which is what the older lookup `item[key]` does. */
  lemma DotPathPlainKey(v: Value, key: string)
    requires '.' !in key && !v.Null? && !v.Undefined?
    ensures DotPath(v, Split(key, '.')) == Get(v, key)
  {
    SplitNoSeparator(key, '.');
    DotPathSingle(v, key);
  }

  // ---------------------------------------------------------------------
  // Default extractors

  /** The property names that take part in a cache key by default. */
  const CacheParamNames: seq<string> := ["provider", "authentication", "user", "query"]

  /** `defaultCacheParamsFn(params)`: a falsy `params` is returned as is,
      anything else is cut down to the four cache-relevant properties. */
  function DefaultCacheParams(params: Value): (r: Value)
    ensures !Truthy(params) ==> r == params
    ensures Truthy(params) ==>
      r.Obj? && KeysOf(r.fields) == CacheParamNames &&
      forall k :: k in CacheParamNames ==> Lookup(r.fields, k) == Get(params, k)
  {
    if !Truthy(params) then params
    else Obj([("provider", Get(params, "provider")),
              ("authentication", Get(params, "authentication")),
              ("user", Get(params, "user")),
              ("query", Get(params, "query"))])
  }

  /** Properties other than the four cache-relevant ones never change the
      extracted cache parameters. */
  lemma CacheParamsIgnoreOthers(p: Value, q: Value)
    requires Truthy(p) && Truthy(q)
    requires forall k :: k in CacheParamNames ==> Get(p, k) == Get(q, k)
    ensures DefaultCacheParams(p) == DefaultCacheParams(q)
  {
    assert Get(p, "provider") == Get(q, "provider");
    assert Get(p, "authentication") == Get(q, "authentication");
    assert Get(p, "user") == Get(q, "user");
    assert Get(p, "query") == Get(q, "query");
  }

  /** `defaultCacheKeyFn(id)` of src/utils.ts: `undefined` for a falsy id,
      otherwise its string form. */
  function DefaultCacheKey(id: Value): (r: Value)
    ensures r.Undefined? <==> !Truthy(id)
    ensures Truthy(id) ==> r.Str? && r.s == ToStr(id)
  {
    if !Truthy(id) then Undefined else Str(ToStr(id))
  }

  /** `defaultCacheKeyFn(id)` of src/utils.js: a falsy id is returned
      unchanged, otherwise its string form. */
  function DefaultCacheKeyJs(id: Value): (r: Value)
    ensures !Truthy(id) ==> r == id
    ensures Truthy(id) ==> r.Str? && r.s == ToStr(id)
  {
    if !Truthy(id) then id else Str(ToStr(id))
  }

  /** Two truthy ids share a cache key exactly when their string forms are
      equal, so `1` and `"1"` are the same key. */
  lemma CacheKeySameString(a: Value, b: Value)
    requires Truthy(a) && Truthy(b)
    ensures DefaultCacheKey(a) == DefaultCacheKey(b) <==> ToStr(a) == ToStr(b)
    ensures DefaultCacheKeyJs(a) == DefaultCacheKeyJs(b) <==> ToStr(a) == ToStr(b)
  {
  }

  // ---------------------------------------------------------------------
  // `uniqueKeys`

  /** The string forms of the elements of `s`. */
  function Strs(s: seq<Value>): set<string>
  {
    set x | x in s :: ToStr(x)
  }

  lemma StrsAppend(a: seq<Value>, x: Value)
    ensures Strs(a + [x]) == Strs(a) + {ToStr(x)}
  {
    assert forall y :: y in a + [x] <==> y in a || y == x;
  }

  /** Whether `a` is `b` with some elements left out. */
  predicate Subseq<T(==)>(a: seq<T>, b: seq<T>)
    decreases |b|
  {
    if a == [] then true
    else if b == [] then false
    else (a[|a| - 1] == b[|b| - 1] && Subseq(a[..|a| - 1], b[..|b| - 1])) || Subseq(a, b[..|b| - 1])
  }

  /** No two elements have the same string form. */
  predicate DistinctStrs(u: seq<Value>)
  {
    forall i, j :: 0 <= i < j < |u| ==> ToStr(u[i]) != ToStr(u[j])
  }

  /** The keys with duplicates removed, two keys being duplicates when their
      string forms are equal; the first occurrence is kept. */
  function Dedup(keys: seq<Value>): seq<Value>
    decreases |keys|
  {
    if keys == [] then []
    else
      var u := Dedup(keys[..|keys| - 1]);
      var k := keys[|keys| - 1];
      if ToStr(k) in Strs(u) then u else u + [k]
  }

  /** `uniqueKeys(keys)`. The dictionary `found` maps a key's string form to
      the 1-based position at which it entered `unique`. */
  method UniqueKeys(keys: seq<Value>) returns (unique: seq<Value>)
    ensures unique == Dedup(keys)
  {
    var found: map<string, nat> := map[];
    unique := [];
    var index := 0;
    while index < |keys|
      invariant 0 <= index <= |keys|
      invariant unique == Dedup(keys[..index])
      invariant found.Keys == Strs(unique)
      invariant forall s :: s in found ==> found[s] >= 1
    {
      var key := keys[index];
      var keyStr := ToStr(key);
      assert keys[..index + 1][..index] == keys[..index];
      if !(keyStr in found && found[keyStr] != 0) {
        StrsAppend(unique, key);
        unique := unique + [key];
        found := found[keyStr := |unique|];
      }
      index := index + 1;
    }
    assert keys[..index] == keys;
  }

  /** Every input key's string form appears in the output, and nothing else. */
  lemma {:induction false} DedupSameStrs(keys: seq<Value>)
    ensures Strs(Dedup(keys)) == Strs(keys)
    decreases |keys|
  {
    if keys != [] {
      var front := keys[..|keys| - 1];
      var k := keys[|keys| - 1];
      DedupSameStrs(front);
      assert keys == front + [k];
      StrsAppend(front, k);
      StrsAppend(Dedup(front), k);
    }
  }

  /** No two output keys have the same string form. */
  lemma {:induction false} DedupDistinct(keys: seq<Value>)
    ensures DistinctStrs(Dedup(keys))
    decreases |keys|
  {
    if keys != [] {
      var front := keys[..|keys| - 1];
      var k := keys[|keys| - 1];
      DedupDistinct(front);
      var u := Dedup(front);
      if ToStr(k) !in Strs(u) {
        forall i | 0 <= i < |u| ensures ToStr(u[i]) != ToStr(k) {
          assert u[i] in u;
        }
      }
    }
  }

  lemma {:induction false} SubseqExtend<T>(a: seq<T>, b: seq<T>, x: T)
    requires Subseq(a, b)
    ensures Subseq(a, b + [x])
  {
    assert (b + [x])[..|b|] == b;
  }

  /** The output is the input with some keys left out, in the input's order. */
  lemma {:induction false} DedupSubseq(keys: seq<Value>)
    ensures Subseq(Dedup(keys), keys)
    decreases |keys|
  {
    if keys != [] {
      var front := keys[..|keys| - 1];
      var k := keys[|keys| - 1];
      DedupSubseq(front);
      assert keys == front + [k];
      var u := Dedup(front);
      if ToStr(k) in Strs(u) {
        SubseqExtend(u, front, k);
      } else {
        assert (u + [k])[..|u|] == u;
      }
    }
  }

  /** `keys[p]` is `v`, and no earlier key has its string form. */
  predicate FirstOccurrenceAt(keys: seq<Value>, p: int, v: Value)
  {
    0 <= p < |keys| && keys[p] == v && ToStr(v) !in Strs(keys[..p])
  }

  /** `v` is in `keys` at a position no earlier key matches by string form. */
  ghost predicate FirstOccurrence(keys: seq<Value>, v: Value)
  {
    exists p :: FirstOccurrenceAt(keys, p, v)
  }

  /** Each output key is the first input key with its string form. */
  lemma DedupFirstOccurrences(keys: seq<Value>)
    ensures forall j :: 0 <= j < |Dedup(keys)| ==> FirstOccurrence(keys, Dedup(keys)[j])
  {
    forall j | 0 <= j < |Dedup(keys)|
      ensures FirstOccurrence(keys, Dedup(keys)[j])
    {
      var p := DedupFirstOccurrence(keys, j);
      assert FirstOccurrenceAt(keys, p, Dedup(keys)[j]);
    }
  }

  /** The position in `keys` of output key `j`, which no earlier key
      matches by string form. */
  lemma {:induction false} DedupFirstOccurrence(keys: seq<Value>, j: nat) returns (p: nat)
    requires j < |Dedup(keys)|
    ensures p < |keys| && keys[p] == Dedup(keys)[j] && ToStr(keys[p]) !in Strs(keys[..p])
    decreases |keys|
  {
    var n := |keys| - 1;
    var front := keys[..n];
    var u := Dedup(front);
    if j < |u| {
      p := DedupFirstOccurrence(front, j);
      assert keys[..p] == front[..p];
    } else {
      DedupSameStrs(front);
      p := n;
    }
  }

  /** The names a plain JavaScript object inherits from Object.prototype;
      reading one of them from an empty dictionary gives a truthy value. */
  const ObjectPrototypeNames: set<string> :=
    {"constructor", "hasOwnProperty", "isPrototypeOf", "propertyIsEnumerable",
     "toLocaleString", "toString", "valueOf", "__proto__",
     "__defineGetter__", "__defineSetter__", "__lookupGetter__", "__lookupSetter__"}

  /** `uniqueKeys` as written: `found` is a plain object, so `!found[keyStr]`
      is also false for a name `found` inherits, and such a key is dropped. */
  function UniqueKeysAsWritten(keys: seq<Value>): seq<Value>
    decreases |keys|
  {
    if keys == [] then []
    else
      var u := UniqueKeysAsWritten(keys[..|keys| - 1]);
      var k := keys[|keys| - 1];
      if ToStr(k) in Strs(u) || ToStr(k) in ObjectPrototypeNames then u else u + [k]
  }

  /** The id "constructor" disappears from the keys sent to the backend, so
      its record is never fetched. */
  lemma UniqueKeysAsWrittenDropsInheritedNames()
    ensures UniqueKeysAsWritten([Str("constructor")]) == []
    ensures Strs(UniqueKeysAsWritten([Str("constructor")])) != Strs([Str("constructor")])
    ensures Dedup([Str("constructor")]) == [Str("constructor")]
  {
    assert [Str("constructor")][..0] == [];
    assert "constructor" in ObjectPrototypeNames;
    assert Str("constructor") in [Str("constructor")];
    assert "constructor" in Strs([Str("constructor")]);
  }
}
